=== FILE: README.md ===
# Attendance bot core, modelled in Dafny

This project models the core of a Telegram attendance bot. Employees press
reply-keyboard buttons to start and end a working day ("Начал", "Закончил") and
to leave for and return from a break ("Отошел", "Вернулся"). They keep
personal reminders, each fired once by a job queue. Administrators build
per-period reports of the hours worked in their department and division.

The model covers three parts:

- **The store** (`store.dfy`, module `Store`). These are the five tables and the
  store calls of `models.py`. Each call is a pure function from the store before
  it to the store after its commit. A call whose query raises (a foreign key that
  does not resolve, `fetchone()` finding no row) commits nothing and returns `Err`.
- **The shift and break state machine** (`shift.dfy`, module `Shift`). These are
  the four button handlers of `handlers/work.py` and the user-state query they
  share. The module has an invariant over the store that every event preserves,
  and a proof that every reachable store satisfies it.
- **The reminder conversation and the report arithmetic.** `reminders.dfy`
  (module `Reminders`) covers the listing text, the delete buttons, the
  date-time prompt, the job names, the conversation's handler table and
  whole conversations. `reports.dfy` (module `Reports`) covers the report
  query, the duration format, the text report and the report conversation.

Supporting modules:

- `base.dfy` (`Base`): `Option` and `Result`.
- `text.dfy` (`Text`): decimal numerals, `str()`, `int()`, `str.strip()`,
  `str.split()` and `str.join()`.
- `calendar.dfy` (`Calendar`): the proleptic Gregorian calendar, with day
  ordinals and timestamps in seconds.
- `date_format.dfy` (`DateFormat`): `strptime` and `strftime` for
  `%Y-%m-%d` and `%Y-%m-%d %H:%M`, including CPython's leniency for one-digit
  fields.
- `query.dfy` (`Query`): `WHERE`, `ORDER BY … DESC LIMIT 1` and `ORDER BY`
  over a table held as a sequence of rows.

Time is an integer count of seconds since 0001-01-01 00:00. This is the scale
of Python's date ordinals, so `started_at::date` is `ts / 86400 + 1`. The
current time (`datetime.now()`) is a parameter of every operation that reads it.

## Model

| member | source | states |
|---|---|---|
| Text.IntToString | handlers/reminders.py:57 | `str()` of an integer is non-empty, all digits exactly when the value is not negative, and starts with `-` exactly when it is negative |
| Text.IntToStringInjective | handlers/reminders.py:140 | two integers that print the same are equal, so a printed id names one value |
| Text.ParseIntToString | handlers/reminders.py:83 | `int()` of a printed integer gives that integer back |
| Text.PaddedDigits | handlers/reports.py:92 | the `:02d` conversion writes exactly `width` digits whose decimal value is the number |
| Text.Strip | handlers/reminders.py:113 | `.strip()` returns a slice of its input that neither starts nor ends with whitespace, and everything cut from the end is whitespace |
| Text.StripKeeps | handlers/reminders.py:113 | `.strip()` leaves text that starts and ends with non-whitespace unchanged |
| Text.SplitAfter | handlers/reminders.py:59 | splitting at a separator stops after a first piece that holds none |
| Text.TitledLines | handlers/reports.py:155 | a title and lines joined by a separator that none of them holds split back into exactly that title and those lines |
| Calendar.OrdinalOrder | handlers/reports.py:70 | on valid dates, Python's date comparison agrees with comparing day ordinals, and equal ordinals mean equal dates |
| Calendar.SecondsOrder | handlers/reminders.py:123 | on valid values, Python's naive-datetime comparison agrees with comparing timestamps, and equal timestamps mean equal values |
| Calendar.DayOfSeconds | handlers/reports.py:121 | `started_at::date` of a minute's timestamp is that minute's date |
| DateFormat.ParseDate | handlers/reports.py:52 | `strptime(…, "%Y-%m-%d")` accepts only valid dates, reads the year from four digits, and spans 8 to 10 characters |
| DateFormat.ParseDateTime | handlers/reminders.py:115 | `strptime(…, "%Y-%m-%d %H:%M")` accepts only valid minutes and reads the year from the first four characters |
| DateFormat.FormatDate | handlers/reports.py:135 | a date prints as ten characters: the year in four zero-padded digits, `-`, the month in two, `-`, the day in two |
| DateFormat.FormatDateTime | handlers/reminders.py:56 | a minute prints as sixteen characters: the printed date, a space, the hour in two zero-padded digits, `:`, the minute in two |
| DateFormat.ParseFormatDate | handlers/reports.py:52 | what `strftime("%Y-%m-%d")` writes, `strptime` reads back as the same date |
| DateFormat.ParseFormatDateTime | handlers/reminders.py:115 | what `strftime("%Y-%m-%d %H:%M")` writes, `strptime` reads back as the same minute |
| DateFormat.FormatDateTimeLacks | handlers/reminders.py:56 | a printed minute holds no character other than digits, `-`, the space and `:` |
| DateFormat.FormatDateLacks | handlers/reports.py:137 | a printed date holds no character other than digits and `-` |
| DateFormat.StripFormatDateTime | handlers/reminders.py:113 | stripping a printed minute leaves it unchanged |
| DateFormat.ParseDateGrammar | handlers/reports.py:52 | `strptime(s, "%Y-%m-%d")` yields a date exactly when `s` is a `%Y`, a `%m` and a `%d` field joined by dashes, and the numbers they denote form that existing date |
| DateFormat.ParseDateTimeGrammar | handlers/reminders.py:115 | `strptime(s, "%Y-%m-%d %H:%M")` yields a minute exactly when `s` is `%Y-%m-%d`, a non-empty whitespace run and `%H:%M`, and the five numbers form that existing minute |
| Query.Filter | models.py:92-97 | `WHERE p` keeps exactly the rows `p` accepts, and never more rows than the table holds |
| Query.FilterCount | models.py:92-97 | `WHERE p` keeps each accepted row as often as the table holds it and drops every other |
| Query.FilterKeysDistinct | models.py:92-97 | rows drawn from a table with distinct keys have distinct keys |
| Query.FilterConcat | models.py:92-97 | filtering two tables one after the other is filtering each and concatenating |
| Query.Latest | models.py:34-38 | `ORDER BY … DESC LIMIT 1` finds an accepted row whose key no other accepted row exceeds, and finds nothing exactly when no row is accepted |
| Query.Insert | models.py:96 | inserting into a sorted sequence keeps it sorted and adds exactly that one element |
| Query.SortBy | models.py:96 | `ORDER BY` returns a sorted permutation of the rows |
| Store.FindEmployeeByTelegram | models.py:104-110 | `get_employee_by_telegram` returns a row with that telegram id, and returns none exactly when no row has it |
| Store.FindEmployee | models.py:82-84 | the lookup by id returns a row with that id, and returns none exactly when no row has it |
| Store.SetOnline | models.py:19-23 | `UPDATE online_status` sets the value of an existing row, leaves every other row alone, and adds no row |
| Store.AddOfflineStatus | models.py:14-18 | the status insert adds an offline row for a new employee, keeps an existing row's value, and changes no other table |
| Store.CreateEmployee | models.py:113-128 | `create_employee` returns the existing id for a known telegram id without inserting, and otherwise appends a row with the assumed column defaults (role `worker`, no overtime); either way the employee ends with a status row, and no other row changes |
| Store.CreateEmployeeRegisters | models.py:113-128 | after `create_employee` the telegram id resolves to the id it returned |
| Store.CreateEmployeeIdempotent | models.py:6-11 | a second registration under the same telegram id changes nothing and returns the same id |
| Store.LatestOpenSession | models.py:34-38 | `SELECT_ACTIVE_SESSION` returns an open session of the employee that started no earlier than any other open one, and returns none exactly when the employee has no open session |
| Store.CloseSessions | models.py:29-33 | `UPDATE_WORK_SESSION_END` ends every open session of the employee at the timestamp with duration `ts - started_at`, leaves every other row alone, and leaves no open session of that employee |
| Store.StartWorkSession | models.py:139-146 | `start_work_session` fails exactly for an unknown employee; otherwise it appends an open session starting now and sets the employee online, with no guard against a session already open |
| Store.EndWorkSession | models.py:149-156 | `end_work_session` leaves the employee with no open session, ends each formerly open session now, and sets the employee offline |
| Store.StartBreak | models.py:159-168 | `start_break` fails exactly when there is no open session; otherwise it appends an open break under the latest open session and sets the employee offline |
| Store.CloseBreak | models.py:44-48 | `UPDATE_BREAK_END` ends the rows with that id at the timestamp and leaves every other row alone |
| Store.EndBreak | models.py:171-185 | `end_break` fails without an open session, and fails with no open break under the latest open session; otherwise it ends the latest such break and sets the employee online |
| Store.GetColleagues | models.py:188-194 | `get_colleagues` lists the name of every online employee of the department and division, and each listed name belongs to such an employee |
| Store.OnlineColleagues | models.py:50-57 | the join keeps exactly the online employees of the department and division |
| Store.GetEmployeeOvertime | models.py:246-252 | `get_employee_overtime` is zero for an unknown employee or a missing value, and otherwise is the stored overtime |
| Store.CreateReminder | models.py:222-229 | `create_reminder` fails exactly for an unknown employee; otherwise it returns the row it appended under a fresh id, and nothing else changes |
| Store.GetReminders | models.py:231-237 | `get_reminders` returns the employee's reminders, each exactly as often as it is stored, in `remind_at` order |
| Store.RemindsNoLaterIsPreorder | models.py:96 | `remind_at` order is a total preorder, so `ORDER BY remind_at` is well defined |
| Store.DeleteReminder | models.py:239-244 | `delete_reminder` removes the rows with that id whoever owns them, changes nothing else, and changes nothing for an unknown id |
| Store.DeleteReminderCount | models.py:99-101 | the delete leaves every row with another id exactly as often as it was stored, and no row with the deleted id |
| Store.EmptyDbWf | models.py:6-101 | the empty store is well formed: unique ids below each sequence's next value, every reference resolvable, one status row per employee |
| Store.CreateEmployeeWf | models.py:113-128 | `create_employee` keeps the store well formed |
| Store.StartWorkSessionWf | models.py:139-146 | `start_work_session` keeps the store well formed |
| Store.EndWorkSessionWf | models.py:149-156 | `end_work_session` keeps the store well formed |
| Store.StartBreakWf | models.py:159-168 | `start_break` keeps the store well formed |
| Store.EndBreakWf | models.py:171-185 | `end_break` keeps the store well formed |
| Store.CreateReminderWf | models.py:222-229 | `create_reminder` keeps the store well formed |
| Store.DeleteReminderWf | models.py:239-244 | `delete_reminder` keeps the store well formed |
| Store.FreshReminder | models.py:86-90 | the row `create_reminder` adds carries an id no stored row has |
| Store.CreateThenList | models.py:222-237 | after `create_reminder(e, t, m)` the employee's list holds the returned row exactly once, with `t` and `m`, and no other listed row has its id |
| Store.CreateKeepsOtherLists | models.py:222-237 | creating a reminder leaves every other employee's list unchanged |
| Store.CreateThenDelete | models.py:222-244 | deleting the reminder just created restores the reminders table; only the id sequence has moved |
| Shift.GetUserState | handlers/work.py:32-40 | `_get_user_state` fails exactly when the telegram id has no employee or no status row; otherwise it reports the status value, whether a session is open and whether an open break hangs under an open session |
| Shift.OnStartWork | handlers/work.py:42-61 | "Начал" crashes exactly when the state query fails, is accepted exactly when the user is neither online nor in a session, and then opens a session starting now and sets the user online; of the status rows only the user's changes, and nothing else changes |
| Shift.OnEndWork | handlers/work.py:63-92 | "Закончил" is accepted exactly when the user is in a session, online and not on a break, and then ends every open session now and sets the user offline; of the status rows only the user's changes |
| Shift.OnStartBreak | handlers/work.py:95-112 | "Отошел" has the guard of "Закончил"; when accepted it opens a break under the latest open session and sets the user offline; of the status rows only the user's changes |
| Shift.CloseLatestBreak | handlers/work.py:126-147 | the handler's statement ends the latest open break over all of the employee's sessions, changes no break when there is none, and sets the user online |
| Shift.OnEndBreak | handlers/work.py:114-149 | "Вернулся" is accepted exactly when the user is on a break, and then closes the latest open break and sets the user online |
| Shift.EmptyDbInv | handlers/work.py:32-40 | the empty store satisfies the shift invariant |
| Shift.StateConsistent | handlers/work.py:32-40 | under the invariant the user's triple is off shift, working, or on a break, and never any other combination |
| Shift.StartWorkPreserves | handlers/work.py:42-61 | an accepted "Начал" keeps the invariant |
| Shift.EndWorkPreserves | handlers/work.py:63-92 | an accepted "Закончил" keeps the invariant |
| Shift.StartBreakPreserves | handlers/work.py:95-112 | an accepted "Отошел" keeps the invariant |
| Shift.EndBreakPreserves | handlers/work.py:114-149 | an accepted "Вернулся" keeps the invariant |
| Shift.CreateEmployeePreserves | models.py:113-128 | registration keeps the invariant, whether the telegram id was new or not |
| Shift.CreateEmployeeConsistent | models.py:113-128 | the employee `create_employee` returns is in a consistent state |
| Shift.CreateReminderPreserves | models.py:222-229 | adding a reminder keeps the invariant |
| Shift.DeleteReminderPreserves | models.py:239-244 | deleting a reminder keeps the invariant |
| Shift.StepPreserves | handlers/work.py:42-149 | every event (a button press, a registration, a reminder added or deleted) keeps the invariant |
| Shift.RunPreserves | handlers/work.py:42-149 | every sequence of events keeps the invariant |
| Shift.Reachable | handlers/work.py:32-149 | from the empty store, every store reached satisfies the invariant, every user is in one of the three states, and a press crashes only for an unregistered telegram id |
| Shift.CrashOnlyUnregistered | handlers/work.py:34-35 | under the invariant, `fetchone()` finds no status row only for an unregistered telegram id |
| Shift.StartWorkTwice | handlers/work.py:48-52 | a second "Начал" after an accepted one is refused |
| Shift.EndWorkTwice | handlers/work.py:69-72 | a second "Закончил" after an accepted one is refused |
| Shift.NoBreakAfterEndWork | handlers/work.py:101-104 | "Отошел" right after an accepted "Закончил" is refused |
| Shift.StartWorkUnguarded | models.py:139-146 | without the handler's guard, `start_work_session` opens a second session for an employee who already has one |
| Shift.LatestSessionIsOnly | models.py:34-38 | with one open session, the active-session query returns that session |
| Shift.StoreEndBreakCloses | models.py:171-185 | with one open break, under the one open session, `end_break` succeeds and closes exactly that break |
| Shift.EndBreakAgrees | handlers/work.py:126-141 | under the invariant, the handler's statement and the store's `end_break` close the same break and write the same store |
| Shift.EndBreakSameWrites | models.py:171-185 | for a consistent employee on a break, `end_break` succeeds and writes what the handler writes |
| Reminders.JobNameInjective | handlers/reminders.py:140 | a job name `reminder_<rid>_<owner>` determines both numbers |
| Reminders.CancelJobs | handlers/reminders.py:153-154 | cancelling by name removes exactly the jobs with that name and keeps every other job |
| Reminders.CancelUnknownName | handlers/reminders.py:153-154 | cancelling a name no job carries leaves the queue unchanged |
| Reminders.SendReminderJob | handlers/reminders.py:161-165 | the job sends to the chat it carries the text `Напоминание: ` followed by exactly the stored message |
| Reminders.ListingLineRoundTrip | handlers/reminders.py:55-57 | a listing line reads back as its reminder's id, minute and message |
| Reminders.ListingTextLines | handlers/reminders.py:59 | when no message holds a line break, the listing splits into the title and one line per reminder |
| Reminders.ListingTextRoundTrip | handlers/reminders.py:53-59 | when no message holds a line break, the listing is the title followed by one line per reminder in list order, each of which reads back as its reminder |
| Reminders.DeleteButtons | handlers/reminders.py:58 | there is one delete button per listed reminder, in list order, carrying `del_<id>` |
| Reminders.ListingButtons | handlers/reminders.py:47-64 | the listing keyboard is the add button, one delete button per reminder in list order, and the back button |
| Reminders.ListingButtonsMatch | handlers/reminders.py:169-171 | every button of the listing keyboard carries data the `LISTING` pattern admits |
| Reminders.ShowReminders | handlers/reminders.py:37-71 | `reminders_callback` shows a registered user's reminders in `remind_at` order, as the listing text and the listing keyboard, and sends anyone else the registration hint and ends the conversation |
| Reminders.DeleteDigitsOf | handlers/reminders.py:82-83 | data the list pattern admits with the `del_` prefix has only digits after the prefix |
| Reminders.ListChoice | handlers/reminders.py:73-96 | `handle_list_choice` asks for the text on `add_reminder`, stores the number after `del_` as the delete target and asks for confirmation, and ends the conversation otherwise |
| Reminders.DeleteButtonTargets | handlers/reminders.py:58 | a delete button passes the list pattern and stores exactly its reminder's id as the target |
| Reminders.AskReminderText | handlers/reminders.py:98-104 | `ask_reminder_text` keeps any text as the message and asks for the moment, with no other change |
| Reminders.ReadRemindAt | handlers/reminders.py:113-125 | the moment is refused as badly formatted exactly when the stripped text does not parse, and as not in the future exactly when it parses to a moment at or before now; an accepted moment lies after now |
| Reminders.ReadFormatted | handlers/reminders.py:113-125 | the text the bot prints for a future minute is accepted as that minute |
| Reminders.ReadPast | handlers/reminders.py:122-125 | a moment at or before now is refused however it is written |
| Reminders.SaveReminder | handlers/reminders.py:127-141 | saving appends the reminder row under the next id and schedules one job named after the row and the employee, due after a positive delay, with nothing else changed |
| Reminders.AskReminderDatetime | handlers/reminders.py:106-145 | an unregistered user ends the conversation; a refused moment asks again with nothing written; otherwise the reminder is saved and the listing follows |
| Reminders.SavedIsListed | handlers/reminders.py:127-145 | a saved reminder appears in the listing shown afterwards, and its job sends the user's text |
| Reminders.SaveReminderNamed | handlers/reminders.py:132-141 | after saving, the new job is the only job under its name |
| Reminders.ConfirmDelete | handlers/reminders.py:147-159 | as written, confirming deletes the target row and cancels jobs under `reminder_<rid>_<telegram id>`, then always raises |
| Reminders.ConfirmDeleteFixed | handlers/reminders.py:147-159 | as intended, confirming deletes the target row, cancels jobs under the employee id they were scheduled with, and returns a registered user to the listing |
| Reminders.DispatchAsWritten | handlers/reminders.py:167-180 | as written, text outside the prompts is ignored, and both confirm and cancel reach `confirm_delete` in the confirmation state |
| Reminders.Dispatch | handlers/reminders.py:167-180 | as intended, the confirmation state takes only the confirm button, and cancel ends the conversation with nothing changed |
| Reminders.DispatchKeepsConvInv | handlers/reminders.py:98-106 | under either handler table, the date prompt is reached only after a message was stored |
| Reminders.Converse | handlers/reminders.py:167-180 | a conversation never reaches the date prompt without a stored message |
| Reminders.StuckInConfirmation | handlers/reminders.py:159 | as written, once in the confirmation state the conversation stays there whatever the user sends |
| Reminders.ConfirmationEnds | handlers/reminders.py:174 | as intended, confirming returns a registered user to the listing, and cancelling ends the conversation with nothing changed |
| Reminders.CancelDeletesAsWritten | handlers/reminders.py:174 | as written, pressing cancel in the confirmation state deletes the target reminder |
| Reminders.PickThenConfirm | handlers/reminders.py:82-90 | pressing a reminder's delete button and then confirming runs the corrected confirmation on that reminder |
| Reminders.AddThenDelete | handlers/reminders.py:127-159 | as intended, adding a reminder then deleting it through the listing leaves the user at the listing, with the row gone and exactly the previous jobs queued |
| Reminders.CancelSavedJob | handlers/reminders.py:140 | cancelling under a saved reminder's name removes its job and no other |
| Reminders.DeletedJobSurvivesAsWritten | handlers/reminders.py:140-153 | as written, when the employee id differs from the telegram id, the deleted reminder's job stays queued |
| Reports.SplitSeconds | handlers/reports.py:90-91 | a duration splits into whole hours and leftover minutes below 60, rounded down as `//` and `%` do |
| Reports.FormatDurationShape | handlers/reports.py:92 | a printed duration is the hours, a space, then `ч. `, two minute digits and ` мин.` |
| Reports.FormatDurationMinutes | handlers/reports.py:84-92 | two durations print the same exactly when they hold the same number of whole minutes |
| Reports.TruncDiv | handlers/reports.py:86 | `int()` of a quotient truncates toward zero, for either sign |
| Reports.ShiftsOf | handlers/reports.py:119-124 | the shifts counted for an employee are exactly their closed sessions that started on a day in the range |
| Reports.DistinctCount | handlers/reports.py:118 | `COUNT(DISTINCT …)` is the number of different values, at least one for a non-empty group |
| Reports.DaysAreStartDays | handlers/reports.py:118 | the counted days are the start days of the shifts |
| Reports.RowOf | handlers/reports.py:113-118 | an employee's row carries the full name and overtime, the sum of the counted durations and the number of distinct start days, which is positive exactly when a shift counts |
| Reports.GroupOf | handlers/reports.py:119-125 | the employees grouped are exactly those of the department and division with a counted shift |
| Reports.GroupRows | handlers/reports.py:125 | there are as many group rows as grouped employees, each grouped employee has its row, and there is no other row |
| Reports.NameNoLaterIsPreorder | handlers/reports.py:126 | full-name order is a total preorder |
| Reports.SortKeepsRows | handlers/reports.py:126 | sorting by full name is a permutation: it keeps every row as often as it was given |
| Reports.Report | handlers/reports.py:111-130 | the report has as many rows as grouped employees, each grouped employee's row is in it and every row is one, each with at least one day, sorted by full name |
| Reports.ReportOnePerEmployee | handlers/reports.py:125 | when employee ids are distinct, no two report rows carry the same employee id |
| Reports.ReportDependsOnCounted | handlers/reports.py:119-124 | the report depends on the shifts only through each employee's counted shifts |
| Reports.OpenShiftIgnored | handlers/reports.py:122 | a shift still open does not change the report |
| Reports.OutOfRangeShiftIgnored | handlers/reports.py:121 | a shift that started outside the range does not change the report, even when it ended inside it |
| Reports.OtherGroupShiftIgnored | handlers/reports.py:123-124 | a shift of an employee outside the department or division does not change the report |
| Reports.CountedShiftAdds | handlers/reports.py:116-118 | a counted shift adds its duration to the employee's total, and adds one day exactly when its start day is new |
| Reports.AverageSeconds | handlers/reports.py:145-149 | the average per day is the total divided by the days, rounded down, and zero without a day |
| Reports.OvertimeSeconds | handlers/reports.py:142 | a missing overtime counts as zero and a present one as itself |
| Reports.ReportText | handlers/reports.py:133-135 | with no rows the text is the not-found line for the period |
| Reports.ReportLines | handlers/reports.py:138-154 | there is one report line per row, in row order |
| Reports.ReportTextLines | handlers/reports.py:136-155 | when no full name holds a line break, a non-empty text report splits into the title and then one line per row, in row order |
| Reports.ReportLineBreaks | handlers/reports.py:151-154 | a row's line holds no line break when its full name holds none |
| Reports.ReportTitleBreaks | handlers/reports.py:137 | the title holds no line break |
| Reports.ReportsEntry | handlers/reports.py:36-47 | "Отчёты" asks for the start date exactly when the requester is a registered admin, and ends the conversation otherwise |
| Reports.ReadDate | handlers/reports.py:50-52 | a date is read exactly when the stripped text parses as `%Y-%m-%d` |
| Reports.AskEndDate | handlers/reports.py:49-59 | `ask_end_date` stores a readable date as the start and asks for the end, and otherwise asks again with nothing stored |
| Reports.ChooseFormatStep | handlers/reports.py:61-82 | `choose_format` raises exactly when a readable end meets no stored start; it stores an end not before the start and asks for the format; otherwise it asks again with nothing stored |
| Reports.DateRangeAccepted | handlers/reports.py:69-74 | with a stored start, an end date is accepted exactly when its day is not earlier, so a one-day range is accepted |
| Reports.GenerateReport | handlers/reports.py:94-195 | cancel ends with no report; an unregistered requester raises; for a registered requester the text button ends the conversation with the report text for their department and division over the stored dates, and the spreadsheet button ends it with those rows |
| Reports.RDispatch | handlers/reports.py:201-215 | only the format step sends a report; from the idle state only "Отчёты" is handled and the admin check decides where it goes; `/cancel` ends the conversation from every other state; the format buttons reach `generate_report` only in the format state |
| Reports.ReportsOnlyForAdmins | handlers/reports.py:36-47 | over any sequence of one user's updates, the conversation leaves the idle state and a report is sent only for an admin |
| Reports.RConverseAppend | handlers/reports.py:201-215 | a conversation over two runs of updates is the second run started where the first ends, with the replies of both in order |
| Reports.DateIsNoCommand | handlers/reports.py:207-208 | a text that `strptime` reads as a date is never taken for a command, so the date states' `~filters.COMMAND` handlers take it |
| Reports.AdminTextReport | handlers/reports.py:36-158 | an admin who presses "Отчёты", sends a start date, an end date not before it and presses the text button is sent no report for the first three updates and then the text report of their department and division over those days, and the conversation ends with both dates stored |

## Left out

- Telegram plumbing is not modelled: the reply keyboards and the main menu (handlers/work.py:9-30), message texts other than those the contracts name, `query.answer()`, and message editing. Each handler is its effect on the store, the job queue and the conversation state.
- database.py (the connection pool), config.py and bot.py are not part of this model. Each store call is one atomic commit; concurrency between users is left out.
- The registration, admin, stats and colleagues handlers are not part of this model. The registration handler runs the same insert as `create_employee` and then its own status-row insert, so `Store.CreateEmployee` describes its effect on the store. `Store.GetColleagues` and `Store.GetEmployeeOvertime` model the functions of models.py only: the colleagues handler runs its own query, and no handler calls `get_employee_overtime`.
- `set_online_status`, `get_average_work_time`, `list_employees` and `set_employee_role` (models.py:131-136, 197-220) have no model: no handler in the core calls them. `UPDATE_EMPLOYEE_OVERTIME` is never executed, so overtime is only read.
- `updated_at` columns are not modelled: no statement reads them.
- `temp_data` and `report_temp` are single process-wide records. The model follows one user's conversation; interleaving between users, which shares those records, is left out.
- Reminders.Dispatch: it and `DispatchAsWritten` require that the date prompt is reached only after a message was stored (`ConvInv`). `Converse` proves that every conversation keeps this, so the requirement excludes only states the handler table cannot reach.
- Reminders.SaveReminder: requires the moment to lie after now. That is the only way `ask_reminder_datetime` reaches the save.
- Reports.GenerateReport: the spreadsheet branch is modelled by the rows it is built from. The Excel bytes, the file name, and pandas' handling of the mismatched `Овертайм` / `Переработка` column names (handlers/reports.py:173-180) are left out.
- Reports.Report: the `SUM(EXTRACT(EPOCH …))/3600` float and `int(td * 3600)` are modelled as exact integer seconds. The model therefore leaves out the floating-point rounding that can cost the printed total or average one minute.
- Reports.Report: session and break timestamps are whole seconds. `datetime.now()` at handlers/work.py:53, 73, 105 and 124 keeps microseconds, so a stored duration can differ by under a second, and a printed total or average can differ by one minute.
- Reports.Report: full names are ordered by code point, not by the database collation.
- Reports.AverageSeconds: `total_hours / shifts_count` is a float division. It is modelled as an exact quotient truncated by `int()`, with the same floating-point caveat.
- Query.Latest: ties on `started_at` are broken by taking the last such row in store order. Postgres leaves the choice open, so contracts state only that no accepted row has a larger key.
- Store rows have gap-free ids drawn from the table's sequence. Sequence values lost to failed inserts are not modelled, and the contracts only rely on ids being fresh.
- DateFormat.ParseDateTime: `\d` in CPython's `strptime` patterns also matches non-ASCII decimal digits. The model accepts ASCII digits only.
- DateFormat.ParseDate: the same; its `%Y`, `%m` and `%d` fields take ASCII digits only.
- Reminders.DispatchAsWritten: `del_\d+` in the list pattern and `int()` of the id also take non-ASCII decimal digits. The model treats such data as matching no pattern.
- Reminders.Dispatch: the same as `DispatchAsWritten`, for the same pattern.
- The `filters.TEXT & ~filters.COMMAND` filter is approximated: any text starting with `/` is a command. A button's callback data is matched as `re.match` does, where `$` also matches before one final line break.
- Handler exceptions follow python-telegram-bot's behaviour: the conversation keeps its state and the writes already committed stay.
- The scheduling delay of a job (`saved_dt - now`) is kept in whole seconds. Microseconds of `now` are dropped, which cannot move a whole-minute `remind_at` across `now`.

## Findings

| source | as written | input that shows it | evidently intended | confidence | as-written member | corrected member |
|---|---|---|---|---|---|---|
| handlers/reminders.py:153 | jobs are cancelled under `reminder_<rid>_<telegram id>`, but line 140 scheduled them under `reminder_<rid>_<employee id>` | an employee with id 1 and telegram id 555 adds reminder 7, then deletes it: the job `reminder_7_1` stays queued and still fires | cancel under the employee id the job was scheduled with | high (not executed) | Reminders.DeletedJobSurvivesAsWritten | Reminders.AddThenDelete |
| handlers/reminders.py:174 | the confirmation state routes `cancel_reminders` to `confirm_delete` | pick `del_7`, then press "Отмена": reminder 7 is deleted | cancel reaches `handle_list_choice` through the fallback and ends the conversation with nothing deleted | high (not executed) | Reminders.CancelDeletesAsWritten | Reminders.ConfirmationEnds |
| handlers/reminders.py:159 | `confirm_delete` ends by calling `reminders_callback`, which reads `update.message` (line 38). That is absent on a callback query, so it raises and the conversation stays in the confirmation state | pick `del_7` and confirm: the conversation stays in the confirmation state, the listed buttons go unheard, and confirm or cancel raise again | return to the listing after the delete | medium (not executed) | Reminders.StuckInConfirmation | Reminders.ConfirmationEnds |

=== FILE: base.dfy ===
/** Small value wrappers shared by the whole model. */
module Base {

  /** A value that may be missing: a nullable column, an empty `fetchone()`. */
  datatype Option<+T> = None | Some(value: T)

  /** The outcome of a store call that can fail before committing anything. */
  datatype Result<+T, +E> = Ok(value: T) | Err(error: E)
}

=== FILE: calendar.dfy ===
/**
 * The proleptic Gregorian calendar of Python's `datetime`, and the integer time
 * line the rest of the model uses: a timestamp is a count of seconds since
 * 0001-01-01 00:00, so the calendar day of a timestamp is its day ordinal.
 */
module Calendar {

  datatype Date = Date(year: int, month: int, day: int)

  /** A wall-clock minute, as `%Y-%m-%d %H:%M` yields it (seconds and microseconds are zero). */
  datatype DateTime = DateTime(date: Date, hour: int, minute: int)

  const SecondsPerDay: int := 86400

  predicate IsLeapYear(y: int) {
    y % 4 == 0 && (y % 100 != 0 || y % 400 == 0)
  }

  function DaysInYear(y: int): int {
    if IsLeapYear(y) then 366 else 365
  }

  function DaysInMonth(y: int, m: int): int {
    if m == 2 then (if IsLeapYear(y) then 29 else 28)
    else if m == 4 || m == 6 || m == 9 || m == 11 then 30
    else if 1 <= m <= 12 then 31
    else 0
  }

  /** The dates `datetime.date` accepts: years 1 to 9999 and a day that exists in its month. */
  predicate ValidDate(d: Date) {
    1 <= d.year <= 9999 && 1 <= d.month <= 12 && 1 <= d.day <= DaysInMonth(d.year, d.month)
  }

  predicate ValidDateTime(t: DateTime) {
    ValidDate(t.date) && 0 <= t.hour < 24 && 0 <= t.minute < 60
  }

  /** A day Python's `date` can hold. */
  type Day = d: Date | ValidDate(d) witness Date(1, 1, 1)

  /** A minute Python's `datetime` can hold: what a parsed or stored `remind_at` always is. */
  type Minute = t: DateTime | ValidDateTime(t) witness DateTime(Date(1, 1, 1), 0, 0)

  /** The number of days in the years before `y`. */
  function DaysBeforeYear(y: int): int {
    var p := y - 1;
    p * 365 + p / 4 - p / 100 + p / 400
  }

  /** The number of days in year `y` before the first day of month `m`; month 13 closes the year. */
  function DaysBeforeMonth(y: int, m: int): int {
    var table := [0, 31, 59, 90, 120, 151, 181, 212, 243, 273, 304, 334, 365];
    (if 1 <= m <= 13 then table[m - 1] else 0) + (if m > 2 && IsLeapYear(y) then 1 else 0)
  }

  /** `date.toordinal()`: 0001-01-01 is day 1. */
  function Ordinal(d: Date): int {
    DaysBeforeYear(d.year) + DaysBeforeMonth(d.year, d.month) + d.day
  }

  /** A wall-clock minute as a timestamp. */
  function ToSeconds(t: DateTime): int {
    (Ordinal(t.date) - 1) * SecondsPerDay + t.hour * 3600 + t.minute * 60
  }

  /** The day ordinal of the calendar day a timestamp falls in: SQL's `ts::date`. */
  function DayOf(ts: int): int {
    ts / SecondsPerDay + 1
  }

  /** Python's `date.__lt__`: field-wise comparison. */
  predicate DateBefore(a: Date, b: Date) {
    || a.year < b.year
    || (a.year == b.year && a.month < b.month)
    || (a.year == b.year && a.month == b.month && a.day < b.day)
  }

  /** Python's `datetime.__lt__` on naive values: field-wise comparison. */
  predicate DateTimeBefore(a: DateTime, b: DateTime) {
    || DateBefore(a.date, b.date)
    || (a.date == b.date && a.hour < b.hour)
    || (a.date == b.date && a.hour == b.hour && a.minute < b.minute)
  }

  lemma DaysBeforeMonthStep(y: int, m: int)
    requires 1 <= m <= 12
    ensures DaysBeforeMonth(y, m + 1) == DaysBeforeMonth(y, m) + DaysInMonth(y, m)
  {
  }

  lemma DaysBeforeYearStep(y: int)
    ensures DaysBeforeYear(y + 1) == DaysBeforeYear(y) + DaysInYear(y)
  {
    var p := y - 1;
    assert DaysBeforeYear(y + 1) == (p + 1) * 365 + (p + 1) / 4 - (p + 1) / 100 + (p + 1) / 400;
    assert DaysBeforeYear(y) == p * 365 + p / 4 - p / 100 + p / 400;
    DivStep4(p);
    DivStep100(p);
    DivStep400(p);
  }

  lemma DivStep4(p: int)
    ensures (p + 1) / 4 == p / 4 + (if (p + 1) % 4 == 0 then 1 else 0)
  {
  }

  lemma DivStep100(p: int)
    ensures (p + 1) / 100 == p / 100 + (if (p + 1) % 100 == 0 then 1 else 0)
  {
  }

  lemma DivStep400(p: int)
    ensures (p + 1) / 400 == p / 400 + (if (p + 1) % 400 == 0 then 1 else 0)
  {
  }

  /** Every day of year `a` comes before the first day of any later year. */
  lemma {:induction false} YearsAscend(a: int, b: int)
    requires a < b
    ensures DaysBeforeYear(a) + DaysInYear(a) <= DaysBeforeYear(b)
    decreases b - a
  {
    DaysBeforeYearStep(a);
    if a + 1 < b {
      YearsAscend(a + 1, b);
    }
  }

  /** Every day of month `a` comes before the first day of any later month of the same year. */
  lemma MonthsAscend(y: int, a: int, b: int)
    requires 1 <= a < b <= 13
    ensures DaysBeforeMonth(y, a) + DaysInMonth(y, a) <= DaysBeforeMonth(y, b)
  {
  }

  /** On valid dates the day ordinal orders exactly as Python compares dates. */
  lemma OrdinalOrder(a: Date, b: Date)
    requires ValidDate(a) && ValidDate(b)
    ensures DateBefore(a, b) <==> Ordinal(a) < Ordinal(b)
    ensures Ordinal(a) == Ordinal(b) <==> a == b
  {
    if a.year < b.year {
      LastDayBeforeNextYear(a);
      YearsAscend(a.year, b.year);
    } else if b.year < a.year {
      LastDayBeforeNextYear(b);
      YearsAscend(b.year, a.year);
    } else if a.month < b.month {
      MonthsAscend(a.year, a.month, b.month);
    } else if b.month < a.month {
      MonthsAscend(a.year, b.month, a.month);
    }
  }

  /** A valid date's ordinal lies within its year. */
  lemma LastDayBeforeNextYear(d: Date)
    requires ValidDate(d)
    ensures Ordinal(d) <= DaysBeforeYear(d.year) + DaysInYear(d.year)
  {
    if d.month < 12 {
      MonthsAscend(d.year, d.month, 13);
    }
  }

  /** On valid values the timestamp orders exactly as Python compares naive datetimes. */
  lemma SecondsOrder(a: DateTime, b: DateTime)
    requires ValidDateTime(a) && ValidDateTime(b)
    ensures DateTimeBefore(a, b) <==> ToSeconds(a) < ToSeconds(b)
    ensures ToSeconds(a) == ToSeconds(b) <==> a == b
  {
    OrdinalOrder(a.date, b.date);
  }

  /** The calendar day of a minute's timestamp is that minute's date. */
  lemma DayOfSeconds(t: DateTime)
    requires ValidDateTime(t)
    ensures DayOf(ToSeconds(t)) == Ordinal(t.date)
  {
    var within := t.hour * 3600 + t.minute * 60;
    assert 0 <= within < SecondsPerDay;
    assert ToSeconds(t) == (Ordinal(t.date) - 1) * SecondsPerDay + within;
  }
}

=== FILE: date_format.dfy ===
/**
 * The two date formats the handlers read and write: `%Y-%m-%d` (report range) and
 * `%Y-%m-%d %H:%M` (reminder time).
 *
 * Reading follows `datetime.strptime`, which matches the text against one pattern
 * per directive and fails with `ValueError` unless the whole text is consumed:
 * `%Y` is exactly four digits, `%m`, `%d`, `%H`, `%M` take one or two digits within
 * their range, `%d` also takes a space followed by a digit, and the space in the
 * format matches any non-empty run of whitespace. The matched numbers must then
 * form an existing date. Writing follows `strftime`, which zero-pads every field.
 */
module DateFormat {
  import opened Base
  import opened Text
  import opened Calendar

  /** `%Y`: `\d\d\d\d`. */
  predicate YearToken(t: string) {
    |t| == 4 && AllDigits(t)
  }

  /** `%m`: `1[0-2]|0[1-9]|[1-9]`. */
  predicate MonthToken(t: string) {
    || (|t| == 2 && t[0] == '1' && '0' <= t[1] <= '2')
    || (|t| == 2 && t[0] == '0' && '1' <= t[1] <= '9')
    || (|t| == 1 && '1' <= t[0] <= '9')
  }

  /** `%d`: `3[01]|[12]\d|0[1-9]|[1-9]| [1-9]`. */
  predicate DayToken(t: string) {
    || (|t| == 2 && t[0] == '3' && '0' <= t[1] <= '1')
    || (|t| == 2 && '1' <= t[0] <= '2' && IsDigit(t[1]))
    || (|t| == 2 && t[0] == '0' && '1' <= t[1] <= '9')
    || (|t| == 1 && '1' <= t[0] <= '9')
    || (|t| == 2 && t[0] == ' ' && '1' <= t[1] <= '9')
  }

  /** `%H`: `2[0-3]|[0-1]\d|\d`. */
  predicate HourToken(t: string) {
    || (|t| == 2 && t[0] == '2' && '0' <= t[1] <= '3')
    || (|t| == 2 && '0' <= t[0] <= '1' && IsDigit(t[1]))
    || (|t| == 1 && IsDigit(t[0]))
  }

  /** `%M`: `[0-5]\d|\d`. */
  predicate MinuteToken(t: string) {
    || (|t| == 2 && '0' <= t[0] <= '5' && IsDigit(t[1]))
    || (|t| == 1 && IsDigit(t[0]))
  }

  /** The digits of a matched field, without the space `%d` may start with. */
  function FieldDigits(t: string): string {
    if t != [] && t[0] == ' ' then t[1..] else t
  }

  /** The number a matched field denotes (`int()` of the matched text). */
  function FieldValue(t: string): nat
    requires AllDigits(FieldDigits(t))
  {
    DecimalValue(FieldDigits(t))
  }

  /** The value of a one- or two-digit numeral, digit by digit. */
  lemma ShortNumeral(t: string)
    requires 1 <= |t| <= 2 && AllDigits(t)
    ensures |t| == 1 ==> DecimalValue(t) == DigitValue(t[0])
    ensures |t| == 2 ==> DecimalValue(t) == DigitValue(t[0]) * 10 + DigitValue(t[1])
  {
    if |t| == 2 {
      assert t[..1] == [t[0]];
    }
  }

  /** A field read off the front of the text, and the text after it. */
  datatype Scan = Scan(value: nat, rest: string)

  /** `%Y-`: four digits and the dash after them. */
  function ScanYear(s: string): (r: Option<Scan>)
    ensures r.Some? <==> |s| >= 5 && YearToken(s[..4]) && s[4] == '-'
    ensures r.Some? ==> r.value == Scan(DecimalValue(s[..4]), s[5..])
  {
    if |s| >= 5 && YearToken(s[..4]) && s[4] == '-' then Some(Scan(DecimalValue(s[..4]), s[5..])) else None
  }

  /** `%m-`: a month field and the dash after it. */
  function ScanMonth(s: string): (r: Option<Scan>)
    ensures r.Some? ==> 1 <= r.value.value <= 12 && |r.value.rest| < |s|
    ensures r.Some? ==> var i := IndexOf(s, '-');
                        && i < |s| && MonthToken(s[..i]) && AllDigits(s[..i])
                        && r.value == Scan(FieldValue(s[..i]), s[i + 1..])
  {
    var i := IndexOf(s, '-');
    if i < |s| && MonthToken(s[..i]) then
      ShortNumeral(s[..i]);
      Some(Scan(FieldValue(s[..i]), s[i + 1..]))
    else None
  }

  /** `%d`, then `\s+`: a day field and the whitespace run after it. */
  function ScanDay(s: string): (r: Option<Scan>)
    ensures r.Some? ==> 1 <= r.value.value <= 31 && |r.value.rest| < |s|
  {
    var j := DayFieldLength(s);
    var gap := LeadingRun(s[j..], IsSpace);
    if DayToken(s[..j]) && gap > 0 then
      ShortNumeral(FieldDigits(s[..j]));
      Some(Scan(FieldValue(s[..j]), s[j + gap..]))
    else None
  }

  /** How far a `%d` field can reach: an optional space, then the run of digits. */
  function DayFieldLength(s: string): (j: nat)
    ensures j <= |s|
  {
    var lead := if s != [] && s[0] == ' ' then 1 else 0;
    lead + LeadingRun(s[lead..], IsDigit)
  }

  /** `%H:%M` running to the end of the text: the hour and the minute. */
  function ScanClock(s: string): (r: Option<(nat, nat)>)
    ensures r.Some? ==> r.value.0 < 24 && r.value.1 < 60 && 2 <= |s| <= 5
    ensures r.Some? ==> var c := IndexOf(s, ':');
                        && c < |s| && HourToken(s[..c]) && MinuteToken(s[c + 1..])
                        && AllDigits(s[..c]) && AllDigits(s[c + 1..])
                        && r.value == (FieldValue(s[..c]), FieldValue(s[c + 1..]))
  {
    var c := IndexOf(s, ':');
    if c < |s| && HourToken(s[..c]) && MinuteToken(s[c + 1..]) then
      ShortNumeral(s[..c]);
      ShortNumeral(s[c + 1..]);
      Some((FieldValue(s[..c]), FieldValue(s[c + 1..])))
    else None
  }

  /** `datetime.strptime(s, "%Y-%m-%d").date()`, with `None` for `ValueError`. */
  function ParseDate(s: string): (r: Option<Date>)
    ensures r.Some? ==> ValidDate(r.value)
    ensures r.Some? ==> 8 <= |s| <= 10 && YearToken(s[..4]) && r.value.year == DecimalValue(s[..4])
  {
    match ScanYear(s)
    case None => None
    case Some(y) =>
      match ScanMonth(y.rest)
      case None => None
      case Some(m) =>
        if !DayToken(m.rest) then None
        else
          var d := Date(y.value, m.value, FieldValue(m.rest));
          if ValidDate(d) then Some(d) else None
  }

  /** `datetime.strptime(s, "%Y-%m-%d %H:%M")`, with `None` for `ValueError`. */
  function ParseDateTime(s: string): (r: Option<DateTime>)
    ensures r.Some? ==> ValidDateTime(r.value)
    ensures r.Some? ==> 12 <= |s| && YearToken(s[..4]) && r.value.date.year == DecimalValue(s[..4])
  {
    match ScanYear(s)
    case None => None
    case Some(y) =>
      match ScanMonth(y.rest)
      case None => None
      case Some(m) =>
        match ScanDay(m.rest)
        case None => None
        case Some(d) =>
          match ScanClock(d.rest)
          case None => None
          case Some(hm) =>
            var t := DateTime(Date(y.value, m.value, d.value), hm.0, hm.1);
            if ValidDateTime(t) then Some(t) else None
  }

  /** `date.strftime("%Y-%m-%d")` (also `str(date)`). */
  function FormatDate(d: Date): (s: string)
    requires ValidDate(d)
    ensures |s| == 10 && s[4] == '-' && s[7] == '-'
    ensures s[..4] == PaddedDigits(d.year, 4) && s[5..7] == PaddedDigits(d.month, 2) && s[8..] == PaddedDigits(d.day, 2)
  {
    PaddedDigits(d.year, 4) + "-" + PaddedDigits(d.month, 2) + "-" + PaddedDigits(d.day, 2)
  }

  /** `datetime.strftime("%Y-%m-%d %H:%M")`. */
  function FormatDateTime(t: DateTime): (s: string)
    requires ValidDateTime(t)
    ensures |s| == 16 && s[..10] == FormatDate(t.date) && s[10] == ' ' && s[13] == ':'
    ensures s[11..13] == PaddedDigits(t.hour, 2) && s[14..] == PaddedDigits(t.minute, 2)
  {
    FormatDate(t.date) + " " + PaddedDigits(t.hour, 2) + ":" + PaddedDigits(t.minute, 2)
  }

  lemma TwoDigits(n: nat)
    requires n < 100
    ensures PaddedDigits(n, 2) == [DigitChar(n / 10), DigitChar(n % 10)]
  {
    assert PaddedDigits(n / 10, 1) == [DigitChar(n / 10)];
  }

  lemma MonthTokenOf(m: int)
    requires 1 <= m <= 12
    ensures MonthToken(PaddedDigits(m, 2)) && FieldValue(PaddedDigits(m, 2)) == m
  {
    TwoDigits(m);
  }

  lemma DayTokenOf(d: int)
    requires 1 <= d <= 31
    ensures DayToken(PaddedDigits(d, 2)) && FieldValue(PaddedDigits(d, 2)) == d
  {
    TwoDigits(d);
  }

  lemma HourTokenOf(h: int)
    requires 0 <= h < 24
    ensures HourToken(PaddedDigits(h, 2)) && FieldValue(PaddedDigits(h, 2)) == h
  {
    TwoDigits(h);
  }

  lemma MinuteTokenOf(m: int)
    requires 0 <= m < 60
    ensures MinuteToken(PaddedDigits(m, 2)) && FieldValue(PaddedDigits(m, 2)) == m
  {
    TwoDigits(m);
  }

  lemma ScanYearOf(y: int, rest: string)
    requires 1 <= y <= 9999
    ensures ScanYear(PaddedDigits(y, 4) + "-" + rest) == Some(Scan(y, rest))
  {
    var s := PaddedDigits(y, 4) + "-" + rest;
    assert s[..4] == PaddedDigits(y, 4);
    assert s[5..] == rest;
  }

  lemma ScanMonthOf(m: int, rest: string)
    requires 1 <= m <= 12
    ensures ScanMonth(PaddedDigits(m, 2) + "-" + rest) == Some(Scan(m, rest))
  {
    var t := PaddedDigits(m, 2);
    var s := t + "-" + rest;
    MonthTokenOf(m);
    IndexOfAfter(t, '-', rest);
    assert s[..2] == t;
    assert s[3..] == rest;
  }

  lemma ScanDayOf(d: int, rest: string)
    requires 1 <= d <= 31
    requires rest != [] && IsDigit(rest[0])
    ensures ScanDay(PaddedDigits(d, 2) + " " + rest) == Some(Scan(d, rest))
  {
    TwoDigits(d);
    DayTokenOf(d);
    ScanDayAt(PaddedDigits(d, 2), rest);
  }

  /** A two-digit day token, one space and a digit: the scan stops at the digit. */
  lemma ScanDayAt(t: string, rest: string)
    requires |t| == 2 && IsDigit(t[0]) && IsDigit(t[1]) && DayToken(t)
    requires rest != [] && IsDigit(rest[0])
    ensures AllDigits(FieldDigits(t))
    ensures ScanDay(t + " " + rest) == Some(Scan(FieldValue(t), rest))
  {
    var s := t + " " + rest;
    assert s == t + (" " + rest);
    assert s[0..] == s;
    DigitRunOfTwo(t, " " + rest);
    assert s[..2] == t;
    assert s[2..] == " " + rest;
    LeadingRunBefore(" ", rest, IsSpace);
    assert s[3..] == rest;
  }

  lemma DigitRunOfTwo(t: string, tail: string)
    requires |t| == 2 && IsDigit(t[0]) && IsDigit(t[1])
    requires tail != [] && !IsDigit(tail[0])
    ensures LeadingRun(t + tail, IsDigit) == 2
  {
    LeadingRunBefore(t, tail, IsDigit);
  }

  lemma ScanClockOf(h: int, m: int)
    requires 0 <= h < 24 && 0 <= m < 60
    ensures ScanClock(PaddedDigits(h, 2) + ":" + PaddedDigits(m, 2)) == Some((h, m))
  {
    var a := PaddedDigits(h, 2);
    var b := PaddedDigits(m, 2);
    var s := a + ":" + b;
    HourTokenOf(h);
    MinuteTokenOf(m);
    IndexOfAfter(a, ':', b);
    assert s[..2] == a;
    assert s[3..] == b;
  }

  /** What `strftime("%Y-%m-%d")` writes, `strptime` reads back as the same date. */
  lemma ParseFormatDate(d: Date)
    requires ValidDate(d)
    ensures ParseDate(FormatDate(d)) == Some(d)
  {
    var dd := PaddedDigits(d.day, 2);
    assert FormatDate(d) == PaddedDigits(d.year, 4) + "-" + (PaddedDigits(d.month, 2) + "-" + dd);
    ScanYearOf(d.year, PaddedDigits(d.month, 2) + "-" + dd);
    ScanMonthOf(d.month, dd);
    DayTokenOf(d.day);
  }

  /** What `strftime("%Y-%m-%d %H:%M")` writes, `strptime` reads back as the same minute. */
  lemma ParseFormatDateTime(t: DateTime)
    requires ValidDateTime(t)
    ensures ParseDateTime(FormatDateTime(t)) == Some(t)
  {
    var clock := PaddedDigits(t.hour, 2) + ":" + PaddedDigits(t.minute, 2);
    var afterMonth := PaddedDigits(t.date.day, 2) + " " + clock;
    var afterYear := PaddedDigits(t.date.month, 2) + "-" + afterMonth;
    FormatDateTimeParts(t);
    ScanYearOf(t.date.year, afterYear);
    ScanMonthOf(t.date.month, afterMonth);
    assert clock[0] == PaddedDigits(t.hour, 2)[0];
    ScanDayOf(t.date.day, clock);
    ScanClockOf(t.hour, t.minute);
    ParseDateTimeScans(FormatDateTime(t), afterYear, afterMonth, clock, t);
  }

  /** The formatted minute, split at the separators the scans stop at. */
  lemma FormatDateTimeParts(t: DateTime)
    requires ValidDateTime(t)
    ensures FormatDateTime(t) == PaddedDigits(t.date.year, 4) + "-" + (PaddedDigits(t.date.month, 2) + "-" +
              (PaddedDigits(t.date.day, 2) + " " + (PaddedDigits(t.hour, 2) + ":" + PaddedDigits(t.minute, 2))))
  {
  }

  /** A printed minute holds digits, `-`, one space and `:` and nothing else. */
  lemma FormatDateTimeLacks(t: DateTime, c: char)
    requires ValidDateTime(t)
    requires !IsDigit(c) && c != '-' && c != ' ' && c != ':'
    ensures Lacks(FormatDateTime(t), c)
  {
    var y, mo, d := PaddedDigits(t.date.year, 4), PaddedDigits(t.date.month, 2), PaddedDigits(t.date.day, 2);
    var h, mi := PaddedDigits(t.hour, 2), PaddedDigits(t.minute, 2);
    DigitsLack(y, c);
    DigitsLack(mo, c);
    DigitsLack(d, c);
    DigitsLack(h, c);
    DigitsLack(mi, c);
    FormatDateTimeParts(t);
    var clock := h + ":" + mi;
    LacksConcat(h, ":", c);
    LacksConcat(h + ":", mi, c);
    var day := d + " " + clock;
    LacksConcat(d, " ", c);
    LacksConcat(d + " ", clock, c);
    var month := mo + "-" + day;
    LacksConcat(mo, "-", c);
    LacksConcat(mo + "-", day, c);
    LacksConcat(y, "-", c);
    LacksConcat(y + "-", month, c);
  }

  /** A printed date holds digits and `-` and nothing else. */
  lemma FormatDateLacks(d: Date, c: char)
    requires ValidDate(d)
    requires !IsDigit(c) && c != '-'
    ensures Lacks(FormatDate(d), c)
  {
    var y, mo, dd := PaddedDigits(d.year, 4), PaddedDigits(d.month, 2), PaddedDigits(d.day, 2);
    DigitsLack(y, c);
    DigitsLack(mo, c);
    DigitsLack(dd, c);
    LacksConcat(y, "-", c);
    LacksConcat(y + "-", mo, c);
    LacksConcat(y + "-" + mo, "-", c);
    LacksConcat(y + "-" + mo + "-", dd, c);
  }

  /** When every stage scans, the parse is the minute the stages read. */
  lemma ParseDateTimeScans(s: string, afterYear: string, afterMonth: string, clock: string, t: DateTime)
    requires ValidDateTime(t)
    requires ScanYear(s) == Some(Scan(t.date.year, afterYear))
    requires ScanMonth(afterYear) == Some(Scan(t.date.month, afterMonth))
    requires ScanDay(afterMonth) == Some(Scan(t.date.day, clock))
    requires ScanClock(clock) == Some((t.hour, t.minute))
    ensures ParseDateTime(s) == Some(t)
  {
  }

  /** The formatted minute has no surrounding whitespace, so `.strip()` leaves it as it is. */
  lemma StripFormatDateTime(t: DateTime)
    requires ValidDateTime(t)
    ensures Strip(FormatDateTime(t)) == FormatDateTime(t)
  {
    var s := FormatDateTime(t);
    assert s[0] == PaddedDigits(t.date.year, 4)[0];
    assert s[15] == PaddedDigits(t.minute, 2)[1];
    StripKeeps(s);
  }
  /** A non-empty run of whitespace: what the space in a format matches. */
  predicate Whitespace(w: string) {
    w != [] && forall k :: 0 <= k < |w| ==> IsSpace(w[k])
  }

  /** `s` spells `d` as `%Y-%m-%d`, with `y`, `m` and `dd` the text each field matched. */
  predicate DateSpelled(s: string, y: string, m: string, dd: string, d: Date) {
    && YearToken(y) && MonthToken(m) && DayToken(dd)
    && s == y + "-" + m + "-" + dd
    && DecimalValue(y) == d.year && FieldValue(m) == d.month && FieldValue(dd) == d.day
  }

  /** `s` spells `t` as `%Y-%m-%d %H:%M`, with `w` the whitespace the space matched. */
  predicate DateTimeSpelled(s: string, y: string, m: string, dd: string, w: string, h: string, mi: string, t: DateTime) {
    && YearToken(y) && MonthToken(m) && DayToken(dd) && Whitespace(w) && HourToken(h) && MinuteToken(mi)
    && s == y + "-" + m + "-" + dd + w + h + ":" + mi
    && DecimalValue(y) == t.date.year && FieldValue(m) == t.date.month && FieldValue(dd) == t.date.day
    && FieldValue(h) == t.hour && FieldValue(mi) == t.minute
  }

  lemma ScanYearToken(y: string, rest: string)
    requires YearToken(y)
    ensures ScanYear(y + "-" + rest) == Some(Scan(DecimalValue(y), rest))
  {
    var s := y + "-" + rest;
    assert s[..4] == y;
    assert s[5..] == rest;
  }

  lemma ScanMonthToken(m: string, rest: string)
    requires MonthToken(m)
    ensures ScanMonth(m + "-" + rest) == Some(Scan(FieldValue(m), rest))
  {
    var s := m + "-" + rest;
    DigitsLack(m, '-');
    IndexOfAfter(m, '-', rest);
    assert s[..|m|] == m;
    assert s[|m| + 1..] == rest;
  }

  lemma ScanDayToken(dd: string, w: string, rest: string)
    requires DayToken(dd) && Whitespace(w)
    requires rest != [] && !IsSpace(rest[0])
    ensures ScanDay(dd + w + rest) == Some(Scan(FieldValue(dd), rest))
  {
    var s := dd + (w + rest);
    assert s == dd + w + rest;
    DayFieldOf(dd, w + rest);
    assert s[..|dd|] == dd;
    assert s[|dd|..] == w + rest;
    LeadingRunBefore(w, rest, IsSpace);
    assert s[|dd| + |w|..] == rest;
  }

  /** A `%d` field followed by a non-digit reaches exactly to its end. */
  lemma DayFieldOf(dd: string, tail: string)
    requires DayToken(dd)
    requires tail != [] && !IsDigit(tail[0])
    ensures DayFieldLength(dd + tail) == |dd|
  {
    var s := dd + tail;
    var lead := if s != [] && s[0] == ' ' then 1 else 0;
    var digits := FieldDigits(dd);
    assert lead == |dd| - |digits|;
    assert s[lead..] == digits + tail;
    LeadingRunBefore(digits, tail, IsDigit);
  }

  lemma ScanClockToken(h: string, mi: string)
    requires HourToken(h) && MinuteToken(mi)
    ensures ScanClock(h + ":" + mi) == Some((FieldValue(h), FieldValue(mi)))
  {
    var s := h + ":" + mi;
    DigitsLack(h, ':');
    IndexOfAfter(h, ':', mi);
    assert s[..|h|] == h;
    assert s[|h| + 1..] == mi;
  }

  /** A year scan splits its text at the dash after a `%Y` field. */
  lemma ScanYearSpelled(s: string)
    requires ScanYear(s).Some?
    ensures s == s[..4] + "-" + ScanYear(s).value.rest
  {
    assert [s[4]] == "-";
    assert s == s[..4] + [s[4]] + s[5..];
  }

  /** A month scan splits its text at the dash after a `%m` field. */
  lemma ScanMonthSpelled(s: string)
    requires ScanMonth(s).Some?
    ensures var i := IndexOf(s, '-');
            && i < |s| && MonthToken(s[..i]) && s == s[..i] + "-" + ScanMonth(s).value.rest
            && ScanMonth(s).value.value == FieldValue(s[..i])
  {
    SplitAround(s, IndexOf(s, '-'));
  }

  /** Text is what comes before position `i`, the character there, and what comes after. */
  lemma SplitAround(s: string, i: nat)
    requires i < |s|
    ensures s == s[..i] + [s[i]] + s[i + 1..]
  {
  }

  /** What a successful date parse read at each stage. */
  lemma ParseDateStages(s: string, d: Date)
    requires ParseDate(s) == Some(d)
    ensures ScanYear(s).Some? && ScanMonth(ScanYear(s).value.rest).Some?
    ensures var sy := ScanYear(s).value;
            var sm := ScanMonth(sy.rest).value;
            && DayToken(sm.rest) && AllDigits(FieldDigits(sm.rest))
            && d == Date(sy.value, sm.value, FieldValue(sm.rest))
  {
  }

  /** The spelled date, grouped the way the scans take it apart. */
  lemma DateNesting(y: string, m: string, dd: string)
    ensures y + "-" + m + "-" + dd == y + "-" + (m + "-" + dd)
  {
  }

  /** Whatever `strptime(s, "%Y-%m-%d")` reads, `s` spells it. */
  lemma ParseDateSpelled(s: string, d: Date)
    requires ParseDate(s) == Some(d)
    ensures exists y, m, dd :: DateSpelled(s, y, m, dd, d)
  {
    ParseDateStages(s, d);
    var sy := ScanYear(s).value;
    ScanYearSpelled(s);
    ScanMonthSpelled(sy.rest);
    var sm := ScanMonth(sy.rest).value;
    var y, m := s[..4], sy.rest[..IndexOf(sy.rest, '-')];
    DateNesting(y, m, sm.rest);
    assert DateSpelled(s, y, m, sm.rest, d);
  }

  /** Three fields matching `%Y`, `%m` and `%d` that denote an existing date are read as that date. */
  lemma ParseSpelledDate(s: string, y: string, m: string, dd: string, d: Date)
    requires ValidDate(d) && DateSpelled(s, y, m, dd, d)
    ensures ParseDate(s) == Some(d)
  {
    assert s == y + "-" + (m + "-" + dd);
    ScanYearToken(y, m + "-" + dd);
    ScanMonthToken(m, dd);
  }

  /**
   * `strptime(s, "%Y-%m-%d")` succeeds with `d` exactly when `s` is three fields
   * matching `%Y`, `%m` and `%d`, joined by dashes and denoting the existing date `d`.
   */
  lemma ParseDateGrammar(s: string, d: Date)
    ensures ParseDate(s) == Some(d) <==> ValidDate(d) && exists y, m, dd :: DateSpelled(s, y, m, dd, d)
  {
    if ParseDate(s) == Some(d) {
      ParseDateSpelled(s, d);
    }
    if ValidDate(d) && exists y, m, dd :: DateSpelled(s, y, m, dd, d) {
      var y, m, dd :| DateSpelled(s, y, m, dd, d);
      ParseSpelledDate(s, y, m, dd, d);
    }
  }
  /** Where a successful day scan cuts its text: after the field and after the whitespace. */
  lemma ScanDayCuts(s: string)
    requires ScanDay(s).Some?
    ensures var j := DayFieldLength(s);
            var gap := LeadingRun(s[j..], IsSpace);
            && 0 < gap && j + gap <= |s| && DayToken(s[..j]) && AllDigits(FieldDigits(s[..j]))
            && ScanDay(s) == Some(Scan(FieldValue(s[..j]), s[j + gap..]))
  {
  }

  /** A day scan splits its text after a `%d` field and the whitespace run that follows it. */
  lemma ScanDaySpelled(s: string) returns (dd: string, w: string)
    requires ScanDay(s).Some?
    ensures DayToken(dd) && Whitespace(w) && s == dd + w + ScanDay(s).value.rest
    ensures AllDigits(FieldDigits(dd)) && ScanDay(s).value.value == FieldValue(dd)
  {
    ScanDayCuts(s);
    var j := DayFieldLength(s);
    var gap := LeadingRun(s[j..], IsSpace);
    dd, w := s[..j], s[j..][..gap];
    SplitThree(s, j, gap);
  }

  /** Text cut at `j` and again `n` further on is the three pieces put back together. */
  lemma SplitThree(s: string, j: nat, n: nat)
    requires j + n <= |s|
    ensures s == s[..j] + s[j..][..n] + s[j + n..]
  {
    assert s[j..] == s[j..][..n] + s[j + n..];
  }

  /** A clock scan splits its text at the colon between a `%H` and a `%M` field. */
  lemma ScanClockSpelled(s: string) returns (h: string, mi: string)
    requires ScanClock(s).Some?
    ensures HourToken(h) && MinuteToken(mi) && AllDigits(h) && AllDigits(mi) && s == h + ":" + mi
    ensures ScanClock(s).value == (FieldValue(h), FieldValue(mi))
  {
    var c := IndexOf(s, ':');
    h, mi := s[..c], s[c + 1..];
    SplitAround(s, c);
  }

  /** The spelled minute, grouped the way the scans take it apart. */
  lemma SpelledNesting(y: string, m: string, dd: string, w: string, h: string, mi: string)
    ensures y + "-" + m + "-" + dd + w + h + ":" + mi == y + "-" + (m + "-" + (dd + w + (h + ":" + mi)))
  {
  }

  /** Whatever `strptime(s, "%Y-%m-%d %H:%M")` reads, `s` spells it. */
  lemma ParseDateTimeSpelled(s: string, t: DateTime)
    requires ParseDateTime(s) == Some(t)
    ensures exists y, m, dd, w, h, mi :: DateTimeSpelled(s, y, m, dd, w, h, mi, t)
  {
    var sy := ScanYear(s).value;
    ScanYearSpelled(s);
    ScanMonthSpelled(sy.rest);
    var sm := ScanMonth(sy.rest).value;
    var dd, w := ScanDaySpelled(sm.rest);
    var sd := ScanDay(sm.rest).value;
    var h, mi := ScanClockSpelled(sd.rest);
    var y, m := s[..4], sy.rest[..IndexOf(sy.rest, '-')];
    SpelledNesting(y, m, dd, w, h, mi);
    assert DateTimeSpelled(s, y, m, dd, w, h, mi, t);
  }

  /** Fields matching the format that denote an existing minute are read as that minute. */
  lemma ParseSpelledDateTime(s: string, y: string, m: string, dd: string, w: string, h: string, mi: string, t: DateTime)
    requires ValidDateTime(t) && DateTimeSpelled(s, y, m, dd, w, h, mi, t)
    ensures ParseDateTime(s) == Some(t)
  {
    var clock := h + ":" + mi;
    var afterMonth := dd + w + clock;
    SpelledNesting(y, m, dd, w, h, mi);
    ScanYearToken(y, m + "-" + afterMonth);
    ScanMonthToken(m, afterMonth);
    assert clock[0] == h[0];
    ScanDayToken(dd, w, clock);
    ScanClockToken(h, mi);
    ParseDateTimeScans(s, m + "-" + afterMonth, afterMonth, clock, t);
  }

  /**
   * `strptime(s, "%Y-%m-%d %H:%M")` succeeds with `t` exactly when `s` is fields matching
   * `%Y`, `%m`, `%d`, `%H` and `%M`, with dashes, a whitespace run and a colon between them,
   * denoting the existing minute `t`.
   */
  lemma ParseDateTimeGrammar(s: string, t: DateTime)
    ensures ParseDateTime(s) == Some(t) <==>
            ValidDateTime(t) && exists y, m, dd, w, h, mi :: DateTimeSpelled(s, y, m, dd, w, h, mi, t)
  {
    if ParseDateTime(s) == Some(t) {
      ParseDateTimeSpelled(s, t);
    }
    if ValidDateTime(t) && exists y, m, dd, w, h, mi :: DateTimeSpelled(s, y, m, dd, w, h, mi, t) {
      var y, m, dd, w, h, mi :| DateTimeSpelled(s, y, m, dd, w, h, mi, t);
      ParseSpelledDateTime(s, y, m, dd, w, h, mi, t);
    }
  }
}

=== FILE: query.dfy ===
/**
 * The three query shapes the store uses, over a table held as a sequence of rows:
 * `WHERE` (keep the rows a predicate accepts, in table order), `ORDER BY` (arrange
 * rows so that a key never decreases) and `ORDER BY key DESC LIMIT 1` (one row
 * with the greatest key). Where SQL leaves the order of equal keys open, the
 * model fixes one, and the contracts state only what SQL promises.
 */
module Query {
  import opened Base

  /** `SELECT * WHERE p`: the rows `p` accepts, in table order. */
  function Filter<T(!new)>(s: seq<T>, p: T -> bool): (r: seq<T>)
    ensures |r| <= |s|
    ensures forall x :: x in r <==> x in s && p(x)
  {
    if s == [] then []
    else
      assert s == [s[0]] + s[1..];
      (if p(s[0]) then [s[0]] else []) + Filter(s[1..], p)
  }

  /** A filter keeps every accepted row as often as the table holds it, and no other row. */
  lemma {:induction false} FilterCount<T(!new)>(s: seq<T>, p: T -> bool)
    ensures forall x :: multiset(Filter(s, p))[x] == if p(x) then multiset(s)[x] else 0
  {
    if s != [] {
      FilterCount(s[1..], p);
      assert s == [s[0]] + s[1..];
    }
  }

  /** Filtering keeps a primary key a key: rows with distinct keys stay distinct. */
  lemma {:induction false} FilterKeysDistinct<T(!new)>(s: seq<T>, p: T -> bool, key: T -> int)
    requires forall i, j :: 0 <= i < j < |s| ==> key(s[i]) != key(s[j])
    ensures forall i, j :: 0 <= i < j < |Filter(s, p)| ==> key(Filter(s, p)[i]) != key(Filter(s, p)[j])
  {
    if s != [] {
      var t := Filter(s[1..], p);
      FilterKeysDistinct(s[1..], p, key);
      if p(s[0]) {
        forall j | 0 <= j < |s[1..]|
          ensures key(s[1..][j]) != key(s[0])
        {
          assert s[1..][j] == s[j + 1];
        }
        KeyAbsent(s[1..], t, key, key(s[0]));
        ConsKeysDistinct(s[0], t, key);
        assert Filter(s, p) == [s[0]] + t;
      } else {
        assert Filter(s, p) == t;
      }
    }
  }

  /** A row whose key no row of the rest has, put in front, keeps the keys distinct. */
  lemma ConsKeysDistinct<T>(h: T, t: seq<T>, key: T -> int)
    requires forall x :: x in t ==> key(x) != key(h)
    requires forall i, j :: 0 <= i < j < |t| ==> key(t[i]) != key(t[j])
    ensures forall i, j :: 0 <= i < j < |[h] + t| ==> key(([h] + t)[i]) != key(([h] + t)[j])
  {
    var r := [h] + t;
    forall i, j | 0 <= i < j < |r|
      ensures key(r[i]) != key(r[j])
    {
      assert r[j] == t[j - 1] && t[j - 1] in t;
      if i > 0 {
        assert r[i] == t[i - 1];
      }
    }
  }

  /** A key that no row of a collection has, no row drawn from that collection has either. */
  lemma KeyAbsent<T>(s: seq<T>, t: seq<T>, key: T -> int, k: int)
    requires forall j :: 0 <= j < |s| ==> key(s[j]) != k
    requires forall x :: x in t ==> x in s
    requires forall i, j :: 0 <= i < j < |t| ==> key(t[i]) != key(t[j])
    ensures forall x :: x in t ==> key(x) != k
  {
  }

  /** Filtering rows none of which match, plus one that does, yields that one row. */
  lemma {:induction false} FilterAppendHit<T(!new)>(s: seq<T>, x: T, p: T -> bool)
    requires forall y :: y in s ==> !p(y)
    requires p(x)
    ensures Filter(s + [x], p) == [x]
  {
    if s != [] {
      assert s + [x] == [s[0]] + (s[1..] + [x]);
      assert s[0] in s;
      FilterAppendHit(s[1..], x, p);
    }
  }

  /** A filter keeps every row when it accepts every row. */
  lemma {:induction false} FilterKeepsAll<T(!new)>(s: seq<T>, p: T -> bool)
    requires forall x :: x in s ==> p(x)
    ensures Filter(s, p) == s
  {
    if s != [] {
      assert s == [s[0]] + s[1..];
      FilterKeepsAll(s[1..], p);
    }
  }

  /** Filtering distributes over concatenation. */
  lemma {:induction false} FilterConcat<T(!new)>(a: seq<T>, b: seq<T>, p: T -> bool)
    ensures Filter(a + b, p) == Filter(a, p) + Filter(b, p)
  {
    if a == [] {
      assert a + b == b;
    } else {
      assert (a + b)[0] == a[0];
      assert (a + b)[1..] == a[1..] + b;
      FilterConcat(a[1..], b, p);
    }
  }

  /**
   * `WHERE p ORDER BY key DESC LIMIT 1`: the index of a row `p` accepts whose key
   * no other accepted row exceeds, or `None` when `p` accepts no row. On a tie the
   * model takes the last such row in table order.
   */
  function Latest<T>(s: seq<T>, p: T -> bool, key: T -> int): (r: Option<nat>)
    ensures r.Some? ==> r.value < |s| && p(s[r.value])
    ensures r.Some? ==> forall j :: 0 <= j < |s| && p(s[j]) ==> key(s[j]) <= key(s[r.value])
    ensures r.None? <==> forall j :: 0 <= j < |s| ==> !p(s[j])
  {
    if s == [] then None
    else
      var last := |s| - 1;
      var prev := Latest(s[..last], p, key);
      if !p(s[last]) then prev
      else if prev.Some? && key(s[prev.value]) > key(s[last]) then prev
      else Some(last)
  }

  /** `le` is a total preorder: every pair compares, and comparisons chain. */
  ghost predicate TotalPreorder<T(!new)>(le: (T, T) -> bool) {
    && (forall a, b :: le(a, b) || le(b, a))
    && (forall a, b, c :: le(a, b) && le(b, c) ==> le(a, c))
  }

  predicate SortedBy<T>(s: seq<T>, le: (T, T) -> bool) {
    forall i, j :: 0 <= i < j < |s| ==> le(s[i], s[j])
  }

  /** `x` placed into a sorted sequence before the first element it does not follow. */
  function Insert<T(!new)>(x: T, s: seq<T>, le: (T, T) -> bool): (r: seq<T>)
    requires TotalPreorder(le)
    requires SortedBy(s, le)
    ensures SortedBy(r, le)
    ensures forall y :: y in r <==> y == x || y in s
    ensures multiset(r) == multiset(s) + multiset{x}
  {
    if s == [] then [x]
    else if le(x, s[0]) then [x] + s
    else
      var tail := Insert(x, s[1..], le);
      assert s == [s[0]] + s[1..];
      assert le(s[0], x);
      assert forall j :: 0 <= j < |s[1..]| ==> s[1..][j] == s[j + 1];
      FollowsAll(s[0], x, s[1..], tail, le);
      [s[0]] + tail
  }

  /** Whatever is made of `x` and of rows of `rest` follows a row that precedes all of them. */
  lemma FollowsAll<T>(h: T, x: T, rest: seq<T>, tail: seq<T>, le: (T, T) -> bool)
    requires le(h, x)
    requires forall j :: 0 <= j < |rest| ==> le(h, rest[j])
    requires forall y :: y in tail ==> y == x || y in rest
    ensures forall k :: 0 <= k < |tail| ==> le(h, tail[k])
  {
    forall k | 0 <= k < |tail|
      ensures le(h, tail[k])
    {
      assert tail[k] in tail;
    }
  }

  /** The rows of `s` in non-decreasing order of `le`. */
  function SortBy<T(!new)>(s: seq<T>, le: (T, T) -> bool): (r: seq<T>)
    requires TotalPreorder(le)
    ensures SortedBy(r, le)
    ensures multiset(r) == multiset(s)
  {
    if s == [] then []
    else
      assert s == [s[0]] + s[1..];
      Insert(s[0], SortBy(s[1..], le), le)
  }
  /** A row whose key no other row has occurs exactly once. */
  lemma OccursOnce<T>(s: seq<T>, p: nat, key: T -> int)
    requires p < |s|
    requires forall i, j :: 0 <= i < j < |s| ==> key(s[i]) != key(s[j])
    ensures multiset(s)[s[p]] == 1
  {
    var x := s[p];
    assert s == s[..p] + [x] + s[p + 1..];
    assert x !in s[..p] by {
      forall k | 0 <= k < p ensures s[..p][k] != x {
        assert key(s[k]) != key(s[p]);
      }
    }
    var after := s[p + 1..];
    assert x !in after by {
      forall k | 0 <= k < |after| ensures after[k] != x {
        assert key(s[p]) != key(s[p + 1 + k]);
      }
    }
    assert multiset(s) == multiset(s[..p]) + multiset{x} + multiset(after);
  }

  /** A row found at two places occurs at least twice. */
  lemma OccursTwice<T>(t: seq<T>, i: nat, j: nat)
    requires i < j < |t| && t[i] == t[j]
    ensures multiset(t)[t[j]] >= 2
  {
    assert t == t[..j] + [t[j]] + t[j + 1..];
    assert t[..j][i] == t[j];
    assert multiset(t) == multiset(t[..j]) + multiset{t[j]} + multiset(t[j + 1..]);
  }

  /** Reordering keeps a primary key a key: a permutation of rows with distinct keys has distinct keys. */
  lemma PermutationKeysDistinct<T>(s: seq<T>, t: seq<T>, key: T -> int)
    requires multiset(t) == multiset(s)
    requires forall i, j :: 0 <= i < j < |s| ==> key(s[i]) != key(s[j])
    ensures forall i, j :: 0 <= i < j < |t| ==> key(t[i]) != key(t[j])
  {
    forall i, j | 0 <= i < j < |t|
      ensures key(t[i]) != key(t[j])
    {
      assert t[i] in multiset(t) && t[j] in multiset(t);
      var p :| 0 <= p < |s| && s[p] == t[i];
      var q :| 0 <= q < |s| && s[q] == t[j];
      if p == q {
        OccursOnce(s, p, key);
        OccursTwice(t, i, j);
      } else if p < q {
        assert key(s[p]) != key(s[q]);
      } else {
        assert key(s[q]) != key(s[p]);
      }
    }
  }
}

=== FILE: reminders.dfy ===
/**
 * The reminder conversation of handlers/reminders.py: listing a user's
 * reminders, adding one (text, then a `YYYY-MM-DD HH:MM` moment that must lie
 * in the future, then a one-shot job), and deleting one (pick, confirm, cancel
 * the job by name). The job queue is a sequence of pending jobs; `temp_data` is
 * one record for the whole process.
 *
 * Three places where the code differs from what it evidently means are modelled
 * twice: as written, with a lemma that exhibits the difference, and corrected,
 * with the intended property proved. `Dispatch` and `ConfirmDeleteFixed` are
 * the corrected handlers; `DispatchAsWritten` and `ConfirmDelete` follow the
 * code line by line.
 */
module Reminders {
  import opened Base
  import opened Text
  import opened Calendar
  import opened DateFormat
  import opened Query
  import opened Store

  /** The conversation states; `Ended` is `ConversationHandler.END`, where only the entry points listen. */
  datatype Conv = Ended | Listing | AskText | AskDatetime | ConfirmDeletion

  /** A one-shot job: it fires `delay` seconds after it was scheduled and carries the reminder. */
  datatype Job = Job(name: string, delay: int, chatId: int, message: string, reminderId: int)

  /** `temp_data`: one dictionary for the whole process, written by the handlers and never cleared. */
  datatype Pending = Pending(message: Option<string>, deleteId: Option<int>)

  const NoPending: Pending := Pending(None, None)

  /** Everything the reminder handlers read and write. */
  datatype Bot = Bot(db: Db, jobs: seq<Job>, pending: Pending)

  /**
   * A handler's effect: the state the conversation moves to and the world after
   * its writes, or an exception raised after the writes, which leaves the
   * conversation where it was.
   */
  datatype Turn = Next(next: Conv, bot: Bot) | Raised(bot: Bot)

  // ---------------------------------------------------------------------------
  // Job names and job messages.

  /** The job name `reminder_<rid>_<owner>`. */
  function JobName(rid: int, owner: int): string {
    "reminder_" + IntToString(rid) + "_" + IntToString(owner)
  }

  /** A job name determines both numbers it was built from. */
  lemma JobNameInjective(rid: int, owner: int, rid2: int, owner2: int)
    requires JobName(rid, owner) == JobName(rid2, owner2)
    ensures rid == rid2 && owner == owner2
  {
    var a, b := IntToString(rid), IntToString(owner);
    var c, d := IntToString(rid2), IntToString(owner2);
    JobNameTail(rid, owner);
    JobNameTail(rid2, owner2);
    IntToStringLacks(rid, '_');
    IntToStringLacks(rid2, '_');
    SeparatorSplits(a, b, c, d, '_');
    IntToStringInjective(rid, rid2);
    IntToStringInjective(owner, owner2);
  }

  lemma JobNameTail(rid: int, owner: int)
    ensures |JobName(rid, owner)| > 9
    ensures JobName(rid, owner)[9..] == IntToString(rid) + ['_'] + IntToString(owner)
  {
  }

  function NamedOtherThan(name: string): Job -> bool {
    (j: Job) => j.name != name
  }

  /** `get_jobs_by_name(name)` and `schedule_removal()` on each: every job with that name goes, the rest stay in order. */
  function CancelJobs(jobs: seq<Job>, name: string): (r: seq<Job>)
    ensures forall j :: j in r <==> j in jobs && j.name != name
  {
    Filter(jobs, NamedOtherThan(name))
  }

  /** Cancelling a name no job carries leaves the queue as it was. */
  lemma CancelUnknownName(jobs: seq<Job>, name: string)
    requires forall j :: j in jobs ==> j.name != name
    ensures CancelJobs(jobs, name) == jobs
  {
    FilterKeepsAll(jobs, NamedOtherThan(name));
  }

  const ReminderPrefix: string := "Напоминание: "

  /** `send_reminder_job`: the chat the job carries and the text `Напоминание: <message>`. */
  function SendReminderJob(job: Job): (r: (int, string))
    ensures r.0 == job.chatId
    ensures |r.1| == |ReminderPrefix| + |job.message|
    ensures r.1[..|ReminderPrefix|] == ReminderPrefix && r.1[|ReminderPrefix|..] == job.message
  {
    (job.chatId, ReminderPrefix + job.message)
  }

  // ---------------------------------------------------------------------------
  // The listing `reminders_callback` shows.

  const RegisterFirstText: string := "Сначала зарегистрируйтесь через /start."
  const NoRemindersText: string := "У вас пока нет сохранённых напоминаний."
  const ListingTitle: string := "Ваши напоминания:"

  /** One line of the listing: `<rid>. [<YYYY-MM-DD HH:MM>] <message>`. */
  function ListingLine(r: Reminder): string {
    IntToString(r.id) + ". [" + FormatDateTime(r.remindAt) + "] " + r.message
  }

  function ListingLines(rows: seq<Reminder>): (r: seq<string>)
    ensures |r| == |rows|
    ensures forall i :: 0 <= i < |rows| ==> r[i] == ListingLine(rows[i])
  {
    seq(|rows|, i requires 0 <= i < |rows| => ListingLine(rows[i]))
  }

  /** The listing text: a fixed text for no reminders, otherwise a title and one line per row in row order. */
  function ListingText(rows: seq<Reminder>): string {
    if rows == [] then NoRemindersText else Join([ListingTitle] + ListingLines(rows), '\n')
  }

  /** Reading one listing line back: the id before the first `.`, then the bracketed minute and the message. */
  function ParseListingLine(line: string): Option<(int, Minute, string)> {
    var k := IndexOf(line, '.');
    if k == |line| then None else ParseListingRest(line[..k], line[k + 1..])
  }

  /** What follows the id's dot: ` [`, sixteen characters of minute, `] `, the message. */
  function ParseListingRest(id: string, rest: string): Option<(int, Minute, string)> {
    if |rest| < 20 || rest[..2] != " [" || rest[18..20] != "] " then None
    else
      match ParseInt(id)
      case None => None
      case Some(n) =>
        match ParseDateTime(rest[2..18])
        case None => None
        case Some(t) => Some((n, t, rest[20..]))
  }

  /** The line is cut at the dot after the id, which holds no dot. */
  lemma ParseLineAtDot(id: string, rest: string)
    requires Lacks(id, '.')
    ensures ParseListingLine(id + ['.'] + rest) == ParseListingRest(id, rest)
  {
    var line := id + ['.'] + rest;
    IndexOfAfter(id, '.', rest);
    assert line[..|id|] == id && line[|id| + 1..] == rest;
  }

  /** Whatever the id text, the part after the dot holds the sixteen characters of the minute and the message. */
  lemma ParseRestOf(id: string, f: string, m: string)
    requires |f| == 16
    ensures ParseInt(id).Some? && ParseDateTime(f).Some? ==>
              ParseListingRest(id, " [" + f + "] " + m) == Some((ParseInt(id).value, ParseDateTime(f).value, m))
  {
    var rest := " [" + f + "] " + m;
    assert rest[..2] == " [" && rest[2..18] == f && rest[18..20] == "] " && rest[20..] == m;
  }

  /** A listing line names its reminder: the id, the minute and the message read back unchanged. */
  lemma ListingLineRoundTrip(r: Reminder)
    ensures ParseListingLine(ListingLine(r)) == Some((r.id, r.remindAt, r.message))
  {
    var a := IntToString(r.id);
    var f := FormatDateTime(r.remindAt);
    var rest := " [" + f + "] " + r.message;
    assert ListingLine(r) == a + ['.'] + rest;
    IntToStringLacks(r.id, '.');
    ParseLineAtDot(a, rest);
    ParseRestOf(a, f, r.message);
    ParseIntToString(r.id);
    ParseFormatDateTime(r.remindAt);
  }

  /** No character of a listing line outside the message is a line break. */
  lemma ListingLineBreaks(r: Reminder)
    requires Lacks(r.message, '\n')
    ensures Lacks(ListingLine(r), '\n')
  {
    var a := IntToString(r.id);
    var f := FormatDateTime(r.remindAt);
    IntToStringLacks(r.id, '\n');
    FormatDateTimeLacks(r.remindAt, '\n');
    assert Lacks(". [", '\n') && Lacks("] ", '\n');
  }

  /**
   * When no message holds a line break, the listing splits into its title and
   * one line per row, and each line reads back as its row.
   */
  lemma ListingTextRoundTrip(rows: seq<Reminder>)
    requires rows != []
    requires forall x :: x in rows ==> Lacks(x.message, '\n')
    ensures var parts := Split(ListingText(rows), '\n');
            && |parts| == |rows| + 1
            && parts[0] == ListingTitle
            && forall i :: 0 <= i < |rows| ==> ParseListingLine(parts[i + 1]) == Some((rows[i].id, rows[i].remindAt, rows[i].message))
  {
    ListingTextLines(rows);
    var parts := Split(ListingText(rows), '\n');
    forall i | 0 <= i < |rows|
      ensures ParseListingLine(parts[i + 1]) == Some((rows[i].id, rows[i].remindAt, rows[i].message))
    {
      assert parts[i + 1] == ListingLine(rows[i]);
      ListingLineRoundTrip(rows[i]);
    }
  }

  /** When no message holds a line break, the listing splits into its title and its lines. */
  lemma ListingTextLines(rows: seq<Reminder>)
    requires rows != []
    requires forall x :: x in rows ==> Lacks(x.message, '\n')
    ensures Split(ListingText(rows), '\n') == [ListingTitle] + ListingLines(rows)
  {
    var lines := ListingLines(rows);
    forall i | 0 <= i < |lines|
      ensures Lacks(lines[i], '\n')
    {
      assert rows[i] in rows;
      ListingLineBreaks(rows[i]);
    }
    TitledLines(ListingTitle, lines, '\n');
  }

  /** The delete button of reminder `rid` carries `del_<rid>`. */
  function DeleteData(rid: int): string {
    "del_" + IntToString(rid)
  }

  /** One delete button per row, in row order. */
  function DeleteButtons(rows: seq<Reminder>): (r: seq<string>)
    ensures |r| == |rows|
    ensures forall i :: 0 <= i < |rows| ==> r[i] == DeleteData(rows[i].id)
  {
    seq(|rows|, i requires 0 <= i < |rows| => DeleteData(rows[i].id))
  }

  /**
   * The inline keyboard of the listing, top to bottom: the add button, one delete
   * button per row, and the back button.
   */
  function ListingButtons(rows: seq<Reminder>): (r: seq<string>)
    ensures |r| == |rows| + 2
    ensures r[0] == "add_reminder" && r[|r| - 1] == "cancel_reminders"
    ensures forall i :: 0 <= i < |rows| ==> r[i + 1] == DeleteData(rows[i].id)
  {
    ["add_reminder"] + DeleteButtons(rows) + ["cancel_reminders"]
  }

  /** Every button of the listing keyboard is data the `LISTING` pattern admits. */
  lemma ListingButtonsMatch(rows: seq<Reminder>)
    requires forall i :: 0 <= i < |rows| ==> rows[i].id >= 0
    ensures forall k :: 0 <= k < |ListingButtons(rows)| ==> AnchoredMatch(ListingButtons(rows)[k], ListChoiceCore)
  {
    var r := ListingButtons(rows);
    forall k | 0 <= k < |r|
      ensures AnchoredMatch(r[k], ListChoiceCore)
    {
      if 0 < k < |r| - 1 {
        DeleteButtonTargets(NoPending, rows[k - 1].id);
      }
    }
  }

  /** What `reminders_callback` shows and the state it returns: the rows, their text and the keyboard's callback data. */
  datatype Screen = Screen(next: Conv, rows: seq<Reminder>, text: string, buttons: seq<string>)

  /**
   * `reminders_callback`: for a registered user, exactly their reminders in
   * `remind_at` order, as the listing text and the listing keyboard; for
   * anyone else, the registration hint and the end of the conversation.
   */
  function ShowReminders(db: Db, telegramId: int): (r: Screen)
    ensures r.next == Listing <==> FindEmployeeByTelegram(db, telegramId).Some?
    ensures r.next != Listing ==> r == Screen(Ended, [], RegisterFirstText, [])
    ensures r.next == Listing ==>
              && SortedBy(r.rows, RemindsNoLater)
              && (forall x :: x in r.rows <==> x in db.reminders && x.employeeId == FindEmployeeByTelegram(db, telegramId).value.id)
              && r.text == ListingText(r.rows)
              && r.buttons == ListingButtons(r.rows)
  {
    match FindEmployeeByTelegram(db, telegramId)
    case None => Screen(Ended, [], RegisterFirstText, [])
    case Some(e) =>
      var rows := GetReminders(db, e.id);
      Screen(Listing, rows, ListingText(rows), ListingButtons(rows))
  }

  // ---------------------------------------------------------------------------
  // Callback patterns and `handle_list_choice`.

  /** `re.match` with a pattern ending in `$`: `$` also matches before one final line break. */
  predicate AnchoredMatch(data: string, core: string -> bool) {
    core(data) || (|data| >= 1 && data[|data| - 1] == '\n' && core(data[..|data| - 1]))
  }

  /** `del_\d+`, ASCII digits. */
  predicate IsDeleteData(data: string) {
    |data| > 4 && data[..4] == "del_" && AllDigits(data[4..])
  }

  /** The alternatives of `^(add_reminder|del_\d+|cancel_reminders)$`. */
  predicate ListChoiceCore(data: string) {
    data == "add_reminder" || IsDeleteData(data) || data == "cancel_reminders"
  }

  /** The alternatives of `^(confirm_delete|cancel_reminders)$`. */
  predicate ConfirmCore(data: string) {
    data == "confirm_delete" || data == "cancel_reminders"
  }

  /** The alternative of `^cancel_reminders$`. */
  predicate CancelCore(data: string) {
    data == "cancel_reminders"
  }

  /** The alternative of `^confirm_delete$`, the pattern the confirmation state evidently means. */
  predicate ConfirmOnlyCore(data: string) {
    data == "confirm_delete"
  }

  /** The text after `del_` that `int()` reads; it ignores one final line break. */
  function DeleteDigits(data: string): string
    requires |data| > 4
  {
    if |data| > 5 && data[|data| - 1] == '\n' then data[4..|data| - 1] else data[4..]
  }

  /** Data the list pattern admits with the `del_` prefix has only digits after it. */
  lemma DeleteDigitsOf(data: string)
    requires AnchoredMatch(data, ListChoiceCore) || AnchoredMatch(data, CancelCore)
    requires |data| > 4 && data[..4] == "del_"
    ensures AllDigits(DeleteDigits(data))
  {
    assert data[0] == 'd';
    if !ListChoiceCore(data) && !CancelCore(data) {
      var t := data[..|data| - 1];
      assert t[0] == 'd' && t[..4] == "del_";
      assert IsDeleteData(t);
      assert t[4..] == data[4..|data| - 1];
    } else {
      assert IsDeleteData(data);
    }
  }

  /**
   * `handle_list_choice` on data its pattern admitted: add goes to the text
   * prompt, `del_<n>` stores `n` as the delete target and asks for confirmation,
   * anything else ends the conversation.
   */
  function ListChoice(pending: Pending, data: string): (r: (Conv, Pending))
    requires AnchoredMatch(data, ListChoiceCore) || AnchoredMatch(data, CancelCore)
    ensures data == "add_reminder" ==> r == (AskText, pending)
    ensures r.0 == ConfirmDeletion <==> |data| > 4 && data[..4] == "del_"
    ensures r.0 == ConfirmDeletion ==>
              && AllDigits(DeleteDigits(data))
              && r.1 == pending.(deleteId := Some(DecimalValue(DeleteDigits(data))))
    ensures r.0 != ConfirmDeletion && data != "add_reminder" ==> r == (Ended, pending)
  {
    if data == "add_reminder" then
      assert data[0] == 'a';
      (AskText, pending)
    else if |data| > 4 && data[..4] == "del_" then
      DeleteDigitsOf(data);
      (ConfirmDeletion, pending.(deleteId := Some(DecimalValue(DeleteDigits(data)))))
    else (Ended, pending)
  }

  /** A delete button of the listing stores exactly its reminder's id as the target. */
  lemma DeleteButtonTargets(pending: Pending, rid: nat)
    ensures AnchoredMatch(DeleteData(rid), ListChoiceCore)
    ensures ListChoice(pending, DeleteData(rid)) == (ConfirmDeletion, pending.(deleteId := Some(rid)))
  {
    var data := DeleteData(rid);
    assert data[..4] == "del_" && data[4..] == NatToString(rid);
    assert data[|data| - 1] != '\n';
  }

  // ---------------------------------------------------------------------------
  // Adding a reminder.

  /** `ask_reminder_text`: the text is kept for the next step, whatever it is. */
  function AskReminderText(bot: Bot, text: string): (r: Turn)
    ensures r.Next? && r.next == AskDatetime
    ensures r.bot.pending.message == Some(text) && r.bot.pending.deleteId == bot.pending.deleteId
    ensures r.bot.db == bot.db && r.bot.jobs == bot.jobs
  {
    Next(AskDatetime, bot.(pending := bot.pending.(message := Some(text))))
  }

  datatype TimeError = BadFormat | NotFuture

  /**
   * The checks of `ask_reminder_datetime`: the stripped text must parse as
   * `%Y-%m-%d %H:%M`, and the minute must come after `now` (whole seconds; a
   * parsed minute has no seconds, so dropping `now`'s fraction does not change
   * the comparison).
   */
  function ReadRemindAt(text: string, now: int): (r: Result<Minute, TimeError>)
    ensures r == Err(BadFormat) <==> ParseDateTime(Strip(text)).None?
    ensures r == Err(NotFuture) <==> ParseDateTime(Strip(text)).Some? && ToSeconds(ParseDateTime(Strip(text)).value) <= now
    ensures r.Ok? ==> ParseDateTime(Strip(text)) == Some(r.value) && ToSeconds(r.value) > now
  {
    match ParseDateTime(Strip(text))
    case None => Err(BadFormat)
    case Some(t) => if ToSeconds(t) <= now then Err(NotFuture) else Ok(t)
  }

  /** The text the bot itself prints for a minute is accepted as that minute once it lies ahead. */
  lemma ReadFormatted(t: Minute, now: int)
    requires ToSeconds(t) > now
    ensures ReadRemindAt(FormatDateTime(t), now) == Ok(t)
  {
    StripFormatDateTime(t);
    ParseFormatDateTime(t);
  }

  /** A moment at or before `now` is refused whichever way it is written. */
  lemma ReadPast(text: string, now: int, t: Minute)
    requires ParseDateTime(Strip(text)) == Some(t) && ToSeconds(t) <= now
    ensures ReadRemindAt(text, now) == Err(NotFuture)
  {
  }

  /**
   * The writes of a saved reminder: the row through `create_reminder`, and a
   * job named after the row and the employee that fires when the row is due.
   */
  function SaveReminder(bot: Bot, e: Employee, t: Minute, chatId: int, now: int, message: string): (r: Bot)
    requires e in bot.db.employees && ToSeconds(t) > now
    ensures var rid := bot.db.nextReminder;
            && r.db.reminders == bot.db.reminders + [Reminder(rid, e.id, t, message)]
            && r.db == bot.db.(reminders := r.db.reminders, nextReminder := rid + 1)
            && r.jobs == bot.jobs + [Job(JobName(rid, e.id), ToSeconds(t) - now, chatId, message, rid)]
            && r.jobs[|bot.jobs|].delay > 0
            && r.pending == bot.pending
  {
    RowIsEmployee(bot.db, e);
    var created := CreateReminder(bot.db, e.id, t, message).value;
    var row := created.1;
    bot.(db := created.0, jobs := bot.jobs + [Job(JobName(row.id, e.id), ToSeconds(row.remindAt) - now, chatId, row.message, row.id)])
  }

  /**
   * `ask_reminder_datetime`: an unknown user ends the conversation; a bad or
   * past moment asks again and writes nothing; otherwise the reminder is saved
   * and the listing follows.
   */
  function AskReminderDatetime(bot: Bot, telegramId: int, chatId: int, text: string, now: int, message: string): (r: Turn)
    ensures r.Next?
    ensures FindEmployeeByTelegram(bot.db, telegramId).None? ==> r == Next(Ended, bot)
    ensures FindEmployeeByTelegram(bot.db, telegramId).Some? && ReadRemindAt(text, now).Err? ==> r == Next(AskDatetime, bot)
    ensures r.next == Listing <==> FindEmployeeByTelegram(bot.db, telegramId).Some? && ReadRemindAt(text, now).Ok?
    ensures r.next == Listing ==>
              r.bot == SaveReminder(bot, FindEmployeeByTelegram(bot.db, telegramId).value, ReadRemindAt(text, now).value, chatId, now, message)
  {
    match FindEmployeeByTelegram(bot.db, telegramId)
    case None => Next(Ended, bot)
    case Some(e) =>
      match ReadRemindAt(text, now)
      case Err(_) => Next(AskDatetime, bot)
      case Ok(t) => Next(Listing, SaveReminder(bot, e, t, chatId, now, message))
  }

  /**
   * A saved reminder shows up in the listing the handler returns to, with the
   * minute and the text the user gave, and its job sends that text.
   */
  lemma SavedIsListed(bot: Bot, e: Employee, t: Minute, chatId: int, now: int, message: string, telegramId: int)
    requires FindEmployeeByTelegram(bot.db, telegramId) == Some(e)
    requires ToSeconds(t) > now
    ensures var saved := SaveReminder(bot, e, t, chatId, now, message);
            var screen := ShowReminders(saved.db, telegramId);
            var row := Reminder(bot.db.nextReminder, e.id, t, message);
            && screen.next == Listing
            && row in screen.rows
            && ListingLine(row) in ListingLines(screen.rows)
            && SendReminderJob(saved.jobs[|bot.jobs|]) == (chatId, ReminderPrefix + message)
  {
    var saved := SaveReminder(bot, e, t, chatId, now, message);
    var row := Reminder(bot.db.nextReminder, e.id, t, message);
    SaveKeepsUser(bot, e, t, chatId, now, message, telegramId);
    var screen := ShowReminders(saved.db, telegramId);
    assert row in saved.db.reminders;
    LineOfListedRow(screen.rows, row);
  }

  lemma LineOfListedRow(rows: seq<Reminder>, row: Reminder)
    requires row in rows
    ensures ListingLine(row) in ListingLines(rows)
  {
    var i :| 0 <= i < |rows| && rows[i] == row;
    assert ListingLines(rows)[i] == ListingLine(row);
  }

  lemma SaveKeepsUser(bot: Bot, e: Employee, t: Minute, chatId: int, now: int, message: string, telegramId: int)
    requires FindEmployeeByTelegram(bot.db, telegramId) == Some(e)
    requires ToSeconds(t) > now
    ensures FindEmployeeByTelegram(SaveReminder(bot, e, t, chatId, now, message).db, telegramId) == Some(e)
  {
    assert SaveReminder(bot, e, t, chatId, now, message).db.employees == bot.db.employees;
  }

  /** Every job is named after its reminder and some owner, and its reminder id has been handed out. */
  ghost predicate JobsNamed(bot: Bot) {
    forall j :: j in bot.jobs ==>
      && j.reminderId < bot.db.nextReminder
      && exists owner :: j.name == JobName(j.reminderId, owner)
  }

  /** Saving keeps every job named, and the new job is the only one under its name. */
  lemma SaveReminderNamed(bot: Bot, e: Employee, t: Minute, chatId: int, now: int, message: string)
    requires e in bot.db.employees && ToSeconds(t) > now
    requires JobsNamed(bot)
    ensures var r := SaveReminder(bot, e, t, chatId, now, message);
            && JobsNamed(r)
            && forall j :: j in r.jobs && j.name == r.jobs[|bot.jobs|].name ==> j == r.jobs[|bot.jobs|]
  {
    var r := SaveReminder(bot, e, t, chatId, now, message);
    var job := r.jobs[|bot.jobs|];
    assert job.name == JobName(job.reminderId, e.id);
    forall j | j in r.jobs && j.name == job.name
      ensures j == job
    {
      if j in bot.jobs {
        var owner :| j.name == JobName(j.reminderId, owner);
        JobNameInjective(j.reminderId, owner, bot.db.nextReminder, e.id);
        assert false;
      } else {
        assert j in r.jobs[|bot.jobs|..];
      }
    }
  }

  // ---------------------------------------------------------------------------
  // Deleting a reminder.

  /** `if rid:` — a stored id that is not zero. */
  predicate HasTarget(pending: Pending) {
    pending.deleteId.Some? && pending.deleteId.value != 0
  }

  /**
   * `confirm_delete` as written: with a target it deletes the row and cancels
   * the jobs named `reminder_<rid>_<telegram id>`; either way it then calls
   * `reminders_callback`, which reads `update.message`, absent on a callback
   * query, and raises.
   */
  function ConfirmDelete(bot: Bot, telegramId: int): (r: Turn)
    ensures r.Raised?
    ensures !HasTarget(bot.pending) ==> r.bot == bot
    ensures HasTarget(bot.pending) ==>
              var rid := bot.pending.deleteId.value;
              r.bot == bot.(db := DeleteReminder(bot.db, rid), jobs := CancelJobs(bot.jobs, JobName(rid, telegramId)))
  {
    if HasTarget(bot.pending) then
      var rid := bot.pending.deleteId.value;
      Raised(bot.(db := DeleteReminder(bot.db, rid), jobs := CancelJobs(bot.jobs, JobName(rid, telegramId))))
    else Raised(bot)
  }

  /**
   * `confirm_delete` as intended: the jobs are cancelled under the employee id
   * they were scheduled with, and the listing is shown again.
   */
  function ConfirmDeleteFixed(bot: Bot, telegramId: int): (r: Turn)
    ensures r.Next?
    ensures r.next == Listing <==> FindEmployeeByTelegram(bot.db, telegramId).Some?
    ensures !HasTarget(bot.pending) ==> r.bot == bot
    ensures HasTarget(bot.pending) ==>
              var rid := bot.pending.deleteId.value;
              && r.bot.db == DeleteReminder(bot.db, rid)
              && r.bot.pending == bot.pending
              && (forall x :: x in r.bot.db.reminders ==> x.id != rid)
              && (FindEmployeeByTelegram(bot.db, telegramId).Some? ==>
                    r.bot.jobs == CancelJobs(bot.jobs, JobName(rid, FindEmployeeByTelegram(bot.db, telegramId).value.id)))
              && (FindEmployeeByTelegram(bot.db, telegramId).None? ==> r.bot.jobs == bot.jobs)
  {
    var bot1 :=
      if HasTarget(bot.pending) then
        var rid := bot.pending.deleteId.value;
        var jobs := match FindEmployeeByTelegram(bot.db, telegramId)
                    case Some(e) => CancelJobs(bot.jobs, JobName(rid, e.id))
                    case None => bot.jobs;
        bot.(db := DeleteReminder(bot.db, rid), jobs := jobs)
      else bot;
    assert bot1.db.employees == bot.db.employees;
    assert FindEmployeeByTelegram(bot1.db, telegramId) == FindEmployeeByTelegram(bot.db, telegramId);
    Next(ShowReminders(bot1.db, telegramId).next, bot1)
  }

  // ---------------------------------------------------------------------------
  // The conversation's handler table.

  /** What reaches the conversation: a button press or a text message (commands are filtered out before). */
  datatype Update =
    | Callback(telegramId: int, data: string)
    | Text(telegramId: int, chatId: int, text: string, now: int)

  /** `ask_reminder_datetime` is reachable only after `ask_reminder_text` stored a text. */
  predicate ConvInv(conv: Conv, pending: Pending) {
    conv == AskDatetime ==> pending.message.Some?
  }

  /** `handle_list_choice` as a turn: the state it returns and the target it may store. */
  function ListChoiceTurn(bot: Bot, data: string): Turn
    requires AnchoredMatch(data, ListChoiceCore) || AnchoredMatch(data, CancelCore)
  {
    var (next, pending) := ListChoice(bot.pending, data);
    Next(next, bot.(pending := pending))
  }

  /**
   * `reminders_handler` as written (lines 167-180): the entry points and
   * `LISTING` take the list buttons, the prompts take text, `CONFIRM_DELETE`
   * sends both confirm and cancel to `confirm_delete`, and the fallback sends
   * cancel to `handle_list_choice` in the states that have no callback handler.
   */
  function DispatchAsWritten(conv: Conv, bot: Bot, u: Update): (r: Option<Turn>)
    requires ConvInv(conv, bot.pending)
    ensures u.Text? && (conv == Ended || conv == Listing || conv == ConfirmDeletion) ==> r.None?
    ensures conv == ConfirmDeletion && u.Callback? && AnchoredMatch(u.data, ConfirmCore) ==>
              r == Some(ConfirmDelete(bot, u.telegramId))
  {
    match u
    case Callback(telegramId, data) =>
      if conv == Ended || conv == Listing then
        if AnchoredMatch(data, ListChoiceCore) then Some(ListChoiceTurn(bot, data)) else None
      else if conv == ConfirmDeletion && AnchoredMatch(data, ConfirmCore) then
        Some(ConfirmDelete(bot, telegramId))
      else if AnchoredMatch(data, CancelCore) then Some(ListChoiceTurn(bot, data))
      else None
    case Text(telegramId, chatId, text, now) =>
      if conv == AskText then Some(AskReminderText(bot, text))
      else if conv == AskDatetime then Some(AskReminderDatetime(bot, telegramId, chatId, text, now, bot.pending.message.value))
      else None
  }

  /**
   * The handler table as intended: `CONFIRM_DELETE` takes only the confirm
   * button, so cancel reaches the fallback and ends the conversation, and the
   * confirmation uses `ConfirmDeleteFixed`.
   */
  function Dispatch(conv: Conv, bot: Bot, u: Update): (r: Option<Turn>)
    requires ConvInv(conv, bot.pending)
    ensures u.Text? && (conv == Ended || conv == Listing || conv == ConfirmDeletion) ==> r.None?
    ensures conv == ConfirmDeletion && u.Callback? && AnchoredMatch(u.data, ConfirmOnlyCore) ==>
              r == Some(ConfirmDeleteFixed(bot, u.telegramId))
    ensures conv != Ended && conv != Listing && u.Callback? && AnchoredMatch(u.data, CancelCore) ==>
              r == Some(Next(Ended, bot))
  {
    match u
    case Callback(telegramId, data) =>
      if conv == Ended || conv == Listing then
        if AnchoredMatch(data, ListChoiceCore) then Some(ListChoiceTurn(bot, data)) else None
      else if conv == ConfirmDeletion && AnchoredMatch(data, ConfirmOnlyCore) then
        Some(ConfirmDeleteFixed(bot, telegramId))
      else if AnchoredMatch(data, CancelCore) then Some(ListChoiceTurn(bot, data))
      else None
    case Text(telegramId, chatId, text, now) =>
      if conv == AskText then Some(AskReminderText(bot, text))
      else if conv == AskDatetime then Some(AskReminderDatetime(bot, telegramId, chatId, text, now, bot.pending.message.value))
      else None
  }

  /** The state an update leaves the conversation in. */
  function After(conv: Conv, t: Turn): Conv {
    match t
    case Next(next, _) => next
    case Raised(_) => conv
  }

  /** No handler of either table leads to the date prompt without a stored text. */
  lemma DispatchKeepsConvInv(conv: Conv, bot: Bot, u: Update)
    requires ConvInv(conv, bot.pending)
    ensures Dispatch(conv, bot, u).Some? ==>
              var t := Dispatch(conv, bot, u).value;
              ConvInv(After(conv, t), t.bot.pending)
    ensures DispatchAsWritten(conv, bot, u).Some? ==>
              var t := DispatchAsWritten(conv, bot, u).value;
              ConvInv(After(conv, t), t.bot.pending)
  {
  }

  // ---------------------------------------------------------------------------
  // Conversations: sequences of updates under either handler table.

  /** One update under the table as written (`fixed` false) or as intended. */
  function Route(fixed: bool, conv: Conv, bot: Bot, u: Update): Option<Turn>
    requires ConvInv(conv, bot.pending)
  {
    if fixed then Dispatch(conv, bot, u) else DispatchAsWritten(conv, bot, u)
  }

  /** The conversation state and the world after a sequence of updates; ignored updates change nothing. */
  function Converse(fixed: bool, conv: Conv, bot: Bot, us: seq<Update>): (r: (Conv, Bot))
    requires ConvInv(conv, bot.pending)
    ensures ConvInv(r.0, r.1.pending)
    decreases |us|
  {
    if us == [] then (conv, bot)
    else
      DispatchKeepsConvInv(conv, bot, us[0]);
      match Route(fixed, conv, bot, us[0])
      case None => Converse(fixed, conv, bot, us[1..])
      case Some(t) => Converse(fixed, After(conv, t), t.bot, us[1..])
  }

  /**
   * As written, the confirmation state never ends: its only handler is
   * `confirm_delete`, which raises before returning a state, so every later
   * button press of the user lands there again and the list buttons go unheard.
   */
  lemma {:induction false} StuckInConfirmation(bot: Bot, us: seq<Update>)
    ensures Converse(false, ConfirmDeletion, bot, us).0 == ConfirmDeletion
    decreases |us|
  {
    if us != [] {
      match DispatchAsWritten(ConfirmDeletion, bot, us[0])
      case None =>
        StuckInConfirmation(bot, us[1..]);
      case Some(t) =>
        assert After(ConfirmDeletion, t) == ConfirmDeletion;
        StuckInConfirmation(t.bot, us[1..]);
    }
  }

  /** As intended, confirming returns a registered user to the listing, and cancelling ends the conversation with nothing changed. */
  lemma ConfirmationEnds(bot: Bot, telegramId: int)
    ensures FindEmployeeByTelegram(bot.db, telegramId).Some? ==>
              Converse(true, ConfirmDeletion, bot, [Callback(telegramId, "confirm_delete")]).0 == Listing
    ensures Converse(true, ConfirmDeletion, bot, [Callback(telegramId, "cancel_reminders")]) == (Ended, bot)
  {
    var us := [Callback(telegramId, "cancel_reminders")];
    assert us[1..] == [];
    var vs := [Callback(telegramId, "confirm_delete")];
    assert vs[1..] == [];
  }

  /** As written, cancelling the confirmation deletes the reminder all the same. */
  lemma CancelDeletesAsWritten(bot: Bot, telegramId: int)
    requires HasTarget(bot.pending)
    ensures var t := DispatchAsWritten(ConfirmDeletion, bot, Callback(telegramId, "cancel_reminders"));
            && t.Some?
            && t.value.bot.db == DeleteReminder(bot.db, bot.pending.deleteId.value)
  {
  }

  /** A handled update moves the conversation on; the rest of the updates start from there. */
  lemma ConverseStep(fixed: bool, conv: Conv, bot: Bot, u: Update, rest: seq<Update>)
    requires ConvInv(conv, bot.pending)
    requires Route(fixed, conv, bot, u).Some?
    ensures var t := Route(fixed, conv, bot, u).value;
            ConvInv(After(conv, t), t.bot.pending)
            && Converse(fixed, conv, bot, [u] + rest) == Converse(fixed, After(conv, t), t.bot, rest)
  {
    assert ([u] + rest)[1..] == rest;
    DispatchKeepsConvInv(conv, bot, u);
  }

  /** In the listing, a delete button stores its reminder as the target and asks for confirmation. */
  lemma PickStep(bot: Bot, rid: nat, telegramId: int)
    ensures Dispatch(Listing, bot, Callback(telegramId, DeleteData(rid)))
            == Some(Next(ConfirmDeletion, bot.(pending := bot.pending.(deleteId := Some(rid)))))
  {
    DeleteButtonTargets(bot.pending, rid);
  }

  /** In the confirmation state, the confirm button runs the corrected `confirm_delete`. */
  lemma ConfirmStep(bot: Bot, telegramId: int)
    ensures var done := ConfirmDeleteFixed(bot, telegramId);
            Converse(true, ConfirmDeletion, bot, [Callback(telegramId, "confirm_delete")]) == (done.next, done.bot)
  {
    var confirm := Callback(telegramId, "confirm_delete");
    assert [confirm] == [confirm] + [];
    ConverseStep(true, ConfirmDeletion, bot, confirm, []);
  }

  /** Pressing a reminder's delete button and then confirming, under the table as intended. */
  lemma PickThenConfirm(bot: Bot, rid: nat, telegramId: int)
    ensures var picked := bot.(pending := bot.pending.(deleteId := Some(rid)));
            var done := ConfirmDeleteFixed(picked, telegramId);
            Converse(true, Listing, bot, [Callback(telegramId, DeleteData(rid)), Callback(telegramId, "confirm_delete")]) == (done.next, done.bot)
  {
    var pick, confirm := Callback(telegramId, DeleteData(rid)), Callback(telegramId, "confirm_delete");
    var picked := bot.(pending := bot.pending.(deleteId := Some(rid)));
    PickStep(bot, rid, telegramId);
    assert [pick, confirm] == [pick] + [confirm];
    ConverseStep(true, Listing, bot, pick, [confirm]);
    ConfirmStep(picked, telegramId);
  }

  /**
   * Adding a reminder and then deleting it with its own buttons, under the
   * table as intended: the user is back at the listing, the row is gone and
   * the job queue holds exactly the jobs it held before the reminder was added.
   */
  lemma AddThenDelete(bot: Bot, e: Employee, t: Minute, chatId: int, now: int, message: string, telegramId: int)
    requires FindEmployeeByTelegram(bot.db, telegramId) == Some(e)
    requires ToSeconds(t) > now && bot.db.nextReminder >= 1
    requires JobsNamed(bot)
    ensures var rid := bot.db.nextReminder;
            var saved := SaveReminder(bot, e, t, chatId, now, message);
            var r := Converse(true, Listing, saved, [Callback(telegramId, DeleteData(rid)), Callback(telegramId, "confirm_delete")]);
            && r.0 == Listing
            && (forall x :: x in r.1.db.reminders <==> x in bot.db.reminders && x.id != rid)
            && (forall j :: j in r.1.jobs <==> j in bot.jobs)
  {
    var rid := bot.db.nextReminder;
    var saved := SaveReminder(bot, e, t, chatId, now, message);
    PickThenConfirm(saved, rid, telegramId);
    SaveKeepsUser(bot, e, t, chatId, now, message, telegramId);
    var picked := saved.(pending := saved.pending.(deleteId := Some(rid)));
    assert FindEmployeeByTelegram(picked.db, telegramId) == Some(e);
    CancelSavedJob(bot, e, t, chatId, now, message);
  }

  /** Cancelling the jobs under a saved reminder's name takes away its job and no other. */
  lemma CancelSavedJob(bot: Bot, e: Employee, t: Minute, chatId: int, now: int, message: string)
    requires e in bot.db.employees && ToSeconds(t) > now
    requires JobsNamed(bot)
    ensures var saved := SaveReminder(bot, e, t, chatId, now, message);
            forall j :: j in CancelJobs(saved.jobs, JobName(bot.db.nextReminder, e.id)) <==> j in bot.jobs
  {
    var saved := SaveReminder(bot, e, t, chatId, now, message);
    var name := JobName(bot.db.nextReminder, e.id);
    forall j | j in bot.jobs
      ensures j.name != name
    {
      var owner :| j.name == JobName(j.reminderId, owner);
      if j.name == name {
        JobNameInjective(j.reminderId, owner, bot.db.nextReminder, e.id);
      }
    }
  }

  /**
   * The same steps under the table as written: once the delete button stored
   * the reminder as the target, confirming removes the row, but the job was
   * scheduled under the employee id and is cancelled under the Telegram id, so
   * when the two differ the job stays queued and still fires.
   */
  lemma DeletedJobSurvivesAsWritten(bot: Bot, e: Employee, t: Minute, chatId: int, now: int, message: string, telegramId: int)
    requires FindEmployeeByTelegram(bot.db, telegramId) == Some(e)
    requires ToSeconds(t) > now && bot.db.nextReminder >= 1
    requires e.id != telegramId
    ensures var rid := bot.db.nextReminder;
            var saved := SaveReminder(bot, e, t, chatId, now, message);
            var r := ConfirmDelete(saved.(pending := saved.pending.(deleteId := Some(rid))), telegramId);
            && (forall x :: x in r.bot.db.reminders ==> x.id != rid)
            && saved.jobs[|bot.jobs|] in r.bot.jobs
            && saved.jobs[|bot.jobs|].reminderId == rid
  {
    var rid := bot.db.nextReminder;
    var saved := SaveReminder(bot, e, t, chatId, now, message);
    var job := saved.jobs[|bot.jobs|];
    assert job in saved.jobs;
    if job.name == JobName(rid, telegramId) {
      JobNameInjective(rid, e.id, rid, telegramId);
    }
  }
}

=== FILE: reports.dfy ===
/**
 * The report conversation of handlers/reports.py: an admin gives a start and
 * an end date, picks a format, and gets one row per employee of their
 * department and division with the closed shifts that started in the range:
 * the time worked, the number of distinct working days, the average per day
 * and the stored overtime.
 *
 * Hours arrive from the database as decimals and pass through `float`; the
 * model computes them exactly in whole seconds, with Python's truncation of
 * `int()` and its floor division written out.
 */
module Reports {
  import opened Base
  import opened Text
  import opened Calendar
  import opened DateFormat
  import opened Query
  import opened Store

  // ---------------------------------------------------------------------------
  // Durations as text.

  /** Whole hours and the minutes left over, both rounded down as `//` and `%` do for a positive divisor. */
  function SplitSeconds(s: int): (r: (int, nat))
    ensures 0 <= r.1 < 60
    ensures r.0 * 3600 + r.1 * 60 <= s < r.0 * 3600 + r.1 * 60 + 60
    ensures 60 * r.0 + r.1 == s / 60
  {
    var h := s / 3600;
    var rest := s % 3600;
    var m := rest / 60;
    assert s == h * 3600 + m * 60 + rest % 60;
    MinutesOf(s, h * 60 + m, rest % 60);
    (h, m)
  }

  /** Division by 60 is determined by any split with a remainder below 60. */
  lemma MinutesOf(s: int, k: int, q: int)
    requires s == k * 60 + q && 0 <= q < 60
    ensures s / 60 == k
  {
  }

  /** `_format_timedelta_to_hours_minutes` on a whole number of seconds: `<h> ч. <mm> мин.`. */
  function FormatDuration(s: int): string {
    var (h, m) := SplitSeconds(s);
    IntToString(h) + " ч. " + PaddedDigits(m, 2) + " мин."
  }

  /** The printed duration cut at its first space: the hours, then the rest. */
  lemma FormatDurationShape(s: int)
    ensures var (h, m) := SplitSeconds(s);
            var rest := "ч. " + PaddedDigits(m, 2) + " мин.";
            && FormatDuration(s) == IntToString(h) + [' '] + rest
            && rest[3..5] == PaddedDigits(m, 2)
            && Lacks(IntToString(h), ' ')
  {
    var (h, m) := SplitSeconds(s);
    IntToStringLacks(h, ' ');
  }

  /** Two durations print the same exactly when they hold the same number of whole minutes. */
  lemma FormatDurationMinutes(s: int, s2: int)
    ensures FormatDuration(s) == FormatDuration(s2) <==> s / 60 == s2 / 60
  {
    var (h, m) := SplitSeconds(s);
    var (h2, m2) := SplitSeconds(s2);
    if FormatDuration(s) == FormatDuration(s2) {
      FormatDurationShape(s);
      FormatDurationShape(s2);
      SeparatorSplits(IntToString(h), "ч. " + PaddedDigits(m, 2) + " мин.", IntToString(h2), "ч. " + PaddedDigits(m2, 2) + " мин.", ' ');
      IntToStringInjective(h, h2);
    }
    if s / 60 == s2 / 60 {
      assert 60 * h + m == 60 * h2 + m2;
      assert h == h2;
    }
  }

  /** `int(a / b)` for an exact quotient and a positive divisor: truncation toward zero. */
  function TruncDiv(a: int, b: int): (q: int)
    requires b > 0
    ensures a >= 0 ==> q * b <= a < q * b + b
    ensures a < 0 ==> q * b - b < a <= q * b
  {
    if a >= 0 then a / b else -((-a) / b)
  }

  // ---------------------------------------------------------------------------
  // The aggregation query.

  /** A row of the report: employee, `last_name || ' ' || first_name`, seconds worked, overtime, distinct days. */
  datatype ReportRow = ReportRow(employeeId: int, fullName: string, totalSeconds: int, overtime: Option<int>, shiftsCount: nat)

  function FullName(e: Employee): string {
    e.lastName + " " + e.firstName
  }

  /** The `WHERE` of the query for one employee: a closed shift of theirs that started on a day in `[first, last]`. */
  predicate Counted(s: Session, eid: int, first: int, last: int) {
    s.employeeId == eid && s.duration.Some? && first <= DayOf(s.startedAt) <= last
  }

  function CountedFor(eid: int, first: int, last: int): Session -> bool {
    (s: Session) => Counted(s, eid, first, last)
  }

  /** The shifts that count for employee `eid`, in store order. */
  function ShiftsOf(sessions: seq<Session>, eid: int, first: int, last: int): (r: seq<Session>)
    ensures forall s :: s in r <==> s in sessions && Counted(s, eid, first, last)
  {
    Filter(sessions, CountedFor(eid, first, last))
  }

  /** `SUM(duration)` over closed shifts. */
  function SumDurations(ss: seq<Session>): int {
    if ss == [] then 0
    else (if ss[0].duration.Some? then ss[0].duration.value else 0) + SumDurations(ss[1..])
  }

  lemma {:induction false} SumDurationsConcat(a: seq<Session>, b: seq<Session>)
    ensures SumDurations(a + b) == SumDurations(a) + SumDurations(b)
  {
    if a == [] {
      assert a + b == b;
    } else {
      assert (a + b)[1..] == a[1..] + b;
      SumDurationsConcat(a[1..], b);
    }
  }

  function Days(ss: seq<Session>): (r: seq<int>)
    ensures |r| == |ss|
    ensures forall i :: 0 <= i < |ss| ==> r[i] == DayOf(ss[i].startedAt)
  {
    seq(|ss|, i requires 0 <= i < |ss| => DayOf(ss[i].startedAt))
  }

  /** The number of different values in `days`. */
  function DistinctCount(days: seq<int>): (n: nat)
    ensures n == |set d | d in days|
    ensures days != [] ==> n >= 1
  {
    if days == [] then 0
    else
      var rest := DistinctCount(days[1..]);
      assert (set d | d in days) == (set d | d in days[1..]) + {days[0]};
      if days[0] in days[1..] then
        assert days[0] in (set d | d in days[1..]);
        assert (set d | d in days) == (set d | d in days[1..]);
        rest
      else
        assert days[0] !in (set d | d in days[1..]);
        rest + 1
  }

  /** The days on which the shifts started. */
  lemma DaysAreStartDays(ss: seq<Session>)
    ensures (set d | d in Days(ss)) == (set s | s in ss :: DayOf(s.startedAt))
  {
    forall d | d in Days(ss)
      ensures d in (set s | s in ss :: DayOf(s.startedAt))
    {
      var i :| 0 <= i < |ss| && Days(ss)[i] == d;
      assert ss[i] in ss;
    }
  }

  /** The report row of one employee. */
  function RowOf(sessions: seq<Session>, e: Employee, first: int, last: int): (r: ReportRow)
    ensures r.employeeId == e.id && r.fullName == FullName(e) && r.overtime == e.overtime
    ensures r.totalSeconds == SumDurations(ShiftsOf(sessions, e.id, first, last))
    ensures r.shiftsCount == |set s | s in ShiftsOf(sessions, e.id, first, last) :: DayOf(s.startedAt)|
    ensures r.shiftsCount >= 1 <==> ShiftsOf(sessions, e.id, first, last) != []
  {
    var ss := ShiftsOf(sessions, e.id, first, last);
    DaysAreStartDays(ss);
    ReportRow(e.id, FullName(e), SumDurations(ss), e.overtime, DistinctCount(Days(ss)))
  }

  /** The `JOIN` and the department/division filter, and at least one counted shift to form a group. */
  predicate Grouped(sessions: seq<Session>, e: Employee, first: int, last: int, dep: int, div: int) {
    e.departmentId == dep && e.divisionId == div && ShiftsOf(sessions, e.id, first, last) != []
  }

  function GroupedBy(sessions: seq<Session>, first: int, last: int, dep: int, div: int): Employee -> bool {
    (e: Employee) => Grouped(sessions, e, first, last, dep, div)
  }

  function RowsOf(sessions: seq<Session>, group: seq<Employee>, first: int, last: int): (r: seq<ReportRow>)
    ensures |r| == |group|
    ensures forall i :: 0 <= i < |group| ==> r[i] == RowOf(sessions, group[i], first, last)
  {
    seq(|group|, i requires 0 <= i < |group| => RowOf(sessions, group[i], first, last))
  }

  /** `ORDER BY full_name`, by code point. */
  predicate NameNoLater(a: ReportRow, b: ReportRow) {
    NoLater(a.fullName, b.fullName)
  }

  lemma NameNoLaterIsPreorder()
    ensures TotalPreorder(NameNoLater)
  {
    forall a: ReportRow, b: ReportRow
      ensures NameNoLater(a, b) || NameNoLater(b, a)
    {
      NoLaterTotal(a.fullName, b.fullName);
    }
    forall a: ReportRow, b: ReportRow, c: ReportRow | NameNoLater(a, b) && NameNoLater(b, c)
      ensures NameNoLater(a, c)
    {
      NoLaterTransitive(a.fullName, b.fullName, c.fullName);
    }
  }

  /** The employees the query groups by, in store order. */
  function GroupOf(employees: seq<Employee>, sessions: seq<Session>, first: int, last: int, dep: int, div: int): (r: seq<Employee>)
    ensures forall e :: e in r <==> e in employees && Grouped(sessions, e, first, last, dep, div)
  {
    Filter(employees, GroupedBy(sessions, first, last, dep, div))
  }

  /** The rows of a group: one per grouped employee, and nothing else. */
  lemma GroupRows(employees: seq<Employee>, sessions: seq<Session>, first: int, last: int, dep: int, div: int)
    ensures var rows := RowsOf(sessions, GroupOf(employees, sessions, first, last, dep, div), first, last);
            && |rows| == |GroupOf(employees, sessions, first, last, dep, div)|
            && (forall e :: e in employees && Grouped(sessions, e, first, last, dep, div) ==> RowOf(sessions, e, first, last) in rows)
            && (forall row :: row in rows ==> exists e :: e in employees && Grouped(sessions, e, first, last, dep, div) && row == RowOf(sessions, e, first, last))
  {
    var group := GroupOf(employees, sessions, first, last, dep, div);
    var rows := RowsOf(sessions, group, first, last);
    forall e | e in employees && Grouped(sessions, e, first, last, dep, div)
      ensures RowOf(sessions, e, first, last) in rows
    {
      var i :| 0 <= i < |group| && group[i] == e;
      assert rows[i] == RowOf(sessions, e, first, last);
    }
    forall row | row in rows
      ensures exists e :: e in employees && Grouped(sessions, e, first, last, dep, div) && row == RowOf(sessions, e, first, last)
    {
      var i :| 0 <= i < |rows| && rows[i] == row;
      assert group[i] in group;
    }
  }

  /** Sorting keeps exactly the rows it was given, each as often as it was given. */
  lemma SortKeepsRows(rows: seq<ReportRow>)
    ensures TotalPreorder(NameNoLater)
    ensures multiset(SortBy(rows, NameNoLater)) == multiset(rows) && |SortBy(rows, NameNoLater)| == |rows|
    ensures forall row :: row in SortBy(rows, NameNoLater) <==> row in rows
  {
    NameNoLaterIsPreorder();
    var r := SortBy(rows, NameNoLater);
    forall row
      ensures row in r <==> row in rows
    {
      assert row in r <==> multiset(r)[row] > 0;
      assert row in rows <==> multiset(rows)[row] > 0;
    }
  }

  /**
   * The query of `generate_report` over the days `first..last` (ordinals) for
   * one department and division: one row per employee with a counted shift,
   * ordered by full name.
   */
  function Report(employees: seq<Employee>, sessions: seq<Session>, first: int, last: int, dep: int, div: int): (r: seq<ReportRow>)
    ensures SortedBy(r, NameNoLater)
    ensures |r| == |GroupOf(employees, sessions, first, last, dep, div)|
    ensures forall e :: e in employees && Grouped(sessions, e, first, last, dep, div) ==> RowOf(sessions, e, first, last) in r
    ensures forall row :: row in r ==> row.shiftsCount >= 1
    ensures forall row :: row in r ==> exists e :: e in employees && Grouped(sessions, e, first, last, dep, div) && row == RowOf(sessions, e, first, last)
  {
    var rows := RowsOf(sessions, GroupOf(employees, sessions, first, last, dep, div), first, last);
    GroupRows(employees, sessions, first, last, dep, div);
    SortKeepsRows(rows);
    SortBy(rows, NameNoLater)
  }

  /**
   * `GROUP BY e.id`: when employee ids are a key, as the store's primary key makes
   * them, no two rows of the report belong to the same employee.
   */
  lemma ReportOnePerEmployee(employees: seq<Employee>, sessions: seq<Session>, first: int, last: int, dep: int, div: int)
    requires forall i, j :: 0 <= i < j < |employees| ==> employees[i].id != employees[j].id
    ensures var r := Report(employees, sessions, first, last, dep, div);
            forall i, j :: 0 <= i < j < |r| ==> r[i].employeeId != r[j].employeeId
  {
    var group := GroupOf(employees, sessions, first, last, dep, div);
    var rows := RowsOf(sessions, group, first, last);
    FilterKeysDistinct(employees, GroupedBy(sessions, first, last, dep, div), (e: Employee) => e.id);
    assert forall i :: 0 <= i < |rows| ==> rows[i].employeeId == group[i].id;
    SortKeepsRows(rows);
    PermutationKeysDistinct(rows, SortBy(rows, NameNoLater), (row: ReportRow) => row.employeeId);
  }

  /** Two ways of filtering agree when the predicates agree on every element. */
  lemma {:induction false} FilterSame<T(!new)>(s: seq<T>, p: T -> bool, q: T -> bool)
    requires forall x :: x in s ==> p(x) == q(x)
    ensures Filter(s, p) == Filter(s, q)
  {
    if s != [] {
      FilterSame(s[1..], p, q);
    }
  }

  /** The report depends on the shifts only through each employee's counted shifts. */
  lemma ReportDependsOnCounted(employees: seq<Employee>, sessions: seq<Session>, sessions2: seq<Session>, first: int, last: int, dep: int, div: int)
    requires forall e :: e in employees ==> ShiftsOf(sessions, e.id, first, last) == ShiftsOf(sessions2, e.id, first, last)
    ensures Report(employees, sessions, first, last, dep, div) == Report(employees, sessions2, first, last, dep, div)
  {
    var p, q := GroupedBy(sessions, first, last, dep, div), GroupedBy(sessions2, first, last, dep, div);
    FilterSame(employees, p, q);
    var group := Filter(employees, p);
    assert RowsOf(sessions, group, first, last) == RowsOf(sessions2, group, first, last) by {
      forall i | 0 <= i < |group|
        ensures RowOf(sessions, group[i], first, last) == RowOf(sessions2, group[i], first, last)
      {
        assert group[i] in employees;
      }
    }
  }

  /** Appending a shift that counts for nobody in the report leaves every employee's counted shifts as they were. */
  lemma AppendUncounted(employees: seq<Employee>, sessions: seq<Session>, s: Session, first: int, last: int)
    requires forall e :: e in employees ==> !Counted(s, e.id, first, last)
    ensures forall e :: e in employees ==> ShiftsOf(sessions + [s], e.id, first, last) == ShiftsOf(sessions, e.id, first, last)
  {
    forall e | e in employees
      ensures ShiftsOf(sessions + [s], e.id, first, last) == ShiftsOf(sessions, e.id, first, last)
    {
      FilterConcat(sessions, [s], CountedFor(e.id, first, last));
      assert Filter([s], CountedFor(e.id, first, last)) == [];
    }
  }

  /** A shift still open does not change the report. */
  lemma OpenShiftIgnored(employees: seq<Employee>, sessions: seq<Session>, s: Session, first: int, last: int, dep: int, div: int)
    requires s.duration.None?
    ensures Report(employees, sessions + [s], first, last, dep, div) == Report(employees, sessions, first, last, dep, div)
  {
    AppendUncounted(employees, sessions, s, first, last);
    ReportDependsOnCounted(employees, sessions + [s], sessions, first, last, dep, div);
  }

  /** A shift that started on a day outside the range does not change the report, even when it ended inside it. */
  lemma OutOfRangeShiftIgnored(employees: seq<Employee>, sessions: seq<Session>, s: Session, first: int, last: int, dep: int, div: int)
    requires DayOf(s.startedAt) < first || DayOf(s.startedAt) > last
    ensures Report(employees, sessions + [s], first, last, dep, div) == Report(employees, sessions, first, last, dep, div)
  {
    AppendUncounted(employees, sessions, s, first, last);
    ReportDependsOnCounted(employees, sessions + [s], sessions, first, last, dep, div);
  }

  /** A shift of an employee outside the department or division does not change the report. */
  lemma OtherGroupShiftIgnored(employees: seq<Employee>, sessions: seq<Session>, s: Session, first: int, last: int, dep: int, div: int)
    requires forall e :: e in employees && e.id == s.employeeId ==> e.departmentId != dep || e.divisionId != div
    ensures Report(employees, sessions + [s], first, last, dep, div) == Report(employees, sessions, first, last, dep, div)
  {
    var grouped := Filter(employees, (e: Employee) => e.departmentId == dep && e.divisionId == div);
    var p := GroupedBy(sessions + [s], first, last, dep, div);
    var q := GroupedBy(sessions, first, last, dep, div);
    forall e | e in employees
      ensures p(e) == q(e)
      ensures p(e) ==> ShiftsOf(sessions + [s], e.id, first, last) == ShiftsOf(sessions, e.id, first, last)
    {
      FilterConcat(sessions, [s], CountedFor(e.id, first, last));
      if e.departmentId == dep && e.divisionId == div {
        assert Filter([s], CountedFor(e.id, first, last)) == [];
      }
    }
    FilterSame(employees, p, q);
    var group := Filter(employees, p);
    assert RowsOf(sessions + [s], group, first, last) == RowsOf(sessions, group, first, last) by {
      forall i | 0 <= i < |group|
        ensures RowOf(sessions + [s], group[i], first, last) == RowOf(sessions, group[i], first, last)
      {
        assert group[i] in employees;
      }
    }
  }

  /**
   * A closed shift of employee `e` that started in the range adds its duration
   * to `e`'s total and its start day to `e`'s days.
   */
  lemma CountedShiftAdds(sessions: seq<Session>, s: Session, e: Employee, first: int, last: int)
    requires Counted(s, e.id, first, last)
    ensures var before := RowOf(sessions, e, first, last);
            var after := RowOf(sessions + [s], e, first, last);
            && after.totalSeconds == before.totalSeconds + s.duration.value
            && after.shiftsCount == before.shiftsCount + (if DayOf(s.startedAt) in (set x | x in ShiftsOf(sessions, e.id, first, last) :: DayOf(x.startedAt)) then 0 else 1)
  {
    var ss := ShiftsOf(sessions, e.id, first, last);
    FilterConcat(sessions, [s], CountedFor(e.id, first, last));
    assert Filter([s], CountedFor(e.id, first, last)) == [s];
    assert ShiftsOf(sessions + [s], e.id, first, last) == ss + [s];
    SumDurationsConcat(ss, [s]);
    assert SumDurations([s]) == s.duration.value;
    var before := set x | x in ss :: DayOf(x.startedAt);
    assert (set x | x in ss + [s] :: DayOf(x.startedAt)) == before + {DayOf(s.startedAt)};
  }

  // ---------------------------------------------------------------------------
  // The text report.

  /** `str(date)`, or `None` for a date never stored. */
  function DateText(d: Option<Day>): string {
    match d
    case Some(x) => FormatDate(x)
    case None => "None"
  }

  /** The seconds shown as the average per day: `total / count` truncated, and 0 without a day. */
  function AverageSeconds(total: int, count: int): (r: int)
    ensures count > 0 && total >= 0 ==> r * count <= total < (r + 1) * count
    ensures count <= 0 ==> r == 0
  {
    if count > 0 then TruncDiv(total, count) else 0
  }

  /** `overtime if overtime else timedelta(0)` in seconds. */
  function OvertimeSeconds(overtime: Option<int>): (r: int)
    ensures overtime.None? ==> r == 0
    ensures overtime.Some? ==> r == overtime.value
  {
    match overtime
    case None => 0
    case Some(v) => v
  }

  function ReportLine(row: ReportRow): string {
    row.fullName + ": дней: " + IntToString(row.shiftsCount)
      + ", общее: " + FormatDuration(row.totalSeconds)
      + ", ср. в день: " + FormatDuration(AverageSeconds(row.totalSeconds, row.shiftsCount))
      + ", overtime: " + FormatDuration(OvertimeSeconds(row.overtime))
  }

  /** The text sent for `format_text`: a not-found line for no rows, otherwise a title and one line per row. */
  function ReportText(start: Option<Day>, end: Option<Day>, rows: seq<ReportRow>): (r: string)
    ensures rows == [] ==> r == "За период " + DateText(start) + " — " + DateText(end) + " данных не найдено."
  {
    if rows == [] then "За период " + DateText(start) + " — " + DateText(end) + " данных не найдено."
    else Join([ReportTitle(start, end)] + ReportLines(rows), '\n')
  }

  function ReportTitle(start: Option<Day>, end: Option<Day>): string {
    "Отчёт за период " + DateText(start) + " — " + DateText(end) + ":"
  }

  function ReportLines(rows: seq<ReportRow>): (r: seq<string>)
    ensures |r| == |rows|
    ensures forall i :: 0 <= i < |rows| ==> r[i] == ReportLine(rows[i])
  {
    seq(|rows|, i requires 0 <= i < |rows| => ReportLine(rows[i]))
  }

  /**
   * Cut at its line breaks, a non-empty text report is the title and then one
   * line per row, in row order, as long as no full name holds a line break.
   */
  lemma ReportTextLines(start: Option<Day>, end: Option<Day>, rows: seq<ReportRow>)
    requires rows != []
    requires forall row :: row in rows ==> Lacks(row.fullName, '\n')
    ensures Split(ReportText(start, end, rows), '\n') == [ReportTitle(start, end)] + ReportLines(rows)
  {
    var lines := ReportLines(rows);
    ReportTitleBreaks(start, end);
    ReportLinesBreak(rows);
    TitledLines(ReportTitle(start, end), lines, '\n');
  }

  lemma ReportLinesBreak(rows: seq<ReportRow>)
    requires forall row :: row in rows ==> Lacks(row.fullName, '\n')
    ensures forall i :: 0 <= i < |rows| ==> Lacks(ReportLines(rows)[i], '\n')
  {
    forall i | 0 <= i < |rows|
      ensures Lacks(ReportLines(rows)[i], '\n')
    {
      assert rows[i] in rows;
      ReportLineBreaks(rows[i]);
    }
  }

  lemma DateTextBreaks(d: Option<Day>)
    ensures Lacks(DateText(d), '\n')
  {
    if d.Some? {
      FormatDateLacks(d.value, '\n');
    }
  }

  lemma ReportTitleBreaks(start: Option<Day>, end: Option<Day>)
    ensures Lacks(ReportTitle(start, end), '\n')
  {
    DateTextBreaks(start);
    DateTextBreaks(end);
    TitleOfPieces(DateText(start), DateText(end));
  }

  lemma TitleOfPieces(a: string, b: string)
    requires Lacks(a, '\n') && Lacks(b, '\n')
    ensures Lacks("Отчёт за период " + a + " — " + b + ":", '\n')
  {
    assert Lacks("Отчёт за период ", '\n') && Lacks(" — ", '\n') && Lacks(":", '\n');
  }

  /** A printed duration is one line. */
  lemma DurationBreaks(s: int)
    ensures Lacks(FormatDuration(s), '\n')
  {
    var (h, m) := SplitSeconds(s);
    IntToStringLacks(h, '\n');
    DigitsLack(PaddedDigits(m, 2), '\n');
    assert Lacks(" ч. ", '\n') && Lacks(" мин.", '\n');
  }

  /** A row's line holds no line break when its full name holds none. */
  lemma ReportLineBreaks(row: ReportRow)
    requires Lacks(row.fullName, '\n')
    ensures Lacks(ReportLine(row), '\n')
  {
    IntToStringLacks(row.shiftsCount, '\n');
    DurationBreaks(row.totalSeconds);
    DurationBreaks(AverageSeconds(row.totalSeconds, row.shiftsCount));
    DurationBreaks(OvertimeSeconds(row.overtime));
    LineOfPieces(row.fullName, IntToString(row.shiftsCount), FormatDuration(row.totalSeconds),
                 FormatDuration(AverageSeconds(row.totalSeconds, row.shiftsCount)), FormatDuration(OvertimeSeconds(row.overtime)));
  }

  lemma LineOfPieces(name: string, n: string, t: string, a: string, o: string)
    requires Lacks(name, '\n') && Lacks(n, '\n') && Lacks(t, '\n') && Lacks(a, '\n') && Lacks(o, '\n')
    ensures Lacks(name + ": дней: " + n + ", общее: " + t + ", ср. в день: " + a + ", overtime: " + o, '\n')
  {
    assert Lacks(": дней: ", '\n') && Lacks(", общее: ", '\n') && Lacks(", ср. в день: ", '\n') && Lacks(", overtime: ", '\n');
  }

  // ---------------------------------------------------------------------------
  // The conversation.

  datatype RConv = Idle | AskStart | AskEnd | ChooseFormat

  /** `report_temp`: one dictionary for the whole process. */
  datatype ReportTemp = ReportTemp(start: Option<Day>, end: Option<Day>)

  /** What the requester gets back besides prompts. */
  datatype Reply = NoReport | TextReport(text: string) | ExcelReport(rows: seq<ReportRow>)

  /** A handler's effect; an exception leaves the state and `report_temp` where they were. */
  datatype RTurn = RNext(next: RConv, temp: ReportTemp, reply: Reply) | RRaised

  const AdminRole: string := "admin"

  predicate IsAdmin(db: Db, telegramId: int) {
    FindEmployeeByTelegram(db, telegramId).Some? && FindEmployeeByTelegram(db, telegramId).value.role == AdminRole
  }

  /** `reports_callback`: only a registered admin is asked for the start date. */
  function ReportsEntry(db: Db, telegramId: int): (r: RConv)
    ensures r == AskStart <==> IsAdmin(db, telegramId)
    ensures r == Idle <==> !IsAdmin(db, telegramId)
  {
    match FindEmployeeByTelegram(db, telegramId)
    case None => Idle
    case Some(e) => if e.role != AdminRole then Idle else AskStart
  }

  /** `datetime.strptime(text.strip(), "%Y-%m-%d").date()`. */
  function ReadDate(text: string): (r: Option<Day>)
    ensures r.Some? <==> ParseDate(Strip(text)).Some?
    ensures r.Some? ==> r.value == ParseDate(Strip(text)).value
  {
    match ParseDate(Strip(text))
    case None => None
    case Some(d) => Some(d)
  }

  /** `ask_end_date`: a date is stored as the start and the end date is asked for; anything else asks again. */
  function AskEndDate(temp: ReportTemp, text: string): (r: RTurn)
    ensures r.RNext? && r.reply == NoReport
    ensures r.next == AskEnd <==> ReadDate(text).Some?
    ensures r.next != AskEnd ==> r.next == AskStart && r.temp == temp
    ensures r.next == AskEnd ==> r.temp == temp.(start := ReadDate(text))
  {
    match ReadDate(text)
    case None => RNext(AskStart, temp, NoReport)
    case Some(d) => RNext(AskEnd, temp.(start := Some(d)), NoReport)
  }

  /**
   * `choose_format`: a date not before the stored start is stored as the end
   * and the format is asked for; an unreadable date or one before the start
   * asks again; comparing with a start never stored raises.
   */
  function ChooseFormatStep(temp: ReportTemp, text: string): (r: RTurn)
    ensures r.RRaised? <==> ReadDate(text).Some? && temp.start.None?
    ensures r.RNext? ==> r.reply == NoReport
    ensures r.RNext? && r.next == ChooseFormat <==>
              ReadDate(text).Some? && temp.start.Some? && !DateBefore(ReadDate(text).value, temp.start.value)
    ensures r.RNext? && r.next == ChooseFormat ==> r.temp == temp.(end := ReadDate(text))
    ensures r.RNext? && r.next != ChooseFormat ==> r.next == AskEnd && r.temp == temp
  {
    match ReadDate(text)
    case None => RNext(AskEnd, temp, NoReport)
    case Some(end) =>
      match temp.start
      case None => RRaised
      case Some(start) =>
        if DateBefore(end, start) then RNext(AskEnd, temp, NoReport)
        else RNext(ChooseFormat, temp.(end := Some(end)), NoReport)
  }

  /** With a stored start, the end is accepted exactly when its day is not earlier: the same day is accepted. */
  lemma DateRangeAccepted(temp: ReportTemp, text: string)
    requires ReadDate(text).Some? && temp.start.Some?
    ensures ChooseFormatStep(temp, text).RNext?
    ensures ChooseFormatStep(temp, text).next == ChooseFormat <==> Ordinal(temp.start.value) <= Ordinal(ReadDate(text).value)
  {
    OrdinalOrder(ReadDate(text).value, temp.start.value);
  }

  /** The rows `generate_report` reads: none when a date was never stored, since `BETWEEN NULL` holds for no row. */
  function ReportRows(db: Db, temp: ReportTemp, e: Employee): seq<ReportRow> {
    if temp.start.Some? && temp.end.Some? then
      Report(db.employees, db.sessions, Ordinal(temp.start.value), Ordinal(temp.end.value), e.departmentId, e.divisionId)
    else []
  }

  /**
   * `generate_report`: cancel ends with no report; otherwise the requester's
   * own department and division are reported on as text or as a spreadsheet,
   * and an unknown requester raises. Other data leaves the state as it was.
   */
  function GenerateReport(db: Db, temp: ReportTemp, telegramId: int, data: string): (r: RTurn)
    ensures data == "cancel_report" ==> r == RNext(Idle, temp, NoReport)
    ensures data != "cancel_report" && FindEmployeeByTelegram(db, telegramId).None? ==> r.RRaised?
    ensures r.RNext? && r.reply.TextReport? ==>
              var e := FindEmployeeByTelegram(db, telegramId).value;
              data == "format_text" && r.reply.text == ReportText(temp.start, temp.end, ReportRows(db, temp, e))
    ensures r.RNext? && r.reply.ExcelReport? ==>
              data == "format_excel" && r.reply.rows == ReportRows(db, temp, FindEmployeeByTelegram(db, telegramId).value)
    ensures r.RNext? && r.reply == NoReport && data != "cancel_report" ==> r == RNext(ChooseFormat, temp, NoReport)
    ensures data == "format_text" && FindEmployeeByTelegram(db, telegramId).Some? ==>
              r == RNext(Idle, temp, TextReport(ReportText(temp.start, temp.end, ReportRows(db, temp, FindEmployeeByTelegram(db, telegramId).value))))
    ensures data == "format_excel" && FindEmployeeByTelegram(db, telegramId).Some? ==>
              r == RNext(Idle, temp, ExcelReport(ReportRows(db, temp, FindEmployeeByTelegram(db, telegramId).value)))
  {
    if data == "cancel_report" then RNext(Idle, temp, NoReport)
    else
      match FindEmployeeByTelegram(db, telegramId)
      case None => RRaised
      case Some(e) =>
        var rows := ReportRows(db, temp, e);
        if data == "format_text" then RNext(Idle, temp, TextReport(ReportText(temp.start, temp.end, rows)))
        else if data == "format_excel" then RNext(Idle, temp, ExcelReport(rows))
        else RNext(ChooseFormat, temp, NoReport)
  }

  /** What reaches the conversation from one user. */
  datatype RUpdate = RText(telegramId: int, text: string) | RCallback(telegramId: int, data: string)

  /** A text Telegram marks as a command; the state handlers skip these. */
  predicate IsCommand(text: string) {
    |text| > 0 && text[0] == '/'
  }

  /** `^<core>$` under `re.search`: `$` also matches before one final line break. */
  predicate WholeMatch(text: string, core: string) {
    text == core || text == core + "\n"
  }

  predicate FormatData(data: string) {
    WholeMatch(data, "format_text") || WholeMatch(data, "format_excel") || WholeMatch(data, "cancel_report")
  }

  /** `reports_handler`: the entry on the `Отчёты` button, one handler per state, and `/cancel` as the fallback. */
  function RDispatch(conv: RConv, db: Db, temp: ReportTemp, u: RUpdate): (r: Option<RTurn>)
    ensures r.Some? && r.value.RNext? && r.value.reply != NoReport ==> conv == ChooseFormat
    ensures conv == Idle && r.Some? && r.value.RNext? ==> r.value.next == ReportsEntry(db, u.telegramId)
    ensures conv == Idle ==> (r.Some? <==> u.RText? && WholeMatch(u.text, "Отчёты"))
    ensures conv != Idle && u.RText? && WholeMatch(u.text, "/cancel") ==> r == Some(RNext(Idle, temp, NoReport))
    ensures conv == ChooseFormat && u.RCallback? && FormatData(u.data) ==> r == Some(GenerateReport(db, temp, u.telegramId, u.data))
    ensures conv != ChooseFormat && u.RCallback? ==> r.None?
  {
    match u
    case RText(telegramId, text) =>
      if conv == Idle then
        if WholeMatch(text, "Отчёты") then Some(RNext(ReportsEntry(db, telegramId), temp, NoReport)) else None
      else if !IsCommand(text) && conv == AskStart then Some(AskEndDate(temp, text))
      else if !IsCommand(text) && conv == AskEnd then Some(ChooseFormatStep(temp, text))
      else if WholeMatch(text, "/cancel") then Some(RNext(Idle, temp, NoReport))
      else None
    case RCallback(telegramId, data) =>
      if conv == ChooseFormat && FormatData(data) then Some(GenerateReport(db, temp, telegramId, data)) else None
  }

  function RAfter(conv: RConv, t: RTurn): RConv {
    match t
    case RNext(next, _, _) => next
    case RRaised => conv
  }

  function RAfterTemp(temp: ReportTemp, t: RTurn): ReportTemp {
    match t
    case RNext(_, temp1, _) => temp1
    case RRaised => temp
  }

  /** The state, `report_temp` and the replies after a sequence of updates from one user; reports never write. */
  function RConverse(conv: RConv, db: Db, temp: ReportTemp, us: seq<RUpdate>): (r: (RConv, ReportTemp, seq<Reply>))
    decreases |us|
  {
    if us == [] then (conv, temp, [])
    else
      match RDispatch(conv, db, temp, us[0])
      case None => RConverse(conv, db, temp, us[1..])
      case Some(t) =>
        var rest := RConverse(RAfter(conv, t), db, RAfterTemp(temp, t), us[1..]);
        (rest.0, rest.1, (if t.RNext? then [t.reply] else []) + rest.2)
  }

  /** Past the entry, the conversation only moves for an admin, so no one else is ever sent a report. */
  lemma {:induction false} ReportsOnlyForAdmins(conv: RConv, db: Db, temp: ReportTemp, us: seq<RUpdate>, telegramId: int)
    requires forall i :: 0 <= i < |us| ==> us[i].telegramId == telegramId
    requires conv != Idle ==> IsAdmin(db, telegramId)
    ensures var r := RConverse(conv, db, temp, us);
            && (r.0 != Idle ==> IsAdmin(db, telegramId))
            && (forall k :: 0 <= k < |r.2| && r.2[k] != NoReport ==> IsAdmin(db, telegramId))
    decreases |us|
  {
    if us != [] {
      var rest := us[1..];
      assert forall i :: 0 <= i < |rest| ==> rest[i].telegramId == telegramId by {
        forall i | 0 <= i < |rest| ensures rest[i].telegramId == telegramId { assert rest[i] == us[i + 1]; }
      }
      match RDispatch(conv, db, temp, us[0])
      case None =>
        ReportsOnlyForAdmins(conv, db, temp, rest, telegramId);
      case Some(t) =>
        ReportsOnlyForAdmins(RAfter(conv, t), db, RAfterTemp(temp, t), rest, telegramId);
    }
  }

  /** Updates handled one after another: the second run starts where the first one left the state and `report_temp`, and the replies follow on. */
  lemma {:induction false} RConverseAppend(conv: RConv, db: Db, temp: ReportTemp, us: seq<RUpdate>, vs: seq<RUpdate>)
    ensures var a := RConverse(conv, db, temp, us);
            var b := RConverse(a.0, db, a.1, vs);
            RConverse(conv, db, temp, us + vs) == (b.0, b.1, a.2 + b.2)
    decreases |us|
  {
    if us == [] {
      assert us + vs == vs;
      var b := RConverse(conv, db, temp, vs);
      assert [] + b.2 == b.2;
    } else {
      assert (us + vs)[0] == us[0];
      assert (us + vs)[1..] == us[1..] + vs;
      match RDispatch(conv, db, temp, us[0])
      case None =>
        RConverseAppend(conv, db, temp, us[1..], vs);
      case Some(t) =>
        RConverseAppend(RAfter(conv, t), db, RAfterTemp(temp, t), us[1..], vs);
        var head: seq<Reply> := if t.RNext? then [t.reply] else [];
        var a := RConverse(RAfter(conv, t), db, RAfterTemp(temp, t), us[1..]);
        var b := RConverse(a.0, db, a.1, vs);
        assert head + (a.2 + b.2) == (head + a.2) + b.2;
    }
  }

  /** One handled update moves the conversation to its next state with its one reply. */
  lemma RConverseOne(conv: RConv, db: Db, temp: ReportTemp, u: RUpdate, next: RConv, temp1: ReportTemp, reply: Reply)
    requires RDispatch(conv, db, temp, u) == Some(RNext(next, temp1, reply))
    ensures RConverse(conv, db, temp, [u]) == (next, temp1, [reply])
  {
    assert [u][0] == u && [u][1..] == [];
    assert RConverse(next, db, temp1, [u][1..]) == (next, temp1, []);
    assert [reply] + [] == [reply];
  }

  /** Four one-element sequences joined in pairs make the four-element sequence. */
  lemma PairOfPairs<T>(a: T, b: T, c: T, d: T)
    ensures [a] + [b] + ([c] + [d]) == [a, b, c, d]
  {
  }

  /** Two conversations run back to back: the second starts where the first ends, and the replies follow on. */
  lemma RConverseJoin(c0: RConv, db: Db, t0: ReportTemp, us: seq<RUpdate>, vs: seq<RUpdate>,
                      c1: RConv, t1: ReportTemp, rs1: seq<Reply>, c2: RConv, t2: ReportTemp, rs2: seq<Reply>)
    requires RConverse(c0, db, t0, us) == (c1, t1, rs1)
    requires RConverse(c1, db, t1, vs) == (c2, t2, rs2)
    ensures RConverse(c0, db, t0, us + vs) == (c2, t2, rs1 + rs2)
  {
    RConverseAppend(c0, db, t0, us, vs);
  }

  /** Four updates, each handled on its own, make one conversation whose replies are theirs in order. */
  lemma RConverseFour(c0: RConv, db: Db, t0: ReportTemp, u0: RUpdate, u1: RUpdate, u2: RUpdate, u3: RUpdate,
                      c1: RConv, t1: ReportTemp, r1: Reply, c2: RConv, t2: ReportTemp, r2: Reply,
                      c3: RConv, t3: ReportTemp, r3: Reply, c4: RConv, t4: ReportTemp, r4: Reply)
    requires RConverse(c0, db, t0, [u0]) == (c1, t1, [r1])
    requires RConverse(c1, db, t1, [u1]) == (c2, t2, [r2])
    requires RConverse(c2, db, t2, [u2]) == (c3, t3, [r3])
    requires RConverse(c3, db, t3, [u3]) == (c4, t4, [r4])
    ensures RConverse(c0, db, t0, [u0, u1, u2, u3]) == (c4, t4, [r1, r2, r3, r4])
  {
    RConverseJoin(c0, db, t0, [u0], [u1], c1, t1, [r1], c2, t2, [r2]);
    RConverseJoin(c2, db, t2, [u2], [u3], c3, t3, [r3], c4, t4, [r4]);
    PairOfPairs(u0, u1, u2, u3);
    PairOfPairs(r1, r2, r3, r4);
    RConverseJoin(c0, db, t0, [u0] + [u1], [u2] + [u3], c2, t2, [r1] + [r2], c4, t4, [r3] + [r4]);
  }

  /** A text `strptime` reads as a date starts with a digit once stripped, so it is never a command. */
  lemma DateIsNoCommand(text: string)
    requires ReadDate(text).Some?
    ensures !IsCommand(text)
  {
    var r := Strip(text);
    var k := LeadingRun(text, IsSpace);
    assert r[..4][0] == r[0] && IsDigit(r[0]);
    assert text[k] == r[0];
    if k > 0 {
      assert IsSpace(text[0]);
    }
  }

  /** The admin's `Отчёты` opens the conversation at the start date. */
  lemma EntryStep(db: Db, temp: ReportTemp, telegramId: int)
    requires IsAdmin(db, telegramId)
    ensures RDispatch(Idle, db, temp, RText(telegramId, "Отчёты")) == Some(RNext(AskStart, temp, NoReport))
  {
  }

  /** A start date is stored and the conversation asks for the end date. */
  lemma StartDateStep(db: Db, temp: ReportTemp, telegramId: int, text: string)
    requires ReadDate(text).Some?
    ensures RDispatch(AskStart, db, temp, RText(telegramId, text)) == Some(RNext(AskEnd, temp.(start := ReadDate(text)), NoReport))
  {
    DateIsNoCommand(text);
  }

  /** An end date not before the stored start is stored and the format is asked for. */
  lemma EndDateStep(db: Db, temp: ReportTemp, telegramId: int, text: string)
    requires ReadDate(text).Some? && temp.start.Some? && Ordinal(temp.start.value) <= Ordinal(ReadDate(text).value)
    ensures RDispatch(AskEnd, db, temp, RText(telegramId, text)) == Some(RNext(ChooseFormat, temp.(end := ReadDate(text)), NoReport))
  {
    DateIsNoCommand(text);
    DateRangeAccepted(temp, text);
  }

  /** The text format button sends the admin the text report of the stored dates and ends the conversation. */
  lemma TextFormatStep(db: Db, temp: ReportTemp, telegramId: int)
    requires IsAdmin(db, telegramId)
    ensures RDispatch(ChooseFormat, db, temp, RCallback(telegramId, "format_text"))
              == Some(RNext(Idle, temp, TextReport(ReportText(temp.start, temp.end, ReportRows(db, temp, FindEmployeeByTelegram(db, telegramId).value)))))
  {
  }

  /**
   * An admin who presses `Отчёты`, gives a start date, an end date not before it
   * and picks the text format gets the text report of their department and
   * division for those days, and the conversation ends.
   */
  lemma AdminTextReport(db: Db, temp: ReportTemp, telegramId: int, startText: string, endText: string)
    requires IsAdmin(db, telegramId)
    requires ReadDate(startText).Some? && ReadDate(endText).Some?
    requires Ordinal(ReadDate(startText).value) <= Ordinal(ReadDate(endText).value)
    ensures var s, e := ReadDate(startText).value, ReadDate(endText).value;
            var emp := FindEmployeeByTelegram(db, telegramId).value;
            var rows := Report(db.employees, db.sessions, Ordinal(s), Ordinal(e), emp.departmentId, emp.divisionId);
            RConverse(Idle, db, temp, [RText(telegramId, "Отчёты"), RText(telegramId, startText), RText(telegramId, endText), RCallback(telegramId, "format_text")])
              == (Idle, ReportTemp(Some(s), Some(e)), [NoReport, NoReport, NoReport, TextReport(ReportText(Some(s), Some(e), rows))])
  {
    var s, e := ReadDate(startText).value, ReadDate(endText).value;
    var temp1 := temp.(start := Some(s));
    var temp2 := temp1.(end := Some(e));
    var report := TextReport(ReportText(Some(s), Some(e), ReportRows(db, temp2, FindEmployeeByTelegram(db, telegramId).value)));
    EntryStep(db, temp, telegramId);
    StartDateStep(db, temp, telegramId, startText);
    EndDateStep(db, temp1, telegramId, endText);
    TextFormatStep(db, temp2, telegramId);
    RConverseOne(Idle, db, temp, RText(telegramId, "Отчёты"), AskStart, temp, NoReport);
    RConverseOne(AskStart, db, temp, RText(telegramId, startText), AskEnd, temp1, NoReport);
    RConverseOne(AskEnd, db, temp1, RText(telegramId, endText), ChooseFormat, temp2, NoReport);
    RConverseOne(ChooseFormat, db, temp2, RCallback(telegramId, "format_text"), Idle, temp2, report);
    RConverseFour(Idle, db, temp, RText(telegramId, "Отчёты"), RText(telegramId, startText), RText(telegramId, endText), RCallback(telegramId, "format_text"),
                  AskStart, temp, NoReport, AskEnd, temp1, NoReport, ChooseFormat, temp2, NoReport, Idle, temp2, report);
  }
}

=== FILE: shift.dfy ===
/**
 * The shift and break buttons of handlers/work.py. Each handler reads the
 * employee's `(is_online, has_session, in_break)` triple, refuses when its guard
 * fails, and otherwise commits its writes at the handler's timestamp `ts`.
 *
 * `start_work_cb`, `end_work_cb` and `start_break_cb` run the same statements as
 * the store calls `start_work_session`, `end_work_session` and `start_break`, so
 * their accepted writes are those store functions. `end_break_cb` runs its own
 * statement, which picks the latest open break over all of the employee's
 * sessions; `EndBreakAgrees` relates it to the store's `end_break`.
 */
module Shift {
  import opened Base
  import opened Query
  import opened Store
  import opened Calendar

  /** `_get_user_state`'s triple. */
  datatype UserState = UserState(isOnline: bool, hasSession: bool, inBreak: bool)

  /** What a button press did. */
  datatype Outcome =
    | Accepted(after: Db)   // the guard passed and the writes committed
    | Refused               // the guard failed: a reply, no write
    | Crashed               // `fetchone()` found no status row: the handler raises before writing

  /** Break `b` hangs under a session of `eid`, open or closed. */
  predicate UnderSessionOf(sessions: seq<Session>, b: Break, eid: int) {
    exists j :: 0 <= j < |sessions| && sessions[j].id == b.sessionId && sessions[j].employeeId == eid
  }

  /** Break `b` hangs under a session of `eid` that is still open. */
  predicate UnderOpenSessionOf(sessions: seq<Session>, b: Break, eid: int) {
    exists j :: 0 <= j < |sessions| && sessions[j].id == b.sessionId && OpenSessionOf(sessions[j], eid)
  }

  /** `in_break`: some open break hangs under an open session of `eid`. */
  predicate OnBreak(db: Db, eid: int) {
    exists i :: 0 <= i < |db.breaks| && BreakIsOpen(db.breaks[i]) && UnderOpenSessionOf(db.sessions, db.breaks[i], eid)
  }

  /**
   * `_get_user_state`: the employee id behind a telegram id and the triple, or
   * `None` when the first query finds no row (no employee or no status row).
   */
  function GetUserState(db: Db, telegramId: int): (r: Option<(int, UserState)>)
    ensures r.None? <==> FindEmployeeByTelegram(db, telegramId).None? || FindEmployeeByTelegram(db, telegramId).value.id !in db.online
    ensures r.Some? ==> r.value.0 == FindEmployeeByTelegram(db, telegramId).value.id
    ensures r.Some? ==> IsEmployee(db, r.value.0) && r.value.0 in db.online
    ensures r.Some? ==> r.value.1 == UserState(db.online[r.value.0], HasOpenSession(db, r.value.0), OnBreak(db, r.value.0))
  {
    match FindEmployeeByTelegram(db, telegramId)
    case None => None
    case Some(e) =>
      if e.id !in db.online then None
      else
        assert IsEmployee(db, e.id) by {
          var j :| 0 <= j < |db.employees| && db.employees[j] == e;
        }
        Some((e.id, UserState(db.online[e.id], HasOpenSession(db, e.id), OnBreak(db, e.id))))
  }

  /** `start_work_cb` ("Начал"): allowed only when neither online nor in a session. */
  function OnStartWork(db: Db, telegramId: int, ts: int): (r: Outcome)
    ensures r.Crashed? <==> GetUserState(db, telegramId).None?
    ensures GetUserState(db, telegramId).Some? ==>
              var (eid, st) := GetUserState(db, telegramId).value;
              && (r.Accepted? <==> !st.isOnline && !st.hasSession)
              && (r.Accepted? ==>
                    && r.after.sessions == db.sessions + [Session(db.nextSession, eid, ts, None, None)]
                    && OnlineFlag(r.after, eid) && r.after.online == SetOnline(db.online, eid, true)
                    && r.after == db.(sessions := r.after.sessions, nextSession := db.nextSession + 1, online := r.after.online))
  {
    match GetUserState(db, telegramId)
    case None => Crashed
    case Some((eid, st)) =>
      if st.isOnline || st.hasSession then Refused
      else Accepted(StartWorkSession(db, eid, ts).value)
  }

  /** `end_work_cb` ("Закончил"): allowed only when in a session, online and not on a break. */
  function OnEndWork(db: Db, telegramId: int, ts: int): (r: Outcome)
    ensures r.Crashed? <==> GetUserState(db, telegramId).None?
    ensures GetUserState(db, telegramId).Some? ==>
              var (eid, st) := GetUserState(db, telegramId).value;
              && (r.Accepted? <==> st.hasSession && st.isOnline && !st.inBreak)
              && (r.Accepted? ==>
                    && !HasOpenSession(r.after, eid)
                    && !OnlineFlag(r.after, eid) && r.after.online == SetOnline(db.online, eid, false)
                    && |r.after.sessions| == |db.sessions|
                    && (forall i :: 0 <= i < |db.sessions| && OpenSessionOf(db.sessions[i], eid) ==>
                          r.after.sessions[i].endedAt == Some(ts) && r.after.sessions[i].duration == Some(ts - db.sessions[i].startedAt))
                    && (forall i :: 0 <= i < |db.sessions| && !OpenSessionOf(db.sessions[i], eid) ==> r.after.sessions[i] == db.sessions[i])
                    && r.after == db.(sessions := r.after.sessions, online := r.after.online))
  {
    match GetUserState(db, telegramId)
    case None => Crashed
    case Some((eid, st)) =>
      if !st.hasSession || !st.isOnline || st.inBreak then Refused
      else Accepted(EndWorkSession(db, eid, ts))
  }

  /** `start_break_cb` ("Отошел"): the guard of `end_work_cb`; the break goes under the latest open session. */
  function OnStartBreak(db: Db, telegramId: int, ts: int): (r: Outcome)
    ensures r.Crashed? <==> GetUserState(db, telegramId).None?
    ensures GetUserState(db, telegramId).Some? ==>
              var (eid, st) := GetUserState(db, telegramId).value;
              && (r.Accepted? <==> st.hasSession && st.isOnline && !st.inBreak)
              && (r.Accepted? ==>
                    && r.after.breaks == db.breaks + [Break(db.nextBreak, LatestOpenSession(db, eid).value.id, ts, None, None)]
                    && !OnlineFlag(r.after, eid) && r.after.online == SetOnline(db.online, eid, false)
                    && r.after == db.(breaks := r.after.breaks, nextBreak := db.nextBreak + 1, online := r.after.online))
  {
    match GetUserState(db, telegramId)
    case None => Crashed
    case Some((eid, st)) =>
      if !st.hasSession || !st.isOnline || st.inBreak then Refused
      else Accepted(StartBreak(db, eid, ts).value)
  }

  /** An open break under any session of `eid`: the rows `end_break_cb`'s subquery ranges over. */
  predicate IsOpenBreakOf(sessions: seq<Session>, b: Break, eid: int) {
    BreakIsOpen(b) && UnderSessionOf(sessions, b, eid)
  }

  function OpenBreakOf(sessions: seq<Session>, eid: int): Break -> bool {
    (b: Break) => IsOpenBreakOf(sessions, b, eid)
  }

  function BreakStart(b: Break): int { b.startedAt }

  /**
   * `end_break_cb`'s writes: the open break of `eid` started last, over all of its
   * sessions, ends at `ts`; the employee goes online. When the subquery finds no
   * break, `WHERE id = NULL` matches no row and only the status changes.
   */
  function CloseLatestBreak(db: Db, eid: int, ts: int): (r: Db)
    ensures r.online == SetOnline(db.online, eid, true)
    ensures r == db.(breaks := r.breaks, online := r.online)
    ensures (forall k :: 0 <= k < |db.breaks| ==> !IsOpenBreakOf(db.sessions, db.breaks[k], eid)) ==> r.breaks == db.breaks
    ensures (exists k :: 0 <= k < |db.breaks| && IsOpenBreakOf(db.sessions, db.breaks[k], eid)) ==>
              exists i :: 0 <= i < |db.breaks| && IsOpenBreakOf(db.sessions, db.breaks[i], eid)
                          && (forall k :: 0 <= k < |db.breaks| && IsOpenBreakOf(db.sessions, db.breaks[k], eid) ==>
                                db.breaks[k].startedAt <= db.breaks[i].startedAt)
                          && r.breaks == CloseBreak(db.breaks, db.breaks[i].id, ts)
  {
    match Latest(db.breaks, OpenBreakOf(db.sessions, eid), BreakStart)
    case None => db.(online := SetOnline(db.online, eid, true))
    case Some(i) => db.(breaks := CloseBreak(db.breaks, db.breaks[i].id, ts), online := SetOnline(db.online, eid, true))
  }

  /** `end_break_cb` ("Вернулся"): allowed only when on a break. */
  function OnEndBreak(db: Db, telegramId: int, ts: int): (r: Outcome)
    ensures r.Crashed? <==> GetUserState(db, telegramId).None?
    ensures GetUserState(db, telegramId).Some? ==>
              var (eid, st) := GetUserState(db, telegramId).value;
              && (r.Accepted? <==> st.inBreak)
              && (r.Accepted? ==> r.after == CloseLatestBreak(db, eid, ts) && OnlineFlag(r.after, eid))
  {
    match GetUserState(db, telegramId)
    case None => Crashed
    case Some((eid, st)) =>
      if !st.inBreak then Refused
      else Accepted(CloseLatestBreak(db, eid, ts))
  }

  // ---------------------------------------------------------------------------
  // The invariant the guards protect.

  /** At most one session of `eid` is open. */
  ghost predicate SingleOpenSession(sessions: seq<Session>, eid: int) {
    forall i, j :: 0 <= i < |sessions| && 0 <= j < |sessions| && OpenSessionOf(sessions[i], eid) && OpenSessionOf(sessions[j], eid) ==> i == j
  }

  /** No open break hangs under a closed session of `eid`. */
  ghost predicate NoOpenBreakUnderClosed(db: Db, eid: int) {
    forall i, j ::
      (0 <= i < |db.breaks| && 0 <= j < |db.sessions| && BreakIsOpen(db.breaks[i])
       && db.breaks[i].sessionId == db.sessions[j].id && db.sessions[j].employeeId == eid)
      ==> IsOpen(db.sessions[j])
  }

  /** At most one break of `eid` is open. */
  ghost predicate SingleOpenBreak(db: Db, eid: int) {
    forall i, k ::
      (0 <= i < |db.breaks| && 0 <= k < |db.breaks|
       && IsOpenBreakOf(db.sessions, db.breaks[i], eid) && IsOpenBreakOf(db.sessions, db.breaks[k], eid))
      ==> i == k
  }

  /** `is_online` is exactly "in a session and not on a break". */
  ghost predicate OnlineMatches(db: Db, eid: int) {
    eid in db.online && db.online[eid] == (HasOpenSession(db, eid) && !OnBreak(db, eid))
  }

  ghost predicate EmployeeInv(db: Db, eid: int) {
    OnlineMatches(db, eid) && SingleOpenSession(db.sessions, eid) && NoOpenBreakUnderClosed(db, eid) && SingleOpenBreak(db, eid)
  }

  /** The tables are intact and every employee's shift state is consistent. */
  ghost predicate Inv(db: Db) {
    Wf(db) && forall eid :: IsEmployee(db, eid) ==> EmployeeInv(db, eid)
  }

  lemma EmptyDbInv()
    ensures Inv(EmptyDb)
  {
    EmptyDbWf();
  }

  /**
   * Under the invariant the triple is one of three states: off shift
   * `(false, false, false)`, working `(true, true, false)`, on a break `(false, true, true)`.
   */
  lemma StateConsistent(db: Db, telegramId: int)
    requires Inv(db) && GetUserState(db, telegramId).Some?
    ensures var st := GetUserState(db, telegramId).value.1;
            st == UserState(false, false, false) || st == UserState(true, true, false) || st == UserState(false, true, true)
  {
    var (eid, st) := GetUserState(db, telegramId).value;
    assert EmployeeInv(db, eid);
    if st.inBreak {
      var i :| 0 <= i < |db.breaks| && BreakIsOpen(db.breaks[i]) && UnderOpenSessionOf(db.sessions, db.breaks[i], eid);
      var j :| 0 <= j < |db.sessions| && db.sessions[j].id == db.breaks[i].sessionId && OpenSessionOf(db.sessions[j], eid);
    }
  }

  // ---------------------------------------------------------------------------
  // How the writes change which breaks hang under which sessions.

  /** No break references the next session id, since every reference resolves. */
  lemma NoBreakUnderNextSession(db: Db)
    requires SessionsWf(db) && BreaksWf(db)
    ensures forall i :: 0 <= i < |db.breaks| ==> db.breaks[i].sessionId != db.nextSession
  {
    forall i | 0 <= i < |db.breaks|
      ensures db.breaks[i].sessionId != db.nextSession
    {
      assert IsSession(db, db.breaks[i].sessionId);
    }
  }

  /** A session no break references does not change what any break hangs under. */
  lemma AppendSessionView(sessions: seq<Session>, n: Session, b: Break, e: int)
    requires b.sessionId != n.id
    ensures UnderSessionOf(sessions + [n], b, e) == UnderSessionOf(sessions, b, e)
    ensures UnderOpenSessionOf(sessions + [n], b, e) == UnderOpenSessionOf(sessions, b, e)
  {
    var s1 := sessions + [n];
    if UnderSessionOf(s1, b, e) {
      var j :| 0 <= j < |s1| && s1[j].id == b.sessionId && s1[j].employeeId == e;
      assert s1[j] == sessions[j];
    }
    if UnderOpenSessionOf(s1, b, e) {
      var j :| 0 <= j < |s1| && s1[j].id == b.sessionId && OpenSessionOf(s1[j], e);
      assert s1[j] == sessions[j];
    }
    if UnderSessionOf(sessions, b, e) {
      var j :| 0 <= j < |sessions| && sessions[j].id == b.sessionId && sessions[j].employeeId == e;
      assert s1[j] == sessions[j];
    }
    if UnderOpenSessionOf(sessions, b, e) {
      var j :| 0 <= j < |sessions| && sessions[j].id == b.sessionId && OpenSessionOf(sessions[j], e);
      assert s1[j] == sessions[j];
    }
  }

  /** Closing sessions in place keeps every break under the same employee. */
  lemma ClosedSessionsView(sessions: seq<Session>, eid: int, ts: int, b: Break, e: int)
    ensures UnderSessionOf(CloseSessions(sessions, eid, ts), b, e) == UnderSessionOf(sessions, b, e)
    ensures e != eid ==> UnderOpenSessionOf(CloseSessions(sessions, eid, ts), b, e) == UnderOpenSessionOf(sessions, b, e)
    ensures !UnderOpenSessionOf(CloseSessions(sessions, eid, ts), b, eid)
  {
    var s1 := CloseSessions(sessions, eid, ts);
    if UnderSessionOf(s1, b, e) {
      var j :| 0 <= j < |s1| && s1[j].id == b.sessionId && s1[j].employeeId == e;
      assert sessions[j].id == b.sessionId && sessions[j].employeeId == e;
    }
    if UnderSessionOf(sessions, b, e) {
      var j :| 0 <= j < |sessions| && sessions[j].id == b.sessionId && sessions[j].employeeId == e;
      assert s1[j].id == b.sessionId && s1[j].employeeId == e;
    }
    if e != eid && UnderOpenSessionOf(s1, b, e) {
      var j :| 0 <= j < |s1| && s1[j].id == b.sessionId && OpenSessionOf(s1[j], e);
      assert s1[j] == sessions[j];
    }
    if e != eid && UnderOpenSessionOf(sessions, b, e) {
      var j :| 0 <= j < |sessions| && sessions[j].id == b.sessionId && OpenSessionOf(sessions[j], e);
      assert s1[j] == sessions[j];
    }
  }

  /** With unique session ids, a break hangs under the sessions of one employee only. */
  lemma OneOwner(db: Db, b: Break, j: int, e: int)
    requires SessionsWf(db)
    requires 0 <= j < |db.sessions| && db.sessions[j].id == b.sessionId
    requires UnderSessionOf(db.sessions, b, e)
    ensures db.sessions[j].employeeId == e
  {
    var k :| 0 <= k < |db.sessions| && db.sessions[k].id == b.sessionId && db.sessions[k].employeeId == e;
    assert j == k || j < k || k < j;
  }

  // ---------------------------------------------------------------------------
  // Each accepted transition keeps the invariant, for the employee who pressed
  // the button and for everyone else.

  /** No open break hangs under an open session of someone with no open session. */
  lemma NoSessionNoBreak(db: Db, eid: int)
    requires !HasOpenSession(db, eid)
    ensures !OnBreak(db, eid)
  {
  }

  /** Appending a session keeps at most one open per employee when its owner had none open. */
  lemma AppendSingleOpenSession(sessions: seq<Session>, n: Session, e: int)
    requires SingleOpenSession(sessions, e)
    requires OpenSessionOf(n, e) ==> forall j :: 0 <= j < |sessions| ==> !OpenSessionOf(sessions[j], e)
    ensures SingleOpenSession(sessions + [n], e)
  {
    var s1 := sessions + [n];
    forall i, j | 0 <= i < |s1| && 0 <= j < |s1| && OpenSessionOf(s1[i], e) && OpenSessionOf(s1[j], e)
      ensures i == j
    {
      if i < |sessions| {
        assert s1[i] == sessions[i];
      }
      if j < |sessions| {
        assert s1[j] == sessions[j];
      }
    }
  }

  /** What a new open session of `eid` changes: `eid` has an open session; no break moves. */
  lemma StartWorkView(db: Db, eid: int, ts: int, e: int)
    requires Wf(db) && IsEmployee(db, eid)
    ensures var db1 := StartWorkSession(db, eid, ts).value;
            && |db1.sessions| == |db.sessions| + 1
            && OpenSessionOf(db1.sessions[|db.sessions|], eid)
            && db1.sessions[|db.sessions|].id == db.nextSession
            && (forall j :: 0 <= j < |db.sessions| ==> db1.sessions[j] == db.sessions[j])
            && (forall i :: 0 <= i < |db.breaks| ==> db.breaks[i].sessionId != db.nextSession)
            && (forall i :: 0 <= i < |db.breaks| ==>
                  && UnderSessionOf(db1.sessions, db.breaks[i], e) == UnderSessionOf(db.sessions, db.breaks[i], e)
                  && UnderOpenSessionOf(db1.sessions, db.breaks[i], e) == UnderOpenSessionOf(db.sessions, db.breaks[i], e))
            && OnBreak(db1, e) == OnBreak(db, e)
            && HasOpenSession(db1, e) == (HasOpenSession(db, e) || e == eid)
  {
    var db1 := StartWorkSession(db, eid, ts).value;
    var n := Session(db.nextSession, eid, ts, None, None);
    var last := |db.sessions|;
    assert db1.sessions[last] == n;
    NoBreakUnderNextSession(db);
    forall i | 0 <= i < |db.breaks|
      ensures UnderSessionOf(db1.sessions, db.breaks[i], e) == UnderSessionOf(db.sessions, db.breaks[i], e)
      ensures UnderOpenSessionOf(db1.sessions, db.breaks[i], e) == UnderOpenSessionOf(db.sessions, db.breaks[i], e)
    {
      AppendSessionView(db.sessions, n, db.breaks[i], e);
    }
    if HasOpenSession(db1, e) && e != eid {
      var j :| 0 <= j < |db1.sessions| && OpenSessionOf(db1.sessions[j], e);
      assert j < last && db1.sessions[j] == db.sessions[j];
    }
    if HasOpenSession(db, e) {
      var j :| 0 <= j < |db.sessions| && OpenSessionOf(db.sessions[j], e);
      assert db1.sessions[j] == db.sessions[j];
    }
  }

  lemma StartWorkKeeps(db: Db, eid: int, ts: int, e: int)
    requires Wf(db) && EmployeeInv(db, e)
    requires IsEmployee(db, eid) && !HasOpenSession(db, eid)
    ensures EmployeeInv(StartWorkSession(db, eid, ts).value, e)
  {
    var db1 := StartWorkSession(db, eid, ts).value;
    var last := |db.sessions|;
    StartWorkView(db, eid, ts, e);
    NoSessionNoBreak(db, eid);
    assert OnlineMatches(db1, e);
    assert db1.sessions == db.sessions + [db1.sessions[last]];
    AppendSingleOpenSession(db.sessions, db1.sessions[last], e);
    assert NoOpenBreakUnderClosed(db1, e) by {
      forall i, j | 0 <= i < |db1.breaks| && 0 <= j < |db1.sessions| && BreakIsOpen(db1.breaks[i])
                    && db1.breaks[i].sessionId == db1.sessions[j].id && db1.sessions[j].employeeId == e
        ensures IsOpen(db1.sessions[j])
      {
        if j < last {
          assert db1.sessions[j] == db.sessions[j];
        }
      }
    }
    assert SingleOpenBreak(db1, e) by {
      assert forall i :: 0 <= i < |db1.breaks| ==> IsOpenBreakOf(db1.sessions, db1.breaks[i], e) == IsOpenBreakOf(db.sessions, db.breaks[i], e);
    }
  }

  lemma StartWorkPreserves(db: Db, telegramId: int, ts: int)
    requires Inv(db) && OnStartWork(db, telegramId, ts).Accepted?
    ensures Inv(OnStartWork(db, telegramId, ts).after)
  {
    var (eid, st) := GetUserState(db, telegramId).value;
    var db1 := OnStartWork(db, telegramId, ts).after;
    assert db1 == StartWorkSession(db, eid, ts).value;
    StartWorkSessionWf(db, eid, ts);
    forall e | IsEmployee(db1, e)
      ensures EmployeeInv(db1, e)
    {
      assert IsEmployee(db, e);
      StartWorkKeeps(db, eid, ts, e);
    }
  }

  /** What closing the open sessions of `eid` changes: `eid` is off shift and on no break; no one else moves. */
  lemma EndWorkView(db: Db, eid: int, ts: int, e: int)
    ensures var db1 := EndWorkSession(db, eid, ts);
            && (forall i :: 0 <= i < |db.breaks| ==>
                  && UnderSessionOf(db1.sessions, db.breaks[i], e) == UnderSessionOf(db.sessions, db.breaks[i], e)
                  && (e != eid ==> UnderOpenSessionOf(db1.sessions, db.breaks[i], e) == UnderOpenSessionOf(db.sessions, db.breaks[i], e)))
            && (e != eid ==> OnBreak(db1, e) == OnBreak(db, e) && HasOpenSession(db1, e) == HasOpenSession(db, e))
            && (e != eid ==> forall j :: 0 <= j < |db.sessions| ==> OpenSessionOf(db1.sessions[j], e) == OpenSessionOf(db.sessions[j], e))
            && !OnBreak(db1, eid)
  {
    var db1 := EndWorkSession(db, eid, ts);
    forall i | 0 <= i < |db.breaks|
      ensures UnderSessionOf(db1.sessions, db.breaks[i], e) == UnderSessionOf(db.sessions, db.breaks[i], e)
      ensures e != eid ==> UnderOpenSessionOf(db1.sessions, db.breaks[i], e) == UnderOpenSessionOf(db.sessions, db.breaks[i], e)
      ensures !UnderOpenSessionOf(db1.sessions, db.breaks[i], eid)
    {
      ClosedSessionsView(db.sessions, eid, ts, db.breaks[i], e);
    }
    if e != eid {
      assert forall j :: 0 <= j < |db.sessions| ==> OpenSessionOf(db1.sessions[j], e) == OpenSessionOf(db.sessions[j], e);
      if HasOpenSession(db, e) {
        var j :| 0 <= j < |db.sessions| && OpenSessionOf(db.sessions[j], e);
        assert OpenSessionOf(db1.sessions[j], e);
      }
    }
  }

  lemma EndWorkKeeps(db: Db, eid: int, ts: int, e: int)
    requires EmployeeInv(db, e) && EmployeeInv(db, eid) && !OnBreak(db, eid)
    ensures EmployeeInv(EndWorkSession(db, eid, ts), e)
  {
    var db1 := EndWorkSession(db, eid, ts);
    EndWorkView(db, eid, ts, e);
    assert OnlineMatches(db1, e);
    assert NoOpenBreakUnderClosed(db1, e) by {
      forall i, j | 0 <= i < |db1.breaks| && 0 <= j < |db1.sessions| && BreakIsOpen(db1.breaks[i])
                    && db1.breaks[i].sessionId == db1.sessions[j].id && db1.sessions[j].employeeId == e
        ensures IsOpen(db1.sessions[j])
      {
        if e != eid {
          assert db1.sessions[j] == db.sessions[j];
        }
      }
    }
    assert SingleOpenBreak(db1, e) by {
      assert forall i :: 0 <= i < |db1.breaks| ==> IsOpenBreakOf(db1.sessions, db1.breaks[i], e) == IsOpenBreakOf(db.sessions, db.breaks[i], e);
    }
  }

  lemma EndWorkPreserves(db: Db, telegramId: int, ts: int)
    requires Inv(db) && OnEndWork(db, telegramId, ts).Accepted?
    ensures Inv(OnEndWork(db, telegramId, ts).after)
  {
    var (eid, st) := GetUserState(db, telegramId).value;
    var db1 := OnEndWork(db, telegramId, ts).after;
    assert db1 == EndWorkSession(db, eid, ts);
    EndWorkSessionWf(db, eid, ts);
    forall e | IsEmployee(db1, e)
      ensures EmployeeInv(db1, e)
    {
      assert IsEmployee(db, e);
      EndWorkKeeps(db, eid, ts, e);
    }
  }

  /** Off a break, every open break of `eid` would hang under an open session, so there is none. */
  lemma NoOpenBreakOf(db: Db, eid: int)
    requires NoOpenBreakUnderClosed(db, eid) && !OnBreak(db, eid)
    ensures forall i :: 0 <= i < |db.breaks| ==> !IsOpenBreakOf(db.sessions, db.breaks[i], eid)
  {
  }

  /** The session a new break goes under is the one open session of `eid`, and no one else's. */
  lemma StartBreakView(db: Db, eid: int, ts: int, e: int)
    requires Wf(db) && HasOpenSession(db, eid)
    ensures var db1 := StartBreak(db, eid, ts).value;
            var nb := db1.breaks[|db.breaks|];
            && |db1.breaks| == |db.breaks| + 1
            && (forall i :: 0 <= i < |db.breaks| ==> db1.breaks[i] == db.breaks[i])
            && BreakIsOpen(nb)
            && UnderOpenSessionOf(db.sessions, nb, eid)
            && (forall j :: 0 <= j < |db.sessions| && db.sessions[j].id == nb.sessionId ==> OpenSessionOf(db.sessions[j], eid))
            && (e != eid ==> !UnderSessionOf(db.sessions, nb, e))
  {
    var db1 := StartBreak(db, eid, ts).value;
    var s := LatestOpenSession(db, eid).value;
    var nb := db1.breaks[|db.breaks|];
    var j0 :| 0 <= j0 < |db.sessions| && db.sessions[j0] == s;
    assert nb.sessionId == s.id;
    forall j | 0 <= j < |db.sessions| && db.sessions[j].id == nb.sessionId
      ensures j == j0
    {
      assert j < j0 || j == j0 || j > j0;
    }
  }

  /**
   * `db1` is `db` with one more break row, open and under a session that, like
   * every session with its id, is an open session of `eid`.
   */
  ghost predicate BreakAdded(db: Db, db1: Db, eid: int) {
    && db1.sessions == db.sessions
    && |db1.breaks| == |db.breaks| + 1
    && (forall i :: 0 <= i < |db.breaks| ==> db1.breaks[i] == db.breaks[i])
    && BreakIsOpen(db1.breaks[|db.breaks|])
    && UnderOpenSessionOf(db.sessions, db1.breaks[|db.breaks|], eid)
    && (forall j :: 0 <= j < |db.sessions| && db.sessions[j].id == db1.breaks[|db.breaks|].sessionId ==>
          OpenSessionOf(db.sessions[j], eid))
  }

  /** After the new break `eid` is on a break and everyone else's `in_break` is as it was. */
  lemma AddBreakOnBreak(db: Db, db1: Db, eid: int, e: int)
    requires BreakAdded(db, db1, eid)
    ensures OnBreak(db1, eid)
    ensures e != eid ==> OnBreak(db1, e) == OnBreak(db, e)
  {
    var last := |db.breaks|;
    assert BreakIsOpen(db1.breaks[last]) && UnderOpenSessionOf(db1.sessions, db1.breaks[last], eid);
    if e != eid && OnBreak(db1, e) {
      var i :| 0 <= i < |db1.breaks| && BreakIsOpen(db1.breaks[i]) && UnderOpenSessionOf(db1.sessions, db1.breaks[i], e);
      assert UnderSessionOf(db1.sessions, db1.breaks[i], e);
      assert db1.breaks[i] == db.breaks[i];
    }
    if e != eid && OnBreak(db, e) {
      var i :| 0 <= i < |db.breaks| && BreakIsOpen(db.breaks[i]) && UnderOpenSessionOf(db.sessions, db.breaks[i], e);
      assert db1.breaks[i] == db.breaks[i];
    }
  }

  /** The new break hangs under an open session, so open breaks still sit under open sessions. */
  lemma AddBreakUnderOpen(db: Db, db1: Db, eid: int, e: int)
    requires BreakAdded(db, db1, eid) && NoOpenBreakUnderClosed(db, e)
    ensures NoOpenBreakUnderClosed(db1, e)
  {
  }

  /** The new break is the one open break of `eid`, and nobody else's. */
  lemma AddBreakSingle(db: Db, db1: Db, eid: int, e: int)
    requires BreakAdded(db, db1, eid) && SingleOpenBreak(db, e)
    requires e == eid ==> NoOpenBreakUnderClosed(db, eid) && !OnBreak(db, eid)
    ensures SingleOpenBreak(db1, e)
  {
    var last := |db.breaks|;
    if e == eid {
      NoOpenBreakOf(db, eid);
      assert forall i :: 0 <= i < last ==> !IsOpenBreakOf(db1.sessions, db1.breaks[i], e);
    } else {
      assert !IsOpenBreakOf(db1.sessions, db1.breaks[last], e);
    }
  }

  lemma StartBreakKeeps(db: Db, eid: int, ts: int, e: int)
    requires Wf(db) && EmployeeInv(db, e) && EmployeeInv(db, eid)
    requires HasOpenSession(db, eid) && !OnBreak(db, eid)
    ensures EmployeeInv(StartBreak(db, eid, ts).value, e)
  {
    var db1 := StartBreak(db, eid, ts).value;
    StartBreakView(db, eid, ts, e);
    assert BreakAdded(db, db1, eid);
    AddBreakOnBreak(db, db1, eid, e);
    AddBreakUnderOpen(db, db1, eid, e);
    AddBreakSingle(db, db1, eid, e);
    assert OnlineMatches(db1, e);
  }

  lemma StartBreakPreserves(db: Db, telegramId: int, ts: int)
    requires Inv(db) && OnStartBreak(db, telegramId, ts).Accepted?
    ensures Inv(OnStartBreak(db, telegramId, ts).after)
  {
    var (eid, st) := GetUserState(db, telegramId).value;
    var db1 := OnStartBreak(db, telegramId, ts).after;
    assert db1 == StartBreak(db, eid, ts).value;
    StartBreakWf(db, eid, ts);
    forall e | IsEmployee(db1, e)
      ensures EmployeeInv(db1, e)
    {
      assert IsEmployee(db, e);
      StartBreakKeeps(db, eid, ts, e);
    }
  }

  /** A break under a session of `eid` is under no one else's session. */
  lemma OwnerUnique(db: Db, b: Break, eid: int, e: int)
    requires SessionsWf(db) && UnderSessionOf(db.sessions, b, eid) && e != eid
    ensures !UnderSessionOf(db.sessions, b, e)
  {
    if UnderSessionOf(db.sessions, b, e) {
      var j :| 0 <= j < |db.sessions| && db.sessions[j].id == b.sessionId && db.sessions[j].employeeId == eid;
      OneOwner(db, b, j, e);
    }
  }

  /** Being on a break needs an open session. */
  lemma OnBreakInSession(db: Db, eid: int)
    requires OnBreak(db, eid)
    ensures HasOpenSession(db, eid)
  {
    var i :| 0 <= i < |db.breaks| && BreakIsOpen(db.breaks[i]) && UnderOpenSessionOf(db.sessions, db.breaks[i], eid);
    var j :| 0 <= j < |db.sessions| && db.sessions[j].id == db.breaks[i].sessionId && OpenSessionOf(db.sessions[j], eid);
  }

  /** `db1` is `db` with break row `i0` closed, its id and session kept, and every other row as it was. */
  ghost predicate BreakEnded(db: Db, db1: Db, i0: int) {
    && db1.sessions == db.sessions
    && |db1.breaks| == |db.breaks|
    && 0 <= i0 < |db.breaks|
    && (forall i :: 0 <= i < |db.breaks| && i != i0 ==> db1.breaks[i] == db.breaks[i])
    && !BreakIsOpen(db1.breaks[i0])
    && db1.breaks[i0].id == db.breaks[i0].id
    && db1.breaks[i0].sessionId == db.breaks[i0].sessionId
  }

  /** Some open break hangs under a session of `eid` when `eid` is on a break. */
  lemma OnBreakHasOpenBreak(db: Db, eid: int)
    requires OnBreak(db, eid)
    ensures exists i0 :: 0 <= i0 < |db.breaks| && IsOpenBreakOf(db.sessions, db.breaks[i0], eid)
  {
    var i0 :| 0 <= i0 < |db.breaks| && BreakIsOpen(db.breaks[i0]) && UnderOpenSessionOf(db.sessions, db.breaks[i0], eid);
    var j :| 0 <= j < |db.sessions| && db.sessions[j].id == db.breaks[i0].sessionId && OpenSessionOf(db.sessions[j], eid);
    assert IsOpenBreakOf(db.sessions, db.breaks[i0], eid);
  }

  /** With one open break of `eid`, the latest one is that break. */
  lemma LatestBreakIsOnly(db: Db, eid: int, ts: int, i0: int)
    requires SingleOpenBreak(db, eid)
    requires 0 <= i0 < |db.breaks| && IsOpenBreakOf(db.sessions, db.breaks[i0], eid)
    ensures CloseLatestBreak(db, eid, ts).breaks == CloseBreak(db.breaks, db.breaks[i0].id, ts)
  {
    var db1 := CloseLatestBreak(db, eid, ts);
    var i :| 0 <= i < |db.breaks| && IsOpenBreakOf(db.sessions, db.breaks[i], eid)
             && db1.breaks == CloseBreak(db.breaks, db.breaks[i].id, ts);
    assert i == i0;
  }

  /** Break ids are unique, so closing by the id of row `i0` closes that row alone. */
  lemma ClosedByIdEnds(db: Db, db1: Db, i0: int, ts: int)
    requires BreaksWf(db) && 0 <= i0 < |db.breaks| && db1.sessions == db.sessions
    requires db1.breaks == CloseBreak(db.breaks, db.breaks[i0].id, ts)
    ensures BreakEnded(db, db1, i0)
  {
    forall k | 0 <= k < |db.breaks| && k != i0
      ensures db1.breaks[k] == db.breaks[k]
    {
      assert k < i0 || i0 < k;
    }
  }

  /** Under the invariant `end_break_cb` closes exactly the one open break of `eid`. */
  lemma EndBreakView(db: Db, eid: int, ts: int, i0: int)
    requires Wf(db) && SingleOpenBreak(db, eid)
    requires 0 <= i0 < |db.breaks| && IsOpenBreakOf(db.sessions, db.breaks[i0], eid)
    ensures BreakEnded(db, CloseLatestBreak(db, eid, ts), i0)
  {
    LatestBreakIsOnly(db, eid, ts, i0);
    ClosedByIdEnds(db, CloseLatestBreak(db, eid, ts), i0, ts);
  }

  /** Closing `eid`'s one open break ends its `in_break` and leaves everyone else's as it was. */
  lemma EndedBreakOnBreak(db: Db, db1: Db, i0: int, eid: int, e: int)
    requires BreakEnded(db, db1, i0) && IsOpenBreakOf(db.sessions, db.breaks[i0], eid) && SingleOpenBreak(db, eid)
    requires e != eid ==> !UnderSessionOf(db.sessions, db.breaks[i0], e)
    ensures !OnBreak(db1, eid)
    ensures e != eid ==> OnBreak(db1, e) == OnBreak(db, e)
  {
    if e != eid && OnBreak(db1, e) {
      var i :| 0 <= i < |db1.breaks| && BreakIsOpen(db1.breaks[i]) && UnderOpenSessionOf(db1.sessions, db1.breaks[i], e);
      assert db1.breaks[i] == db.breaks[i];
    }
    if e != eid && OnBreak(db, e) {
      var i :| 0 <= i < |db.breaks| && BreakIsOpen(db.breaks[i]) && UnderOpenSessionOf(db.sessions, db.breaks[i], e);
      var j :| 0 <= j < |db.sessions| && db.sessions[j].id == db.breaks[i].sessionId && OpenSessionOf(db.sessions[j], e);
      assert UnderSessionOf(db.sessions, db.breaks[i], e);
      assert db1.breaks[i] == db.breaks[i];
    }
  }

  /** Closing a break leaves every open break where it was, so the break invariants survive. */
  lemma EndedBreakKeepsBreaks(db: Db, db1: Db, i0: int, e: int)
    requires BreakEnded(db, db1, i0) && NoOpenBreakUnderClosed(db, e) && SingleOpenBreak(db, e)
    ensures NoOpenBreakUnderClosed(db1, e) && SingleOpenBreak(db1, e)
  {
    assert forall i :: 0 <= i < |db1.breaks| && BreakIsOpen(db1.breaks[i]) ==> db1.breaks[i] == db.breaks[i];
  }

  lemma EndBreakKeeps(db: Db, eid: int, ts: int, e: int)
    requires Wf(db) && EmployeeInv(db, e) && EmployeeInv(db, eid) && OnBreak(db, eid)
    ensures EmployeeInv(CloseLatestBreak(db, eid, ts), e)
  {
    var db1 := CloseLatestBreak(db, eid, ts);
    OnBreakHasOpenBreak(db, eid);
    var i0 :| 0 <= i0 < |db.breaks| && IsOpenBreakOf(db.sessions, db.breaks[i0], eid);
    EndBreakView(db, eid, ts, i0);
    if e != eid {
      OwnerUnique(db, db.breaks[i0], eid, e);
    }
    OnBreakInSession(db, eid);
    EndedBreakOnBreak(db, db1, i0, eid, e);
    EndedBreakKeepsBreaks(db, db1, i0, e);
    assert OnlineMatches(db1, e);
  }

  /** Closing the one open break keeps the tables intact. */
  lemma CloseLatestBreakWf(db: Db, eid: int, ts: int)
    requires Wf(db) && SingleOpenBreak(db, eid) && OnBreak(db, eid)
    ensures Wf(CloseLatestBreak(db, eid, ts))
  {
    var db1 := CloseLatestBreak(db, eid, ts);
    OnBreakHasOpenBreak(db, eid);
    var i0 :| 0 <= i0 < |db.breaks| && IsOpenBreakOf(db.sessions, db.breaks[i0], eid);
    LatestBreakIsOnly(db, eid, ts, i0);
    assert db1 == db.(breaks := CloseBreak(db.breaks, db.breaks[i0].id, ts), online := SetOnline(db.online, eid, true));
    CloseBreakWf(db, db.breaks[i0].id, ts, eid, true);
  }

  lemma EndBreakPreserves(db: Db, telegramId: int, ts: int)
    requires Inv(db) && OnEndBreak(db, telegramId, ts).Accepted?
    ensures Inv(OnEndBreak(db, telegramId, ts).after)
  {
    var (eid, st) := GetUserState(db, telegramId).value;
    var db1 := CloseLatestBreak(db, eid, ts);
    assert OnEndBreak(db, telegramId, ts).after == db1;
    CloseLatestBreakWf(db, eid, ts);
    forall e | IsEmployee(db1, e)
      ensures EmployeeInv(db1, e)
    {
      assert IsEmployee(db, e);
      EndBreakKeeps(db, eid, ts, e);
    }
  }

  // ---------------------------------------------------------------------------
  // Registration and reminders leave every shift state as it was.

  /** An employee's shift state reads only sessions, breaks and its own status value. */
  lemma EmployeeInvFrame(db: Db, db1: Db, e: int)
    requires EmployeeInv(db, e)
    requires db1.sessions == db.sessions && db1.breaks == db.breaks
    requires e in db1.online && db1.online[e] == db.online[e]
    ensures EmployeeInv(db1, e)
  {
  }

  /** A newcomer with no session and an offline status row is consistent. */
  lemma NewcomerInv(db: Db, n: int)
    requires forall j :: 0 <= j < |db.sessions| ==> db.sessions[j].employeeId != n
    requires n in db.online && !db.online[n]
    ensures EmployeeInv(db, n)
  {
  }

  /** The employee `create_employee` returns is consistent, newly inserted or not. */
  lemma CreateEmployeeConsistent(db: Db, telegramId: int, lastName: string, firstName: string, patronymic: string,
                                 departmentId: int, divisionId: int)
    requires Inv(db)
    ensures var (db1, id) := CreateEmployee(db, telegramId, lastName, firstName, patronymic, departmentId, divisionId);
            EmployeeInv(db1, id)
  {
    var (db1, id) := CreateEmployee(db, telegramId, lastName, firstName, patronymic, departmentId, divisionId);
    match FindEmployeeByTelegram(db, telegramId)
    case Some(e) =>
      var j :| 0 <= j < |db.employees| && db.employees[j] == e;
      assert IsEmployee(db, id);
      EmployeeInvFrame(db, db1, id);
    case None =>
      assert id == db.nextEmployee;
      forall j | 0 <= j < |db.sessions|
        ensures db.sessions[j].employeeId != id
      {
        assert IsEmployee(db, db.sessions[j].employeeId);
      }
      NewcomerInv(db1, id);
  }

  /** `create_employee` keeps the invariant, whether the telegram id was new or not. */
  lemma CreateEmployeePreserves(db: Db, telegramId: int, lastName: string, firstName: string, patronymic: string,
                                departmentId: int, divisionId: int)
    requires Inv(db)
    ensures Inv(CreateEmployee(db, telegramId, lastName, firstName, patronymic, departmentId, divisionId).0)
  {
    var (db1, id) := CreateEmployee(db, telegramId, lastName, firstName, patronymic, departmentId, divisionId);
    CreateEmployeeWf(db, telegramId, lastName, firstName, patronymic, departmentId, divisionId);
    CreateEmployeeConsistent(db, telegramId, lastName, firstName, patronymic, departmentId, divisionId);
    forall e | IsEmployee(db1, e) && e != id
      ensures EmployeeInv(db1, e)
    {
      var j :| 0 <= j < |db1.employees| && db1.employees[j].id == e;
      if j < |db.employees| {
        assert db1.employees[j] == db.employees[j];
      }
      assert IsEmployee(db, e);
      EmployeeInvFrame(db, db1, e);
    }
  }

  lemma CreateReminderPreserves(db: Db, eid: int, remindAt: Minute, message: string)
    requires Inv(db) && CreateReminder(db, eid, remindAt, message).Ok?
    ensures Inv(CreateReminder(db, eid, remindAt, message).value.0)
  {
    var db1 := CreateReminder(db, eid, remindAt, message).value.0;
    CreateReminderWf(db, eid, remindAt, message);
    forall e | IsEmployee(db1, e)
      ensures EmployeeInv(db1, e)
    {
      EmployeeInvFrame(db, db1, e);
    }
  }

  lemma DeleteReminderPreserves(db: Db, rid: int)
    requires Inv(db)
    ensures Inv(DeleteReminder(db, rid))
  {
    var db1 := DeleteReminder(db, rid);
    DeleteReminderWf(db, rid);
    forall e | IsEmployee(db1, e)
      ensures EmployeeInv(db1, e)
    {
      EmployeeInvFrame(db, db1, e);
    }
  }

  // ---------------------------------------------------------------------------
  // Traces: whatever the users press, the invariant holds.

  datatype Button = StartWorkButton | EndWorkButton | StartBreakButton | EndBreakButton

  /** The handler a callback button reaches. */
  function Press(db: Db, button: Button, telegramId: int, ts: int): Outcome {
    match button
    case StartWorkButton => OnStartWork(db, telegramId, ts)
    case EndWorkButton => OnEndWork(db, telegramId, ts)
    case StartBreakButton => OnStartBreak(db, telegramId, ts)
    case EndBreakButton => OnEndBreak(db, telegramId, ts)
  }

  /** What can happen to the store: a button press, a registration, a reminder added or deleted. */
  datatype Event =
    | Pressed(button: Button, telegramId: int, ts: int)
    | Registered(telegramId: int, lastName: string, firstName: string, patronymic: string,
                 departmentId: int, divisionId: int)
    | ReminderAdded(employeeId: int, remindAt: Minute, message: string)
    | ReminderDeleted(reminderId: int)

  /** The store after one event; a refused press, a crash or a failed insert writes nothing. */
  function Step(db: Db, ev: Event): Db {
    match ev
    case Pressed(button, telegramId, ts) =>
      (match Press(db, button, telegramId, ts)
       case Accepted(after) => after
       case _ => db)
    case Registered(telegramId, lastName, firstName, patronymic, departmentId, divisionId) =>
      CreateEmployee(db, telegramId, lastName, firstName, patronymic, departmentId, divisionId).0
    case ReminderAdded(eid, remindAt, message) =>
      (match CreateReminder(db, eid, remindAt, message)
       case Ok((db1, _)) => db1
       case Err(_) => db)
    case ReminderDeleted(rid) => DeleteReminder(db, rid)
  }

  function Run(db: Db, evs: seq<Event>): Db
    decreases |evs|
  {
    if evs == [] then db else Run(Step(db, evs[0]), evs[1..])
  }

  lemma StepPreserves(db: Db, ev: Event)
    requires Inv(db)
    ensures Inv(Step(db, ev))
  {
    match ev
    case Pressed(button, telegramId, ts) =>
      if Press(db, button, telegramId, ts).Accepted? {
        match button
        case StartWorkButton => StartWorkPreserves(db, telegramId, ts);
        case EndWorkButton => EndWorkPreserves(db, telegramId, ts);
        case StartBreakButton => StartBreakPreserves(db, telegramId, ts);
        case EndBreakButton => EndBreakPreserves(db, telegramId, ts);
      }
    case Registered(telegramId, lastName, firstName, patronymic, departmentId, divisionId) =>
      CreateEmployeePreserves(db, telegramId, lastName, firstName, patronymic, departmentId, divisionId);
    case ReminderAdded(eid, remindAt, message) =>
      if CreateReminder(db, eid, remindAt, message).Ok? {
        CreateReminderPreserves(db, eid, remindAt, message);
      }
    case ReminderDeleted(rid) =>
      DeleteReminderPreserves(db, rid);
  }

  lemma {:induction false} RunPreserves(db: Db, evs: seq<Event>)
    requires Inv(db)
    ensures Inv(Run(db, evs))
    decreases |evs|
  {
    if evs != [] {
      StepPreserves(db, evs[0]);
      RunPreserves(Step(db, evs[0]), evs[1..]);
    }
  }

  /**
   * From an empty store, every event sequence leaves each registered user in one
   * of the three states the buttons offer, and a press crashes only for a
   * telegram id that was never registered.
   */
  lemma Reachable(evs: seq<Event>, telegramId: int)
    ensures var db := Run(EmptyDb, evs);
            && Inv(db)
            && (GetUserState(db, telegramId).None? <==> FindEmployeeByTelegram(db, telegramId).None?)
            && (GetUserState(db, telegramId).Some? ==>
                  var st := GetUserState(db, telegramId).value.1;
                  st == UserState(false, false, false) || st == UserState(true, true, false) || st == UserState(false, true, true))
  {
    var db := Run(EmptyDb, evs);
    EmptyDbInv();
    RunPreserves(EmptyDb, evs);
    CrashOnlyUnregistered(db, telegramId);
    if GetUserState(db, telegramId).Some? {
      StateConsistent(db, telegramId);
    }
  }

  /** Every employee has a status row, so `_get_user_state` fails only for an unknown telegram id. */
  lemma CrashOnlyUnregistered(db: Db, telegramId: int)
    requires Inv(db)
    ensures GetUserState(db, telegramId).None? <==> FindEmployeeByTelegram(db, telegramId).None?
  {
    if FindEmployeeByTelegram(db, telegramId).Some? {
      var e := FindEmployeeByTelegram(db, telegramId).value;
      var j :| 0 <= j < |db.employees| && db.employees[j] == e;
      assert IsEmployee(db, e.id);
    }
  }

  // ---------------------------------------------------------------------------
  // The guards at work.

  /** A second "Начал" after an accepted one is refused: the user is now online. */
  lemma StartWorkTwice(db: Db, telegramId: int, ts: int, ts2: int)
    requires OnStartWork(db, telegramId, ts).Accepted?
    ensures OnStartWork(OnStartWork(db, telegramId, ts).after, telegramId, ts2) == Refused
  {
    var db1 := OnStartWork(db, telegramId, ts).after;
    var eid := GetUserState(db, telegramId).value.0;
    assert db1.employees == db.employees;
    assert FindEmployeeByTelegram(db1, telegramId) == FindEmployeeByTelegram(db, telegramId);
  }

  /** A second "Закончил" after an accepted one is refused: no session is open any more. */
  lemma EndWorkTwice(db: Db, telegramId: int, ts: int, ts2: int)
    requires OnEndWork(db, telegramId, ts).Accepted?
    ensures OnEndWork(OnEndWork(db, telegramId, ts).after, telegramId, ts2) == Refused
  {
    var db1 := OnEndWork(db, telegramId, ts).after;
    assert db1.employees == db.employees;
    assert FindEmployeeByTelegram(db1, telegramId) == FindEmployeeByTelegram(db, telegramId);
  }

  /** "Отошел" right after "Закончил" is refused too. */
  lemma NoBreakAfterEndWork(db: Db, telegramId: int, ts: int, ts2: int)
    requires OnEndWork(db, telegramId, ts).Accepted?
    ensures OnStartBreak(OnEndWork(db, telegramId, ts).after, telegramId, ts2) == Refused
  {
    var db1 := OnEndWork(db, telegramId, ts).after;
    assert db1.employees == db.employees;
    assert FindEmployeeByTelegram(db1, telegramId) == FindEmployeeByTelegram(db, telegramId);
  }

  /**
   * Without the handler's guard the store call opens a second session: the
   * `is_online or has_session` check is what keeps one session open at a time.
   */
  lemma StartWorkUnguarded(db: Db, eid: int, ts: int)
    requires SessionsWf(db) && IsEmployee(db, eid) && HasOpenSession(db, eid)
    ensures !SingleOpenSession(StartWorkSession(db, eid, ts).value.sessions, eid)
  {
    var s1 := StartWorkSession(db, eid, ts).value.sessions;
    var i :| 0 <= i < |db.sessions| && OpenSessionOf(db.sessions[i], eid);
    assert OpenSessionOf(s1[i], eid) && OpenSessionOf(s1[|db.sessions|], eid);
  }

  /** With one open session of `eid`, the latest open session is that one. */
  lemma LatestSessionIsOnly(db: Db, eid: int, j: int)
    requires SingleOpenSession(db.sessions, eid)
    requires 0 <= j < |db.sessions| && OpenSessionOf(db.sessions[j], eid)
    ensures LatestOpenSession(db, eid) == Some(db.sessions[j])
  {
    assert HasOpenSession(db, eid);
    var k :| 0 <= k < |db.sessions| && db.sessions[k] == LatestOpenSession(db, eid).value;
  }

  /** The store's `end_break` closes the open break under the one open session. */
  lemma StoreEndBreakCloses(db: Db, eid: int, ts: int, i0: int, j: int)
    requires SingleOpenBreak(db, eid)
    requires 0 <= i0 < |db.breaks| && BreakIsOpen(db.breaks[i0])
    requires 0 <= j < |db.sessions| && db.sessions[j].id == db.breaks[i0].sessionId && OpenSessionOf(db.sessions[j], eid)
    requires LatestOpenSession(db, eid) == Some(db.sessions[j])
    ensures EndBreak(db, eid, ts).Ok?
    ensures EndBreak(db, eid, ts).value.breaks == CloseBreak(db.breaks, db.breaks[i0].id, ts)
  {
    var sid := db.sessions[j].id;
    assert HasOpenSession(db, eid);
    assert OpenBreakIn(db.breaks[i0], sid) && db.breaks[i0] in db.breaks;
    var r := EndBreak(db, eid, ts);
    var i :| 0 <= i < |db.breaks| && OpenBreakIn(db.breaks[i], sid)
             && r.value.breaks == CloseBreak(db.breaks, db.breaks[i].id, ts);
    assert IsOpenBreakOf(db.sessions, db.breaks[i], eid) && IsOpenBreakOf(db.sessions, db.breaks[i0], eid);
  }

  /**
   * `end_break_cb` looks for the break over all of the employee's sessions, the
   * store's `end_break` only under the latest open one. Under the invariant the
   * two close the same break and write the same store.
   */
  lemma EndBreakAgrees(db: Db, telegramId: int, ts: int)
    requires Inv(db) && OnEndBreak(db, telegramId, ts).Accepted?
    ensures var eid := GetUserState(db, telegramId).value.0;
            && EndBreak(db, eid, ts).Ok?
            && EndBreak(db, eid, ts).value == OnEndBreak(db, telegramId, ts).after
  {
    var eid := GetUserState(db, telegramId).value.0;
    assert EmployeeInv(db, eid);
    EndBreakSameWrites(db, eid, ts);
  }

  lemma EndBreakSameWrites(db: Db, eid: int, ts: int)
    requires EmployeeInv(db, eid) && OnBreak(db, eid)
    ensures EndBreak(db, eid, ts).Ok? && EndBreak(db, eid, ts).value == CloseLatestBreak(db, eid, ts)
  {
    var i0 :| 0 <= i0 < |db.breaks| && BreakIsOpen(db.breaks[i0]) && UnderOpenSessionOf(db.sessions, db.breaks[i0], eid);
    var j :| 0 <= j < |db.sessions| && db.sessions[j].id == db.breaks[i0].sessionId && OpenSessionOf(db.sessions[j], eid);
    assert IsOpenBreakOf(db.sessions, db.breaks[i0], eid);
    LatestSessionIsOnly(db, eid, j);
    StoreEndBreakCloses(db, eid, ts, i0, j);
    LatestBreakIsOnly(db, eid, ts, i0);
  }
}

=== FILE: store.dfy ===
/**
 * The attendance store of models.py: the `employees`, `online_status`,
 * `work_sessions`, `breaks` and `reminders` tables, and the store calls that read
 * and write them, each as a pure function from the store before the call to the
 * store after its commit. A call whose query raises (a foreign key that does not
 * resolve, `fetchone()` returning no row) commits nothing and yields `Err`.
 */
module Store {
  import opened Base
  import opened Calendar
  import opened Query

  datatype Employee = Employee(
    id: int,
    telegramId: int,
    lastName: string,
    firstName: string,
    patronymic: string,
    departmentId: int,
    divisionId: int,
    role: string,
    overtime: Option<int>)

  /** A `work_sessions` row; a missing `endedAt` means the shift is still open. */
  datatype Session = Session(id: int, employeeId: int, startedAt: int, endedAt: Option<int>, duration: Option<int>)

  /** A `breaks` row, attached to a session; a missing `endedAt` means the break is still open. */
  datatype Break = Break(id: int, sessionId: int, startedAt: int, endedAt: Option<int>, duration: Option<int>)

  datatype Reminder = Reminder(id: int, employeeId: int, remindAt: Minute, message: string)

  /**
   * The tables, with `online` keyed by employee id, and the next value of each
   * table's id sequence.
   */
  datatype Db = Db(
    employees: seq<Employee>,
    online: map<int, bool>,
    sessions: seq<Session>,
    breaks: seq<Break>,
    reminders: seq<Reminder>,
    nextEmployee: int,
    nextSession: int,
    nextBreak: int,
    nextReminder: int)

  datatype StoreError =
    | ForeignKeyViolation   // an insert names an employee that does not exist
    | NoActiveSession       // the open-session query found no row
    | NoActiveBreak         // the open-break query found no row

  /**
   * The role a fresh `employees` row starts with. The insert of `create_employee`
   * sets neither `role` nor `overtime`, so both take the column defaults of a
   * schema that is not part of this model; the model assumes `'worker'` (the
   * non-admin value the admin handler shows) and no overtime.
   */
  const DefaultRole: string := "worker"

  /** The store before anything is registered; every id sequence starts at 1. */
  const EmptyDb: Db := Db([], map[], [], [], [], 1, 1, 1, 1)

  predicate IsOpen(s: Session) { s.endedAt.None? }

  predicate BreakIsOpen(b: Break) { b.endedAt.None? }

  /** Some row of the employees table has id `eid`. */
  predicate HasEmployeeId(employees: seq<Employee>, eid: int) {
    exists i :: 0 <= i < |employees| && employees[i].id == eid
  }

  /** Some row of the sessions table has id `sid`. */
  predicate HasSessionId(sessions: seq<Session>, sid: int) {
    exists j :: 0 <= j < |sessions| && sessions[j].id == sid
  }

  predicate IsEmployee(db: Db, eid: int) {
    HasEmployeeId(db.employees, eid)
  }

  lemma RowIsEmployee(db: Db, e: Employee)
    requires e in db.employees
    ensures IsEmployee(db, e.id)
  {
    var i :| 0 <= i < |db.employees| && db.employees[i] == e;
  }

  predicate IsSession(db: Db, sid: int) {
    HasSessionId(db.sessions, sid)
  }

  // ---------------------------------------------------------------------------
  // Integrity of the tables: primary keys, unique telegram ids, foreign keys.

  ghost predicate EmployeesWf(db: Db) {
    && (forall i, j :: 0 <= i < j < |db.employees| ==> db.employees[i].id != db.employees[j].id)
    && (forall i, j :: 0 <= i < j < |db.employees| ==> db.employees[i].telegramId != db.employees[j].telegramId)
    && 1 <= db.nextEmployee
    && (forall i :: 0 <= i < |db.employees| ==> 1 <= db.employees[i].id < db.nextEmployee)
    && (forall k :: k in db.online ==> IsEmployee(db, k))
  }

  ghost predicate SessionsWf(db: Db) {
    && (forall i, j :: 0 <= i < j < |db.sessions| ==> db.sessions[i].id != db.sessions[j].id)
    && 1 <= db.nextSession
    && (forall i :: 0 <= i < |db.sessions| ==> 1 <= db.sessions[i].id < db.nextSession)
    && (forall i :: 0 <= i < |db.sessions| ==> IsEmployee(db, db.sessions[i].employeeId))
  }

  ghost predicate BreaksWf(db: Db) {
    && (forall i, j :: 0 <= i < j < |db.breaks| ==> db.breaks[i].id != db.breaks[j].id)
    && 1 <= db.nextBreak
    && (forall i :: 0 <= i < |db.breaks| ==> 1 <= db.breaks[i].id < db.nextBreak)
    && (forall i :: 0 <= i < |db.breaks| ==> IsSession(db, db.breaks[i].sessionId))
  }

  ghost predicate RemindersWf(db: Db) {
    && (forall i, j :: 0 <= i < j < |db.reminders| ==> db.reminders[i].id != db.reminders[j].id)
    && 1 <= db.nextReminder
    && (forall i :: 0 <= i < |db.reminders| ==> 1 <= db.reminders[i].id < db.nextReminder)
    && (forall i :: 0 <= i < |db.reminders| ==> IsEmployee(db, db.reminders[i].employeeId))
  }

  ghost predicate Wf(db: Db) {
    EmployeesWf(db) && SessionsWf(db) && BreaksWf(db) && RemindersWf(db)
  }

  // ---------------------------------------------------------------------------
  // Employees and online status.

  /** `get_employee_by_telegram`: the employee registered under a telegram id, if any. */
  function FindEmployeeByTelegram(db: Db, telegramId: int): (r: Option<Employee>)
    ensures r.Some? ==> r.value in db.employees && r.value.telegramId == telegramId
    ensures r.None? <==> forall e :: e in db.employees ==> e.telegramId != telegramId
  {
    var hits := Filter(db.employees, (e: Employee) => e.telegramId == telegramId);
    if hits == [] then None
    else
      assert hits[0] in hits;
      Some(hits[0])
  }

  /** The employee with a given id, if any. */
  function FindEmployee(db: Db, eid: int): (r: Option<Employee>)
    ensures r.Some? ==> r.value in db.employees && r.value.id == eid
    ensures r.None? <==> !IsEmployee(db, eid)
  {
    var hits := Filter(db.employees, (e: Employee) => e.id == eid);
    if hits == [] then
      assert forall i :: 0 <= i < |db.employees| ==> db.employees[i] in db.employees;
      None
    else
      assert hits[0] in hits;
      Some(hits[0])
  }

  /** `UPDATE online_status SET is_online = value WHERE employee_id = eid`: no row, no change. */
  function SetOnline(online: map<int, bool>, eid: int, value: bool): (r: map<int, bool>)
    ensures r.Keys == online.Keys
    ensures eid in online ==> r[eid] == value
    ensures forall k :: k in online && k != eid ==> r[k] == online[k]
  {
    if eid in online then online[eid := value] else online
  }

  /** The employee's `is_online`, false when the status row is missing. */
  predicate OnlineFlag(db: Db, eid: int) {
    eid in db.online && db.online[eid]
  }

  /** `INSERT_ONLINE_STATUS ... ON CONFLICT (employee_id) DO NOTHING` with `is_online = FALSE`. */
  function AddOfflineStatus(db: Db, eid: int): (r: Db)
    ensures r.online.Keys == db.online.Keys + {eid}
    ensures eid !in db.online ==> !r.online[eid]
    ensures forall k :: k in db.online ==> r.online[k] == db.online[k]
    ensures r == db.(online := r.online)
  {
    if eid in db.online then db else db.(online := db.online[eid := false])
  }

  /**
   * `create_employee`: inserts the employee unless the telegram id is taken, then
   * inserts an offline status row unless one exists; returns the employee's id.
   */
  function CreateEmployee(db: Db, telegramId: int, lastName: string, firstName: string, patronymic: string,
                          departmentId: int, divisionId: int): (r: (Db, int))
    ensures FindEmployeeByTelegram(db, telegramId).Some? ==>
              r.1 == FindEmployeeByTelegram(db, telegramId).value.id && r.0.employees == db.employees
    ensures FindEmployeeByTelegram(db, telegramId).None? ==>
              r.0.employees == db.employees + [Employee(r.1, telegramId, lastName, firstName, patronymic,
                                                          departmentId, divisionId, DefaultRole, None)]
    ensures r.1 in r.0.online && (r.1 !in db.online ==> !r.0.online[r.1])
    ensures r.0.online.Keys == db.online.Keys + {r.1}
    ensures forall k :: k in db.online ==> r.0.online[k] == db.online[k]
    ensures r.0.sessions == db.sessions && r.0.breaks == db.breaks && r.0.reminders == db.reminders
  {
    match FindEmployeeByTelegram(db, telegramId)
    case Some(e) => (AddOfflineStatus(db, e.id), e.id)
    case None =>
      var e := Employee(db.nextEmployee, telegramId, lastName, firstName, patronymic,
                        departmentId, divisionId, DefaultRole, None);
      (AddOfflineStatus(db.(employees := db.employees + [e], nextEmployee := db.nextEmployee + 1), e.id), e.id)
  }

  /** After registration the telegram id resolves to the id `create_employee` returned. */
  lemma CreateEmployeeRegisters(db: Db, telegramId: int, lastName: string, firstName: string, patronymic: string,
                                departmentId: int, divisionId: int)
    ensures var (db1, id) := CreateEmployee(db, telegramId, lastName, firstName, patronymic, departmentId, divisionId);
            var e := FindEmployeeByTelegram(db1, telegramId);
            e.Some? && e.value.id == id
  {
    var (db1, id) := CreateEmployee(db, telegramId, lastName, firstName, patronymic, departmentId, divisionId);
    if FindEmployeeByTelegram(db, telegramId).None? {
      var e := Employee(id, telegramId, lastName, firstName, patronymic, departmentId, divisionId, DefaultRole, None);
      FilterAppendHit(db.employees, e, (x: Employee) => x.telegramId == telegramId);
    }
  }

  /** A second registration with the same telegram id changes nothing and returns the same id. */
  lemma CreateEmployeeIdempotent(db: Db, telegramId: int, lastName: string, firstName: string, patronymic: string,
                                 departmentId: int, divisionId: int)
    ensures var (db1, id1) := CreateEmployee(db, telegramId, lastName, firstName, patronymic, departmentId, divisionId);
            CreateEmployee(db1, telegramId, lastName, firstName, patronymic, departmentId, divisionId) == (db1, id1)
  {
  }

  // ---------------------------------------------------------------------------
  // Shifts and breaks.

  /** The open sessions of `eid`: `WHERE employee_id = eid AND ended_at IS NULL`. */
  predicate OpenSessionOf(s: Session, eid: int) {
    s.employeeId == eid && IsOpen(s)
  }

  /** Some session of `eid` is open. */
  predicate HasOpenSession(db: Db, eid: int) {
    exists i :: 0 <= i < |db.sessions| && OpenSessionOf(db.sessions[i], eid)
  }

  /** `SELECT_ACTIVE_SESSION`: an open session of `eid` started no earlier than any other. */
  function LatestOpenSession(db: Db, eid: int): (r: Option<Session>)
    ensures r.Some? ==> r.value in db.sessions && OpenSessionOf(r.value, eid)
    ensures r.Some? ==> forall s :: s in db.sessions && OpenSessionOf(s, eid) ==> s.startedAt <= r.value.startedAt
    ensures r.None? <==> !HasOpenSession(db, eid)
  {
    match Latest(db.sessions, (s: Session) => OpenSessionOf(s, eid), (s: Session) => s.startedAt)
    case None => None
    case Some(i) => Some(db.sessions[i])
  }

  /** `UPDATE_WORK_SESSION_END`: every open session of `eid` ends at `ts`, lasting `ts - started_at`. */
  function CloseSessions(ss: seq<Session>, eid: int, ts: int): (r: seq<Session>)
    ensures |r| == |ss|
    ensures forall i :: 0 <= i < |ss| && OpenSessionOf(ss[i], eid) ==>
              r[i] == ss[i].(endedAt := Some(ts), duration := Some(ts - ss[i].startedAt))
    ensures forall i :: 0 <= i < |ss| && !OpenSessionOf(ss[i], eid) ==> r[i] == ss[i]
    ensures forall i :: 0 <= i < |r| ==> !OpenSessionOf(r[i], eid)
  {
    seq(|ss|, i requires 0 <= i < |ss| =>
      if OpenSessionOf(ss[i], eid) then ss[i].(endedAt := Some(ts), duration := Some(ts - ss[i].startedAt))
      else ss[i])
  }

  /** `start_work_session`: unguarded; appends an open session starting `now` and sets the employee online. */
  function StartWorkSession(db: Db, eid: int, now: int): (r: Result<Db, StoreError>)
    ensures r.Ok? <==> IsEmployee(db, eid)
    ensures r.Err? ==> r.error == ForeignKeyViolation
    ensures r.Ok? ==> r.value.sessions == db.sessions + [Session(db.nextSession, eid, now, None, None)]
    ensures r.Ok? ==> r.value.online == SetOnline(db.online, eid, true)
    ensures r.Ok? ==> r.value.employees == db.employees && r.value.breaks == db.breaks && r.value.reminders == db.reminders
  {
    if !IsEmployee(db, eid) then Err(ForeignKeyViolation)
    else
      Ok(db.(sessions := db.sessions + [Session(db.nextSession, eid, now, None, None)],
             nextSession := db.nextSession + 1,
             online := SetOnline(db.online, eid, true)))
  }

  /** `end_work_session`: closes every open session of `eid` at `now` and sets the employee offline. */
  function EndWorkSession(db: Db, eid: int, now: int): (r: Db)
    ensures !HasOpenSession(r, eid)
    ensures |r.sessions| == |db.sessions|
    ensures forall i :: 0 <= i < |db.sessions| && OpenSessionOf(db.sessions[i], eid) ==>
              r.sessions[i].endedAt == Some(now) && r.sessions[i].duration == Some(now - db.sessions[i].startedAt)
    ensures forall i :: 0 <= i < |db.sessions| && !OpenSessionOf(db.sessions[i], eid) ==> r.sessions[i] == db.sessions[i]
    ensures r.online == SetOnline(db.online, eid, false)
    ensures r == db.(sessions := r.sessions, online := r.online)
  {
    db.(sessions := CloseSessions(db.sessions, eid, now), online := SetOnline(db.online, eid, false))
  }

  /** `start_break`: a break opened at `now` under the latest open session of `eid`; the employee goes offline. */
  function StartBreak(db: Db, eid: int, now: int): (r: Result<Db, StoreError>)
    ensures r.Err? <==> !HasOpenSession(db, eid)
    ensures r.Err? ==> r.error == NoActiveSession
    ensures r.Ok? ==> r.value.breaks == db.breaks + [Break(db.nextBreak, LatestOpenSession(db, eid).value.id, now, None, None)]
    ensures r.Ok? ==> r.value.online == SetOnline(db.online, eid, false)
    ensures r.Ok? ==> r.value == db.(breaks := r.value.breaks, nextBreak := db.nextBreak + 1, online := r.value.online)
  {
    match LatestOpenSession(db, eid)
    case None => Err(NoActiveSession)
    case Some(s) =>
      Ok(db.(breaks := db.breaks + [Break(db.nextBreak, s.id, now, None, None)],
             nextBreak := db.nextBreak + 1,
             online := SetOnline(db.online, eid, false)))
  }

  /** `UPDATE_BREAK_END`: the break rows with id `bid` end at `ts`, lasting `ts - started_at`. */
  function CloseBreak(bs: seq<Break>, bid: int, ts: int): (r: seq<Break>)
    ensures |r| == |bs|
    ensures forall i :: 0 <= i < |bs| && bs[i].id == bid ==>
              r[i] == bs[i].(endedAt := Some(ts), duration := Some(ts - bs[i].startedAt))
    ensures forall i :: 0 <= i < |bs| && bs[i].id != bid ==> r[i] == bs[i]
  {
    seq(|bs|, i requires 0 <= i < |bs| =>
      if bs[i].id == bid then bs[i].(endedAt := Some(ts), duration := Some(ts - bs[i].startedAt)) else bs[i])
  }

  /** The open breaks of session `sid`. */
  predicate OpenBreakIn(b: Break, sid: int) {
    b.sessionId == sid && BreakIsOpen(b)
  }

  /**
   * `end_break`: within the latest open session of `eid`, the open break started
   * last ends at `now`; the employee goes online. Fails when either query finds no row.
   */
  function EndBreak(db: Db, eid: int, now: int): (r: Result<Db, StoreError>)
    ensures !HasOpenSession(db, eid) ==> r == Err(NoActiveSession)
    ensures HasOpenSession(db, eid) ==>
              var s := LatestOpenSession(db, eid).value;
              && (r.Err? <==> forall b :: b in db.breaks ==> !OpenBreakIn(b, s.id))
              && (r.Err? ==> r.error == NoActiveBreak)
              && (r.Ok? ==> exists i :: 0 <= i < |db.breaks| && OpenBreakIn(db.breaks[i], s.id)
                              && (forall b :: b in db.breaks && OpenBreakIn(b, s.id) ==> b.startedAt <= db.breaks[i].startedAt)
                              && r.value.breaks == CloseBreak(db.breaks, db.breaks[i].id, now))
    ensures r.Ok? ==> r.value.online == SetOnline(db.online, eid, true)
    ensures r.Ok? ==> r.value == db.(breaks := r.value.breaks, online := r.value.online)
  {
    match LatestOpenSession(db, eid)
    case None => Err(NoActiveSession)
    case Some(s) =>
      match Latest(db.breaks, (b: Break) => OpenBreakIn(b, s.id), (b: Break) => b.startedAt)
      case None => Err(NoActiveBreak)
      case Some(i) =>
        Ok(db.(breaks := CloseBreak(db.breaks, db.breaks[i].id, now), online := SetOnline(db.online, eid, true)))
  }

  // ---------------------------------------------------------------------------
  // Colleagues and overtime.

  /** The employees `SELECT_COLLEAGUES` joins: online, in the given department and division. */
  predicate IsOnlineColleague(db: Db, e: Employee, departmentId: int, divisionId: int) {
    OnlineFlag(db, e.id) && e.departmentId == departmentId && e.divisionId == divisionId
  }

  /** `get_colleagues`: the last and first name of every online employee of the department and division. */
  function GetColleagues(db: Db, departmentId: int, divisionId: int): (r: seq<(string, string)>)
    ensures forall e :: e in db.employees && IsOnlineColleague(db, e, departmentId, divisionId) ==>
              (e.lastName, e.firstName) in r
    ensures |r| == |OnlineColleagues(db, departmentId, divisionId)|
    ensures forall k :: 0 <= k < |r| ==>
              var e := OnlineColleagues(db, departmentId, divisionId)[k];
              e in db.employees && IsOnlineColleague(db, e, departmentId, divisionId) && r[k] == (e.lastName, e.firstName)
  {
    var hits := OnlineColleagues(db, departmentId, divisionId);
    NamesCover(hits);
    assert forall k :: 0 <= k < |hits| ==> hits[k] in hits;
    Names(hits)
  }

  /** The employee rows the join keeps, in table order. */
  function OnlineColleagues(db: Db, departmentId: int, divisionId: int): (r: seq<Employee>)
    ensures forall e :: e in r <==> e in db.employees && IsOnlineColleague(db, e, departmentId, divisionId)
  {
    Filter(db.employees, (e: Employee) => IsOnlineColleague(db, e, departmentId, divisionId))
  }

  /** The `(last_name, first_name)` pair of every row, in order. */
  function Names(es: seq<Employee>): (r: seq<(string, string)>)
    ensures |r| == |es|
    ensures forall k :: 0 <= k < |r| ==> r[k] == (es[k].lastName, es[k].firstName)
  {
    seq(|es|, k requires 0 <= k < |es| => (es[k].lastName, es[k].firstName))
  }

  lemma NamesCover(es: seq<Employee>)
    ensures forall e :: e in es ==> (e.lastName, e.firstName) in Names(es)
  {
    forall e | e in es
      ensures (e.lastName, e.firstName) in Names(es)
    {
      var k :| 0 <= k < |es| && es[k] == e;
      assert Names(es)[k] == (e.lastName, e.firstName);
    }
  }

  /** `get_employee_overtime`: the stored overtime in seconds, zero when the row or the value is missing. */
  function GetEmployeeOvertime(db: Db, eid: int): (r: int)
    ensures !IsEmployee(db, eid) ==> r == 0
    ensures r != 0 ==> exists e :: e in db.employees && e.id == eid && e.overtime == Some(r)
    ensures EmployeesWf(db) ==> forall e :: e in db.employees && e.id == eid && e.overtime.Some? ==> r == e.overtime.value
  {
    match FindEmployee(db, eid)
    case None => 0
    case Some(e) =>
      assert EmployeesWf(db) ==> forall x :: x in db.employees && x.id == eid ==> x == e;
      match e.overtime
      case None => 0
      case Some(v) => v
  }

  // ---------------------------------------------------------------------------
  // Reminders.

  /** `WHERE employee_id = eid` on the reminders table. */
  function OwnedBy(eid: int): Reminder -> bool {
    (x: Reminder) => x.employeeId == eid
  }

  /** The rows `DELETE ... WHERE id = rid` keeps. */
  function OtherThan(rid: int): Reminder -> bool {
    (x: Reminder) => x.id != rid
  }

  /** `remind_at` order: `a` fires no later than `b`. */
  predicate RemindsNoLater(a: Reminder, b: Reminder) {
    !DateTimeBefore(b.remindAt, a.remindAt)
  }

  lemma RemindsNoLaterIsPreorder()
    ensures TotalPreorder(RemindsNoLater)
  {
  }

  /** `create_reminder`: stores the reminder under a fresh id and returns the stored row. */
  function CreateReminder(db: Db, eid: int, remindAt: Minute, message: string): (r: Result<(Db, Reminder), StoreError>)
    ensures r.Ok? <==> IsEmployee(db, eid)
    ensures r.Err? ==> r.error == ForeignKeyViolation
    ensures r.Ok? ==> r.value.1 == Reminder(db.nextReminder, eid, remindAt, message)
    ensures r.Ok? ==> r.value.0.reminders == db.reminders + [r.value.1]
    ensures r.Ok? ==> r.value.0 == db.(reminders := r.value.0.reminders, nextReminder := db.nextReminder + 1)
  {
    if !IsEmployee(db, eid) then Err(ForeignKeyViolation)
    else
      var row := Reminder(db.nextReminder, eid, remindAt, message);
      Ok((db.(reminders := db.reminders + [row], nextReminder := db.nextReminder + 1), row))
  }

  /** `get_reminders`: the employee's reminders, every one of them once, earliest first. */
  function GetReminders(db: Db, eid: int): (r: seq<Reminder>)
    ensures SortedBy(r, RemindsNoLater)
    ensures forall x :: x in r <==> x in db.reminders && x.employeeId == eid
    ensures forall x :: multiset(r)[x] == if x.employeeId == eid then multiset(db.reminders)[x] else 0
  {
    RemindsNoLaterIsPreorder();
    var mine := Filter(db.reminders, OwnedBy(eid));
    FilterCount(db.reminders, OwnedBy(eid));
    var r := SortBy(mine, RemindsNoLater);
    assert forall x :: x in r <==> x in mine by {
      forall x
        ensures x in r <==> x in mine
      {
        assert x in r <==> x in multiset(r);
        assert x in mine <==> x in multiset(mine);
      }
    }
    r
  }

  /** `delete_reminder`: removes the row with that id, whoever owns it; an unknown id changes nothing. */
  function DeleteReminder(db: Db, rid: int): (r: Db)
    ensures forall x :: x in r.reminders <==> x in db.reminders && x.id != rid
    ensures (forall x :: x in db.reminders ==> x.id != rid) ==> r == db
    ensures r == db.(reminders := r.reminders)
  {
    var kept := Filter(db.reminders, OtherThan(rid));
    if forall x :: x in db.reminders ==> x.id != rid then
      FilterKeepsAll(db.reminders, OtherThan(rid));
      db
    else db.(reminders := kept)
  }

  // ---------------------------------------------------------------------------
  // Every store call keeps the tables' keys and references intact.

  lemma EmptyDbWf()
    ensures Wf(EmptyDb)
  {
  }

  /** Rows that keep their ids keep every reference into them resolvable. */
  lemma SessionsKept(db: Db, db1: Db)
    requires |db.sessions| <= |db1.sessions|
    requires forall j :: 0 <= j < |db.sessions| ==> db1.sessions[j].id == db.sessions[j].id
    ensures forall sid :: IsSession(db, sid) ==> IsSession(db1, sid)
  {
    forall sid | IsSession(db, sid)
      ensures IsSession(db1, sid)
    {
      var j :| 0 <= j < |db.sessions| && db.sessions[j].id == sid;
      assert db1.sessions[j].id == sid;
    }
  }

  lemma EmployeesKept(db: Db, db1: Db)
    requires |db.employees| <= |db1.employees|
    requires forall j :: 0 <= j < |db.employees| ==> db1.employees[j].id == db.employees[j].id
    ensures forall eid :: IsEmployee(db, eid) ==> IsEmployee(db1, eid)
  {
    forall eid | IsEmployee(db, eid)
      ensures IsEmployee(db1, eid)
    {
      var j :| 0 <= j < |db.employees| && db.employees[j].id == eid;
      assert db1.employees[j].id == eid;
    }
  }

  /** Each table's integrity depends only on that table, its counter and the table it references. */
  lemma EmployeesFrame(db: Db, db1: Db)
    requires EmployeesWf(db)
    requires db1.employees == db.employees && db1.nextEmployee == db.nextEmployee && db1.online.Keys <= db.online.Keys
    ensures EmployeesWf(db1)
    ensures forall k :: IsEmployee(db1, k) == IsEmployee(db, k)
  {
  }

  lemma SessionsFrame(db: Db, db1: Db)
    requires SessionsWf(db)
    requires db1.sessions == db.sessions && db1.nextSession == db.nextSession && db1.employees == db.employees
    ensures SessionsWf(db1)
    ensures forall k :: IsSession(db1, k) == IsSession(db, k)
  {
    assert forall k :: IsEmployee(db1, k) == IsEmployee(db, k);
  }

  lemma BreaksFrame(db: Db, db1: Db)
    requires BreaksWf(db)
    requires db1.breaks == db.breaks && db1.nextBreak == db.nextBreak && db1.sessions == db.sessions
    ensures BreaksWf(db1)
  {
    assert forall k :: IsSession(db1, k) == IsSession(db, k);
  }

  lemma RemindersFrame(db: Db, db1: Db)
    requires RemindersWf(db)
    requires db1.reminders == db.reminders && db1.nextReminder == db.nextReminder && db1.employees == db.employees
    ensures RemindersWf(db1)
  {
    assert forall k :: IsEmployee(db1, k) == IsEmployee(db, k);
  }

  /** Rewriting break rows in place, ids and sessions kept, keeps the breaks table intact. */
  lemma BreaksRewritten(db: Db, db1: Db)
    requires BreaksWf(db)
    requires db1.sessions == db.sessions && db1.nextBreak == db.nextBreak && |db1.breaks| == |db.breaks|
    requires forall i :: 0 <= i < |db.breaks| ==> db1.breaks[i].id == db.breaks[i].id && db1.breaks[i].sessionId == db.breaks[i].sessionId
    ensures BreaksWf(db1)
  {
    assert forall k :: IsSession(db1, k) == IsSession(db, k);
  }

  /** Wf of a store whose only change is `online` values, break rows rewritten in place, or both. */
  lemma WfFrame(db: Db, db1: Db)
    requires Wf(db)
    requires db1.employees == db.employees && db1.online.Keys == db.online.Keys && db1.nextEmployee == db.nextEmployee
    requires db1.sessions == db.sessions && db1.nextSession == db.nextSession
    requires db1.reminders == db.reminders && db1.nextReminder == db.nextReminder
    requires |db1.breaks| == |db.breaks| && db1.nextBreak == db.nextBreak
    requires forall i :: 0 <= i < |db.breaks| ==> db1.breaks[i].id == db.breaks[i].id && db1.breaks[i].sessionId == db.breaks[i].sessionId
    ensures Wf(db1)
  {
    EmployeesFrame(db, db1);
    SessionsFrame(db, db1);
    BreaksRewritten(db, db1);
    RemindersFrame(db, db1);
  }

  /** The status row `create_employee` adds names an employee. */
  lemma AddOfflineStatusWf(db: Db, eid: int)
    requires Wf(db) && IsEmployee(db, eid)
    ensures Wf(AddOfflineStatus(db, eid))
  {
    var db1 := AddOfflineStatus(db, eid);
    assert forall k :: IsEmployee(db1, k) == IsEmployee(db, k);
    SessionsFrame(db, db1);
    BreaksFrame(db, db1);
    RemindersFrame(db, db1);
  }

  lemma AppendEmployeeKeys(db: Db, e: Employee)
    requires EmployeesWf(db)
    requires e.id == db.nextEmployee
    requires forall x :: x in db.employees ==> x.telegramId != e.telegramId
    ensures EmployeesWf(db.(employees := db.employees + [e], nextEmployee := db.nextEmployee + 1))
  {
    var db1 := db.(employees := db.employees + [e], nextEmployee := db.nextEmployee + 1);
    EmployeesKept(db, db1);
    assert db1.employees[|db.employees|] == e;
    assert forall i :: 0 <= i < |db.employees| ==> db1.employees[i] == db.employees[i] && db.employees[i] in db.employees;
  }

  /** A new employee row with a fresh id and an unused telegram id keeps the tables intact. */
  lemma AppendEmployeeWf(db: Db, e: Employee)
    requires Wf(db)
    requires e.id == db.nextEmployee
    requires forall x :: x in db.employees ==> x.telegramId != e.telegramId
    ensures Wf(db.(employees := db.employees + [e], nextEmployee := db.nextEmployee + 1))
    ensures IsEmployee(db.(employees := db.employees + [e], nextEmployee := db.nextEmployee + 1), e.id)
  {
    var db1 := db.(employees := db.employees + [e], nextEmployee := db.nextEmployee + 1);
    AppendEmployeeKeys(db, e);
    EmployeesKept(db, db1);
    assert db1.employees[|db.employees|] == e;
    assert SessionsWf(db1);
    assert BreaksWf(db1) by {
      assert forall k :: IsSession(db1, k) == IsSession(db, k);
    }
    assert RemindersWf(db1);
  }

  lemma CreateEmployeeWf(db: Db, telegramId: int, lastName: string, firstName: string, patronymic: string,
                         departmentId: int, divisionId: int)
    requires Wf(db)
    ensures Wf(CreateEmployee(db, telegramId, lastName, firstName, patronymic, departmentId, divisionId).0)
  {
    var r := CreateEmployee(db, telegramId, lastName, firstName, patronymic, departmentId, divisionId);
    match FindEmployeeByTelegram(db, telegramId)
    case Some(e) =>
      var j :| 0 <= j < |db.employees| && db.employees[j] == e;
      assert r.0 == AddOfflineStatus(db, e.id);
      AddOfflineStatusWf(db, e.id);
    case None =>
      var e := Employee(db.nextEmployee, telegramId, lastName, firstName, patronymic,
                        departmentId, divisionId, DefaultRole, None);
      var rows := db.(employees := db.employees + [e], nextEmployee := db.nextEmployee + 1);
      assert r.0 == AddOfflineStatus(rows, e.id);
      AppendEmployeeWf(db, e);
      AddOfflineStatusWf(rows, e.id);
  }

  lemma StartWorkSessionWf(db: Db, eid: int, now: int)
    requires Wf(db) && IsEmployee(db, eid)
    ensures Wf(StartWorkSession(db, eid, now).value)
  {
    SessionsKept(db, StartWorkSession(db, eid, now).value);
  }

  lemma EndWorkSessionWf(db: Db, eid: int, now: int)
    requires Wf(db)
    ensures Wf(EndWorkSession(db, eid, now))
  {
    var db1 := EndWorkSession(db, eid, now);
    assert forall j :: 0 <= j < |db.sessions| ==>
             db1.sessions[j].id == db.sessions[j].id && db1.sessions[j].employeeId == db.sessions[j].employeeId;
    SessionsKept(db, db1);
    SessionsKept(db1, db);
    EmployeesFrame(db, db1);
    RemindersFrame(db, db1);
    assert SessionsWf(db1);
    assert BreaksWf(db1);
  }

  /** A new break row with a fresh id under an existing session keeps the tables intact. */
  lemma AppendBreakWf(db: Db, b: Break)
    requires Wf(db) && b.id == db.nextBreak && IsSession(db, b.sessionId)
    ensures Wf(db.(breaks := db.breaks + [b], nextBreak := db.nextBreak + 1))
  {
    var db1 := db.(breaks := db.breaks + [b], nextBreak := db.nextBreak + 1);
    EmployeesFrame(db, db1);
    SessionsFrame(db, db1);
    RemindersFrame(db, db1);
    assert BreaksWf(db1) by {
      assert forall i :: 0 <= i < |db.breaks| ==> db1.breaks[i] == db.breaks[i];
      assert db1.breaks[|db.breaks|] == b;
    }
  }

  lemma StartBreakWf(db: Db, eid: int, now: int)
    requires Wf(db) && HasOpenSession(db, eid)
    ensures Wf(StartBreak(db, eid, now).value)
  {
    var db1 := StartBreak(db, eid, now).value;
    var s := LatestOpenSession(db, eid).value;
    var b := Break(db.nextBreak, s.id, now, None, None);
    assert IsSession(db, s.id) by {
      var j :| 0 <= j < |db.sessions| && db.sessions[j] == s;
    }
    var db2 := db.(breaks := db.breaks + [b], nextBreak := db.nextBreak + 1);
    AppendBreakWf(db, b);
    assert db1 == db2.(online := db1.online);
    WfFrame(db2, db1);
  }

  /** Closing a break by id and setting the online flag keeps the tables intact. */
  lemma CloseBreakWf(db: Db, bid: int, ts: int, eid: int, value: bool)
    requires Wf(db)
    ensures Wf(db.(breaks := CloseBreak(db.breaks, bid, ts), online := SetOnline(db.online, eid, value)))
  {
    WfFrame(db, db.(breaks := CloseBreak(db.breaks, bid, ts), online := SetOnline(db.online, eid, value)));
  }

  lemma EndBreakWf(db: Db, eid: int, now: int)
    requires Wf(db) && EndBreak(db, eid, now).Ok?
    ensures Wf(EndBreak(db, eid, now).value)
  {
    match LatestOpenSession(db, eid)
    case Some(s) =>
      match Latest(db.breaks, (b: Break) => OpenBreakIn(b, s.id), (b: Break) => b.startedAt)
      case Some(i) =>
        CloseBreakWf(db, db.breaks[i].id, now, eid, true);
  }

  lemma CreateReminderWf(db: Db, eid: int, remindAt: Minute, message: string)
    requires Wf(db) && IsEmployee(db, eid)
    ensures Wf(CreateReminder(db, eid, remindAt, message).value.0)
  {
    var db1 := CreateReminder(db, eid, remindAt, message).value.0;
    EmployeesFrame(db, db1);
    SessionsFrame(db, db1);
    BreaksFrame(db, db1);
    assert RemindersWf(db1) by {
      assert forall i :: 0 <= i < |db.reminders| ==> db1.reminders[i] == db.reminders[i];
    }
  }

  /** The reminders left after a delete are rows the table already held. */
  lemma DeleteReminderKeys(db: Db, rid: int)
    requires RemindersWf(db)
    ensures RemindersWf(DeleteReminder(db, rid))
  {
    var db1 := DeleteReminder(db, rid);
    if exists x :: x in db.reminders && x.id == rid {
      var kept := Filter(db.reminders, OtherThan(rid));
      assert db1.reminders == kept && db1.employees == db.employees;
      FilterKeysDistinct(db.reminders, OtherThan(rid), (x: Reminder) => x.id);
      forall i | 0 <= i < |kept|
        ensures 1 <= kept[i].id < db1.nextReminder && IsEmployee(db1, kept[i].employeeId)
      {
        assert kept[i] in kept;
        var j :| 0 <= j < |db.reminders| && db.reminders[j] == kept[i];
      }
    }
  }

  lemma DeleteReminderWf(db: Db, rid: int)
    requires Wf(db)
    ensures Wf(DeleteReminder(db, rid))
  {
    var db1 := DeleteReminder(db, rid);
    DeleteReminderKeys(db, rid);
    EmployeesFrame(db, db1);
    SessionsFrame(db, db1);
    BreaksFrame(db, db1);
  }

  // ---------------------------------------------------------------------------
  // The reminder table across create, list and delete.

  /** A stored reminder's id is below the counter, so the row `create_reminder` adds is new. */
  lemma FreshReminder(db: Db, row: Reminder)
    requires RemindersWf(db) && row.id == db.nextReminder
    ensures row !in db.reminders
    ensures forall x :: x in db.reminders ==> x.id != row.id
  {
  }

  /**
   * After `create_reminder(e, t, m)` the employee's list holds the returned row
   * `(id, t, m)` exactly once, and no other row carries that id.
   */
  lemma CreateThenList(db: Db, eid: int, remindAt: Minute, message: string)
    requires RemindersWf(db) && IsEmployee(db, eid)
    ensures var created := CreateReminder(db, eid, remindAt, message).value;
            var list := GetReminders(created.0, eid);
            && created.1.remindAt == remindAt && created.1.message == message
            && multiset(list)[created.1] == 1
            && (forall x :: x in list && x.id == created.1.id ==> x == created.1)
  {
    var created := CreateReminder(db, eid, remindAt, message).value;
    FreshReminder(db, created.1);
    OnceInList(db.reminders, created.1, GetReminders(created.0, eid), eid);
  }

  /** A row with a new id appended to a table shows up once in a list drawn from that table. */
  lemma OnceInList(before: seq<Reminder>, row: Reminder, list: seq<Reminder>, eid: int)
    requires forall x :: x in before ==> x.id != row.id
    requires row.employeeId == eid
    requires forall x :: x in list <==> x in before + [row] && x.employeeId == eid
    requires forall x :: multiset(list)[x] == if x.employeeId == eid then multiset(before + [row])[x] else 0
    ensures multiset(list)[row] == 1
    ensures forall x :: x in list && x.id == row.id ==> x == row
  {
    assert row !in before;
    assert multiset(before + [row])[row] == multiset(before)[row] + 1;
  }

  /** Creating a reminder leaves every other employee's list as it was. */
  lemma CreateKeepsOtherLists(db: Db, eid: int, remindAt: Minute, message: string, other: int)
    requires IsEmployee(db, eid) && other != eid
    ensures GetReminders(CreateReminder(db, eid, remindAt, message).value.0, other) == GetReminders(db, other)
  {
    var (db1, row) := CreateReminder(db, eid, remindAt, message).value;
    assert db1.reminders == db.reminders + [row];
    FilterConcat(db.reminders, [row], OwnedBy(other));
    assert Filter([row], OwnedBy(other)) == [] by {
      assert [row][1..] == [];
    }
    assert Filter(db1.reminders, OwnedBy(other)) == Filter(db.reminders, OwnedBy(other));
  }

  /** Deleting the reminder just created restores the table; only the id counter has moved. */
  lemma CreateThenDelete(db: Db, eid: int, remindAt: Minute, message: string)
    requires RemindersWf(db) && IsEmployee(db, eid)
    ensures var (db1, row) := CreateReminder(db, eid, remindAt, message).value;
            DeleteReminder(db1, row.id) == db.(nextReminder := db.nextReminder + 1)
  {
    var (db1, row) := CreateReminder(db, eid, remindAt, message).value;
    FreshReminder(db, row);
    var p := OtherThan(row.id);
    FilterConcat(db.reminders, [row], p);
    assert Filter([row], p) == [];
    FilterKeepsAll(db.reminders, p);
    DeleteReminderFilters(db1, row.id);
  }

  /**
   * `DELETE FROM reminders WHERE id=%s`: every row with another id stays exactly
   * as often as it was stored, and no row with that id stays.
   */
  lemma DeleteReminderCount(db: Db, rid: int)
    ensures forall x :: multiset(DeleteReminder(db, rid).reminders)[x] == if x.id == rid then 0 else multiset(db.reminders)[x]
  {
    DeleteReminderFilters(db, rid);
    FilterCount(db.reminders, OtherThan(rid));
  }

  /** The rows `delete_reminder` keeps are the others, in store order. */
  lemma DeleteReminderFilters(db: Db, rid: int)
    ensures DeleteReminder(db, rid) == db.(reminders := Filter(db.reminders, OtherThan(rid)))
  {
    if forall x :: x in db.reminders ==> x.id != rid {
      FilterKeepsAll(db.reminders, OtherThan(rid));
    }
  }
}

=== FILE: text.dfy ===
/**
 * Character classes, trimming and decimal numerals, as used by the handlers when
 * they read user text (`str.strip()`, `int()`) and when they build reply text
 * (`str(n)`, `%02d`).
 */
module Text {
  import opened Base

  predicate IsDigit(c: char) { '0' <= c <= '9' }

  /** The characters Python's `str.strip()` and the pattern class `\s` treat as whitespace. */
  predicate IsSpace(c: char) {
    || c == ' '
    || ('\t' <= c <= '\r')
    || ('\U{1c}' <= c <= '\U{1f}')
    || c == '\U{85}' || c == '\U{a0}' || c == '\U{1680}'
    || ('\U{2000}' <= c <= '\U{200a}')
    || c == '\U{2028}' || c == '\U{2029}' || c == '\U{202f}' || c == '\U{205f}' || c == '\U{3000}'
  }

  predicate AllDigits(s: string) {
    forall i :: 0 <= i < |s| ==> IsDigit(s[i])
  }

  function DigitValue(c: char): (d: nat)
    requires IsDigit(c)
    ensures d < 10
  {
    c as int - '0' as int
  }

  function DigitChar(d: nat): (c: char)
    requires d < 10
    ensures IsDigit(c) && DigitValue(c) == d
  {
    ('0' as int + d) as char
  }

  /** The value of a run of decimal digits, most significant first, as Python's `int()` reads it. */
  function DecimalValue(s: string): nat
    requires AllDigits(s)
  {
    if s == [] then 0 else DecimalValue(s[..|s| - 1]) * 10 + DigitValue(s[|s| - 1])
  }

  function Pow10(n: nat): (p: nat)
    ensures p >= 1
  {
    if n == 0 then 1 else 10 * Pow10(n - 1)
  }

  /** `n` in exactly `width` digits, zero-padded on the left: the `%02d` / `%04d` conversion. */
  function PaddedDigits(n: nat, width: nat): (s: string)
    requires n < Pow10(width)
    ensures |s| == width && AllDigits(s)
    ensures DecimalValue(s) == n
  {
    if width == 0 then ""
    else
      var s := PaddedDigits(n / 10, width - 1) + [DigitChar(n % 10)];
      assert s[..|s| - 1] == PaddedDigits(n / 10, width - 1);
      s
  }

  /** `str(n)` for a natural number: its decimal numeral without leading zeros. */
  function NatToString(n: nat): (s: string)
    ensures |s| >= 1 && AllDigits(s)
    ensures DecimalValue(s) == n
    ensures s[0] == '0' ==> n == 0
  {
    if n < 10 then [DigitChar(n)]
    else
      var s := NatToString(n / 10) + [DigitChar(n % 10)];
      assert s[..|s| - 1] == NatToString(n / 10);
      s
  }

  /** `str(i)` for any integer: a minus sign before the numeral of a negative value. */
  function IntToString(i: int): (s: string)
    ensures |s| >= 1
    ensures i >= 0 <==> AllDigits(s)
    ensures i < 0 <==> s[0] == '-'
  {
    if i < 0 then
      var s := "-" + NatToString(-i);
      assert !IsDigit(s[0]);
      s
    else NatToString(i)
  }

  /** Distinct integers print differently, so a printed integer names its value. */
  lemma IntToStringInjective(a: int, b: int)
    requires IntToString(a) == IntToString(b)
    ensures a == b
  {
    if a < 0 {
      assert IntToString(a)[1..] == NatToString(-a);
      assert IntToString(b)[1..] == NatToString(-b);
    }
  }

  /** A printed integer holds only digits and a leading minus sign, so no separator such as `_` or `.`. */
  lemma IntToStringChars(i: int)
    ensures forall k :: 0 <= k < |IntToString(i)| ==> IsDigit(IntToString(i)[k]) || IntToString(i)[k] == '-'
  {
  }

  /** A printed integer holds no character other than digits and the minus sign. */
  lemma IntToStringLacks(i: int, c: char)
    requires !IsDigit(c) && c != '-'
    ensures Lacks(IntToString(i), c)
  {
    IntToStringChars(i);
  }

  /** An optional minus sign and at least one decimal digit, read as an integer. */
  function ParseInt(s: string): Option<int> {
    if |s| >= 2 && s[0] == '-' && AllDigits(s[1..]) then Some(-(DecimalValue(s[1..]) as int))
    else if s != [] && AllDigits(s) then Some(DecimalValue(s))
    else None
  }

  /** Reading a printed integer gives the integer back. */
  lemma ParseIntToString(i: int)
    ensures ParseInt(IntToString(i)) == Some(i)
  {
    if i < 0 {
      assert IntToString(i)[1..] == NatToString(-i);
    }
  }

  /** The length of the longest prefix of `s` whose characters all satisfy `p`. */
  function LeadingRun(s: string, p: char -> bool): (n: nat)
    ensures n <= |s|
    ensures forall i :: 0 <= i < n ==> p(s[i])
    ensures n == |s| || !p(s[n])
  {
    if s != [] && p(s[0]) then 1 + LeadingRun(s[1..], p) else 0
  }

  /** The index of the first `c` in `s`, or `|s|` when there is none. */
  function IndexOf(s: string, c: char): (i: nat)
    ensures i <= |s|
    ensures i < |s| ==> s[i] == c
    ensures forall k :: 0 <= k < i ==> s[k] != c
  {
    if s == [] then 0
    else if s[0] == c then 0
    else 1 + IndexOf(s[1..], c)
  }

  /** `s` holds no `c`. */
  predicate Lacks(s: string, c: char) {
    c !in s
  }

  lemma LacksConcat(a: string, b: string, c: char)
    ensures Lacks(a + b, c) <==> Lacks(a, c) && Lacks(b, c)
  {
    if Lacks(a, c) && Lacks(b, c) {
      forall k | 0 <= k < |a + b|
        ensures (a + b)[k] != c
      {
        if k >= |a| {
          assert (a + b)[k] == b[k - |a|];
        }
      }
    }
    if Lacks(a + b, c) {
      forall k | 0 <= k < |a|
        ensures a[k] != c
      {
        assert (a + b)[k] == a[k];
      }
      forall k | 0 <= k < |b|
        ensures b[k] != c
      {
        assert (a + b)[|a| + k] == b[k];
      }
    }
  }

  lemma DigitsLack(s: string, c: char)
    requires AllDigits(s) && !IsDigit(c)
    ensures Lacks(s, c)
  {
  }

  lemma IndexOfAfter(a: string, c: char, b: string)
    requires Lacks(a, c)
    ensures IndexOf(a + [c] + b, c) == |a|
  {
    var s := a + [c] + b;
    assert s[|a|] == c;
  }

  /** Equal strings cut at their first separator agree piece by piece. */
  lemma SeparatorSplits(a: string, b: string, c: string, d: string, sep: char)
    requires Lacks(a, sep) && Lacks(c, sep)
    requires a + [sep] + b == c + [sep] + d
    ensures a == c && b == d
  {
    IndexOfAfter(a, sep, b);
    IndexOfAfter(c, sep, d);
    var s := a + [sep] + b;
    assert a == s[..|a|] && b == s[|a| + 1..];
    assert c == s[..|c|] && d == s[|c| + 1..];
  }

  lemma LeadingRunBefore(a: string, b: string, p: char -> bool)
    requires forall k :: 0 <= k < |a| ==> p(a[k])
    requires b != [] && !p(b[0])
    ensures LeadingRun(a + b, p) == |a|
  {
    var s := a + b;
    assert s[|a|] == b[0];
  }

  /** The length of the longest suffix of `s` whose characters all satisfy `p`. */
  function TrailingRun(s: string, p: char -> bool): (n: nat)
    ensures n <= |s|
    ensures forall i :: |s| - n <= i < |s| ==> p(s[i])
    ensures n == |s| || !p(s[|s| - n - 1])
  {
    if s != [] && p(s[|s| - 1]) then 1 + TrailingRun(s[..|s| - 1], p) else 0
  }

  /**
   * Python's `str.strip()`: the result is a slice of `s` that neither starts nor
   * ends with whitespace, and everything cut off on either side is whitespace.
   */
  function Strip(s: string): (r: string)
    ensures var k := LeadingRun(s, IsSpace);
            && k + |r| <= |s| && r == s[k..k + |r|]
            && (forall i :: k + |r| <= i < |s| ==> IsSpace(s[i]))
    ensures r == [] || (!IsSpace(r[0]) && !IsSpace(r[|r| - 1]))
  {
    var k := LeadingRun(s, IsSpace);
    var t := s[k..];
    var n := TrailingRun(t, IsSpace);
    assert forall i :: k + |t| - n <= i < |s| ==> s[i] == t[i - k];
    t[..|t| - n]
  }

  /** Text that already starts and ends with a non-space character is left as it is. */
  lemma StripKeeps(s: string)
    requires s != [] && !IsSpace(s[0]) && !IsSpace(s[|s| - 1])
    ensures Strip(s) == s
  {
  }

  /** `sep.join(parts)` for a one-character separator. */
  function Join(parts: seq<string>, sep: char): string {
    if |parts| == 0 then ""
    else if |parts| == 1 then parts[0]
    else parts[0] + [sep] + Join(parts[1..], sep)
  }

  /** `s.split(sep)`: the pieces between the occurrences of `sep`, in order. */
  function Split(s: string, sep: char): (r: seq<string>)
    ensures |r| >= 1
    decreases |s|
  {
    var k := IndexOf(s, sep);
    if k == |s| then [s] else [s[..k]] + Split(s[k + 1..], sep)
  }

  /** Splitting stops at the separator after a first piece that holds none. */
  lemma SplitAfter(first: string, rest: string, sep: char)
    requires Lacks(first, sep)
    ensures Split(first + [sep] + rest, sep) == [first] + Split(rest, sep)
  {
    var s := first + [sep] + rest;
    IndexOfAfter(first, sep, rest);
    assert s[..|first|] == first;
    assert s[|first| + 1..] == rest;
  }

  /** Splitting joined pieces gives the pieces back when none of them holds the separator. */
  lemma {:induction false} SplitJoin(parts: seq<string>, sep: char)
    requires |parts| >= 1
    requires forall i :: 0 <= i < |parts| ==> Lacks(parts[i], sep)
    ensures Split(Join(parts, sep), sep) == parts
  {
    if |parts| > 1 {
      SplitAfter(parts[0], Join(parts[1..], sep), sep);
      SplitJoin(parts[1..], sep);
      assert parts == [parts[0]] + parts[1..];
    }
  }

  /** A title and lines joined by a separator none of them holds split back into that title and those lines. */
  lemma TitledLines(title: string, lines: seq<string>, sep: char)
    requires Lacks(title, sep)
    requires forall i :: 0 <= i < |lines| ==> Lacks(lines[i], sep)
    ensures Split(Join([title] + lines, sep), sep) == [title] + lines
  {
    var parts := [title] + lines;
    forall i | 0 <= i < |parts|
      ensures Lacks(parts[i], sep)
    {
      if i > 0 {
        assert parts[i] == lines[i - 1];
      }
    }
    SplitJoin(parts, sep);
  }

  /** Code-point order on strings: a prefix comes first, otherwise the first differing character decides. */
  predicate NoLater(a: string, b: string) {
    a == [] || (b != [] && (a[0] < b[0] || (a[0] == b[0] && NoLater(a[1..], b[1..]))))
  }

  /** Any two strings are ordered one way or the other. */
  lemma {:induction false} NoLaterTotal(a: string, b: string)
    ensures NoLater(a, b) || NoLater(b, a)
    decreases |a|
  {
    if a != [] && b != [] && a[0] == b[0] {
      NoLaterTotal(a[1..], b[1..]);
    }
  }

  lemma {:induction false} NoLaterTransitive(a: string, b: string, c: string)
    requires NoLater(a, b) && NoLater(b, c)
    ensures NoLater(a, c)
    decreases |a|
  {
    if a != [] && a[0] == b[0] && b[0] == c[0] {
      NoLaterTransitive(a[1..], b[1..], c[1..]);
    }
  }

  /** Strings ordered both ways are equal. */
  lemma {:induction false} NoLaterAntisymmetric(a: string, b: string)
    requires NoLater(a, b) && NoLater(b, a)
    ensures a == b
    decreases |a|
  {
    if a != [] {
      NoLaterAntisymmetric(a[1..], b[1..]);
      assert a == [a[0]] + a[1..] && b == [b[0]] + b[1..];
    }
  }
}

